=== FILE: README.md ===
# MicBlog core, modelled in Dafny

MicBlog is a set of Go micro-services: a wallet service, a shop service, a user service, a comment service and an API gateway. This project models their core logic in Dafny and proves properties of it.

**Wallet ledger.** A table of wallets (one balance per user) and a log of transactions.
- The repository's locked primitives update a balance under a floor check, or move money between two users. They lock rows in user-id order and create the recipient's wallet on demand.
- The "safe" logic layer validates its input and appends a completed record.
- The older logic layer reads, checks and saves the balance itself. It moves a record from pending to completed or failed, and its transfer is two separate legs.

**Shop.** Products are soft-deleted, and their stock is reduced conditionally and increased unconditionally. The cart keeps one row per (user, product), merging on add. Placing an order:
- validates every line;
- writes the order, its items and the stock reductions;
- calls the wallet.
- On payment failure it returns the stock and cancels the order.
- Cancelling an order returns its stock.

**User service.** Registration, login, and e-mail verification with a 6-digit code.

**API gateway.** The CORS and JWT middlewares, service routing and the health report.

**Comment service.** A comment table with soft delete and active-only listings, and a logic layer that announces every change as an event.

## Modelling choices

- **Tables.** Every table is a `seq` of rows inside a class whose methods change it in place. An auto-increment id is the row's position plus one. Carts lose rows, so they keep explicit ids and a next-id counter.
- **Money and stock.** Balances, prices and totals are `float64` in Go and `int` here, in cents. Float rounding is not modelled.
- **Failures.**
  - A database or Redis write that the code reacts to may fail; the model makes this a nondeterministic choice inside the repository method.
  - Inside the wallet's locked primitives such a failure makes the database transaction roll back every row, a recipient wallet created earlier in the same transaction included.
  - The same goes for the wallet service's payment reply to the shop and for e-mail delivery.
  - Every such failure leaves the state the code leaves.
- **Library calls.** bcrypt, JWT parsing, `crypto/rand` and the HTTP client are parameters of the operations that use them.
- **Logs of outside effects.** Kafka events, locks taken and mails sent are ghost sequences: `events`, `locks` and `outbox`.
- **Transaction kinds.** A wallet transaction's type is income or expense, and its status is pending, completed or failed.
- **Corrections.** Two shop operations behave differently from what their code evidently intends (see "## Findings"). Both are modelled as written, with a lemma that exhibits the difference. The rest of the model uses the corrected behaviour.

## Model

| member | source | states |
|---|---|---|
| WalletModels.FindWallet | wallet-service/repository/wallet.go:95-102 | the lookup by user id yields the first row of that user, or none when no row belongs to the user |
| WalletModels.FindWalletAppend | wallet-service/repository/wallet.go:95-102 | a new row does not change the lookup of a user who already has a wallet, and it is found for a user who had none |
| WalletModels.TotalBalanceAdjust | wallet-service/repository/wallet.go:190-192 | changing one balance by `delta` changes the sum of all balances by exactly `delta` |
| WalletModels.EnsureWalletFacts | wallet-service/repository/wallet.go:247-260 | lazily creating a wallet leaves an existing one alone; otherwise it appends a zero-balance row with the next id; other users' lookups, the total, the id layout, one-wallet-per-user and non-negativity are all kept |
| WalletModels.EnsureWalletIdempotent | wallet-service/repository/wallet.go:247-260 | creating a user's wallet on demand twice is the same as doing it once |
| WalletModels.BalanceDelta | wallet-service/repository/wallet.go:182-187 | "add" adds the amount; every other operation string subtracts it |
| WalletModels.SafeUpdateOutcome | wallet-service/repository/wallet.go:160-212 | a missing wallet gives not-found, and a "deduct" below the balance gives insufficient balance, both with no change; on success only that user's wallet changes, the returned wallet carries the new balance, and the total moves by the delta |
| WalletModels.SafeUpdateErrorsRollBack | wallet-service/repository/wallet.go:160-212 | every error the locked update may return, a store error included, leaves the table as it was; a store error happens only once the wallet is found and the floor check passes; a success is the computed one |
| WalletModels.SafeUpdateKeepsNonNegative | wallet-service/repository/wallet.go:174-179 | with "add" or "deduct" and a non-negative amount, no balance becomes negative |
| WalletModels.SafeUpdateUnknownOperationDebits | wallet-service/repository/wallet.go:175-187 | an operation other than "add"/"deduct" skips the floor check but still debits, so it can drive a balance negative |
| WalletModels.TransferLocks | wallet-service/repository/wallet.go:232-287 | the wallet of the smaller user id is locked first, whichever side is the sender |
| WalletModels.TransferFailureRollsBack | wallet-service/repository/wallet.go:228-311 | a failed transfer (missing sender, or balance below the amount) leaves every wallet as it was; every error an allowed outcome carries, a store error included, leaves the table as it was, and an allowed success is the computed one |
| WalletModels.TransferWritesExactly | wallet-service/repository/wallet.go:232-287 | a transfer reaches a write (the recipient's creation or the debit) exactly when it would succeed, or when the recipient is locked first and has no wallet yet |
| WalletModels.DebitThenCreditIsTransfer | wallet-service/repository/wallet.go:228-311 | debiting a covered sender wallet and then crediting the recipient's wallet, created on demand, is exactly the locked transfer's success |
| WalletModels.CoveredTransferSucceeds | wallet-service/repository/wallet.go:228-311 | a transfer between two users whose sender wallet covers the amount succeeds, debiting that wallet and crediting the recipient's after its lazy creation |
| WalletModels.CreditAfterDebit | wallet-service/repository/wallet.go:247-260 | creating the recipient's wallet after a debit gives the debit applied to the table with the recipient's wallet, and the recipient's wallet at the same position |
| WalletModels.FindWalletAdjust | wallet-service/repository/wallet.go:95-102 | a balance update does not change which row the lookup by user finds |
| WalletModels.EnsureWalletAdjust | wallet-service/repository/wallet.go:247-260 | creating a wallet on demand and updating an existing row's balance can be done in either order |
| WalletModels.TransferShape | wallet-service/repository/wallet.go:228-311 | a transfer either fails and leaves the table as it was, or debits the sender's row, whose balance covers the amount, and credits the recipient's row in the table after the recipient's lazy creation; when the two users differ the sender's row is the one found before that creation |
| WalletModels.TransferSuccessMovesAmount | wallet-service/repository/wallet.go:289-310 | a successful transfer debits the sender by the amount and credits the recipient, creating the recipient's wallet if needed; nothing else changes and the total is conserved |
| WalletModels.TransferKeepsNonNegative | wallet-service/repository/wallet.go:289-300 | the conditional debit never drives a balance below zero |
| WalletModels.AdjustKeepsOwners | wallet-service/repository/wallet.go:190-192 | a balance update keeps every row's id and owner, the id layout and one-wallet-per-user |
| WalletModels.TransferKeepsTableShape | wallet-service/repository/wallet.go:228-311 | a transfer keeps the id layout and one-wallet-per-user |
| WalletModels.MoveKeepsShape | wallet-service/repository/wallet.go:289-310 | debiting one row and crediting another keeps the id layout and one-wallet-per-user |
| WalletModels.RecipientFirstSteps | wallet-service/repository/wallet.go:262-310 | after the recipient's wallet is locked or created, the recipient-first transfer fails with not-found when the sender has no wallet, with insufficient balance when its balance is below the amount, and otherwise moves the money between the two found rows; in the last case the transfer writes |
| WalletModels.LazyWallet | wallet-service/logic/wallet.go:64-73 | the user's wallet after on-demand creation: its position holds the user's row and the lookup finds it there |
| WalletModels.NetUpdate | wallet-service/repository/wallet.go:155-157 | rewriting one record changes a wallet's net by the difference of that record's effects |
| WalletModels.NetAppend | wallet-service/repository/wallet.go:110-112 | appending a record changes each wallet's net by that record's effect on it |
| WalletModels.CompletedRecordKeepsReconciled | wallet-service/logic/wallet_safe.go:46-60 | a balance change recorded by a completed record of the same signed amount keeps every balance equal to its wallet's net of completed records |
| WalletModels.PendingThenCompletedKeepsReconciled | wallet-service/logic/wallet.go:74-103 | a pending record that is then completed, together with the balance change, keeps balances reconciled |
| WalletModels.UnfinishedRecordKeepsReconciled | wallet-service/logic/wallet.go:83-96 | appending a pending record, or a failed one, leaves balances reconciled |
| WalletModels.NetOfUnreferencedWallet | wallet-service/repository/wallet.go:252-259 | a wallet no record refers to has net zero, so a new zero-balance wallet is reconciled |
| WalletModels.EnsureWalletKeepsConsistent | wallet-service/repository/wallet.go:252-259 | creating a wallet on demand keeps the ledger consistent |
| WalletModels.FreshWalletKeepsConsistent | wallet-service/repository/wallet.go:252-259 | appending a zero-balance wallet with the next id keeps the ledger consistent |
| WalletModels.CompletedRecordKeepsConsistent | wallet-service/logic/wallet_safe.go:46-60 | a completed record with its balance change keeps the ledger consistent |
| WalletModels.PendingRecordOutcomesKeepConsistent | wallet-service/logic/wallet.go:74-103 | each way a pending record can end (completed with the change, left pending, or failed) keeps the ledger consistent |
| WalletModels.TransferWithoutRecordsBreaksReconciliation | wallet-service/logic/wallet_safe.go:124-153 | a successful non-zero safe transfer writes no record, so balances no longer match the records |
| WalletModels.TransferToDescription | wallet-service/logic/wallet.go:207 | the sender's description is "Transfer to user " followed by the recipient, and it ends with the caller's description |
| WalletModels.TransferFromDescription | wallet-service/logic/wallet.go:213 | the recipient's description is "Transfer from user " followed by the sender, and it ends with the caller's description |
| WalletModels.TransactionsOf | wallet-service/repository/wallet.go:125-132 | exactly the user's records, newest first |
| WalletModels.Adjust | wallet-service/repository/wallet.go:190-192 | the atomic `balance + ?` update: one row's balance moved by a signed delta (its facts are stated by `AdjustKeepsOwners` and `TotalBalanceAdjust`) |
| WalletModels.EnsureWallet | wallet-service/repository/wallet.go:247-260 | the recipient's wallet created on demand: the table as it was when the user has a wallet, else with a zero-balance row for the user appended at the next id (facts in `EnsureWalletFacts`) |
| WalletModels.SafeUpdate | wallet-service/repository/wallet.go:160-212 | the locked update's computed outcome: not-found, insufficient balance for a "deduct" below the balance, else the row adjusted by `BalanceDelta` and returned re-read (facts in `SafeUpdateOutcome`) |
| WalletModels.SafeUpdateAllows | wallet-service/repository/wallet.go:160-212 | the outcomes the locked update may have: the computed one, or a store error with the table unchanged where the computed one would succeed (facts in `SafeUpdateErrorsRollBack`) |
| WalletModels.Move | wallet-service/repository/wallet.go:289-310 | the conditional debit then the credit: when the sender's row covers the amount it is debited and the recipient's row credited, else insufficient balance with the table as before the transfer (facts in `MoveKeepsShape`) |
| WalletModels.SafeTransferSpec | wallet-service/repository/wallet.go:228-311 | the locked transfer's computed outcome, sender-first when the sender's id is smaller, recipient-first otherwise (facts in `TransferShape`, `TransferSuccessMovesAmount`) |
| WalletModels.SenderFirst | wallet-service/repository/wallet.go:232-310 | sender locked first: not-found or insufficient balance with no change, else the recipient's wallet created on demand and the money moved (facts in `TransferLocks`, `CoveredTransferSucceeds`) |
| WalletModels.RecipientFirst | wallet-service/repository/wallet.go:262-310 | recipient locked or created first, then the sender's checks, then the move (facts in `RecipientFirstSteps`) |
| WalletModels.SafeTransferAllows | wallet-service/repository/wallet.go:228-311 | the outcomes the transfer may have: the computed one, or a store error with the table unchanged at any write the transfer reaches (facts in `TransferFailureRollsBack`, `TransferWritesExactly`) |
| WalletRepository.WalletRepository.CreateWallet | wallet-service/repository/wallet.go:90-92 | the row is stored with the next id, or a store error changes nothing |
| WalletRepository.WalletRepository.GetWalletByUserID | wallet-service/repository/wallet.go:95-102 | succeeds exactly when the user has a wallet, and then returns that user's first wallet; otherwise not-found |
| WalletRepository.WalletRepository.UpdateWallet | wallet-service/repository/wallet.go:105-107 | the whole row with that id is overwritten, or a store error changes nothing |
| WalletRepository.WalletRepository.SafeUpdateWalletBalance | wallet-service/repository/wallet.go:160-212 | the outcome is one `SafeUpdateAllows` permits: the result and table of `SafeUpdate`, or, once the wallet is found and the floor check passes, a store error from the UPDATE or re-read with the table rolled back; the user's row is locked |
| WalletRepository.WalletRepository.SafeTransfer | wallet-service/repository/wallet.go:215-311 | the outcome is one `SafeTransferAllows` permits: that of `SafeTransferSpec`, or a store error from a write the run reaches with every row rolled back; without a store error the locks are taken in `TransferLocks` order, with one they are a non-empty prefix of it |
| WalletRepository.WalletRepository.TransferSenderFirst | wallet-service/repository/wallet.go:232-310 | with the sender's id below the recipient's: the sender is locked and its balance checked first, then the recipient is locked or created at zero, then the money moves; the table and result are those of `SenderFirst`, or a store error from the creation, debit or credit with the table rolled back; the lock order is `TransferLocks` |
| WalletRepository.WalletRepository.TransferRecipientFirst | wallet-service/repository/wallet.go:262-310 | otherwise: the recipient is locked or created at zero first, then the sender is locked and its balance checked, then the money moves; the table and result are those of `RecipientFirst`, or a store error from the creation, debit or credit with the table rolled back; a failed creation stops after the first lock |
| WalletRepository.WalletRepository.CheckSenderThenMove | wallet-service/repository/wallet.go:277-310 | with the recipient's wallet already locked or created, the sender is locked and checked and the money moved: the table and result are those of `RecipientFirst` on the saved table, or a store error from a write restores the saved table |
| WalletRepository.WalletRepository.LockRecipient | wallet-service/repository/wallet.go:247-275 | the recipient's wallet is created with balance 0 when it is missing, and nothing else changes; a failed insert is reported and changes nothing |
| WalletRepository.WalletRepository.DebitThenCredit | wallet-service/repository/wallet.go:289-310 | the conditional debit and the credit give the wallets and error of `Move`, where a refused debit restores the saved table; or a store error from either UPDATE, which also restores it |
| WalletRepository.TransactionRepository.CreateTransaction | wallet-service/repository/wallet.go:110-112 | the record is appended with the next id, or a store error changes nothing |
| WalletRepository.TransactionRepository.GetTransactionByID | wallet-service/repository/wallet.go:115-122 | found exactly for an existing id, and the record has that id |
| WalletRepository.TransactionRepository.GetTransactionsByUserID | wallet-service/repository/wallet.go:125-132 | the user's records, newest first |
| WalletRepository.TransactionRepository.UpdateTransaction | wallet-service/repository/wallet.go:155-157 | the record with that id is overwritten, or a store error changes nothing |
| WalletSafeLogic.SafeWalletLogic.SafeAddBalance | wallet-service/logic/wallet_safe.go:29-74 | a non-positive amount changes nothing; otherwise the wallets are those of the locked "add", or unchanged after its store error; a missing wallet is not-found; a found wallet gives a success or a store error; a success carries a completed income record of the new balance's wallet and one payment event of +amount; a failure changes no wallet and writes no record and no event |
| WalletSafeLogic.SafeWalletLogic.SafeDeductBalance | wallet-service/logic/wallet_safe.go:77-121 | as for adding, for "deduct": insufficient balance when the balance is below the amount; a store error only when the balance covers it; a success gives a completed expense record and an event of -amount |
| WalletSafeLogic.SafeWalletLogic.SafeTransfer | wallet-service/logic/wallet_safe.go:124-153 | a non-positive amount or a transfer to oneself is refused with no change; otherwise the outcome is one the locked transfer allows, store errors included, and every error leaves the wallets unchanged; no record is written; one event of -amount described "Transfer to user …" on success |
| WalletLogic.ChangeOutcomeTotal | wallet-service/logic/wallet.go:62-118 | a successful add or deduct moves the total balance by the signed amount; a failed one leaves it unchanged |
| WalletLogic.ChangeOutcomeNonNegative | wallet-service/logic/wallet.go:121-182 | adds and checked deducts keep every balance non-negative |
| WalletLogic.ChangeOutcomeLedger | wallet-service/logic/wallet.go:74-103 | failures keep the ledger consistent; a success whose record was completed keeps it consistent; a success whose record stayed pending (its completion write failed) leaves balances unreconciled |
| WalletLogic.ChangeOutcome | wallet-service/logic/wallet.go:62-182 | the outcomes an add or deduct may have, on the wallet created on demand (facts in `ChangeOutcomeTotal`, `ChangeOutcomeNonNegative`, `ChangeOutcomeLedger`) |
| WalletLogic.ChangeOutcomeAt | wallet-service/logic/wallet.go:74-118 | the same outcomes with the lazily created table and the user's position given: a failure before the record, a record left failed or pending, or a completed record with the balance change |
| WalletLogic.TwoStepTransfer | wallet-service/logic/wallet.go:197-221 | the outcomes of the transfer as two separate balance changes: a failed debit, a debit then a failed credit, or both succeeded (facts in `TwoStepTransferFacts` and the three per-outcome lemmas) |
| WalletLogic.OutcomeAtLedger | wallet-service/logic/wallet.go:74-103 | the same three ledger facts, for an outcome stated on the table after lazy creation |
| WalletLogic.WalletLogic.CreateWallet | wallet-service/logic/wallet.go:30-49 | an existing wallet is returned unchanged; otherwise a zero-balance wallet is created; a store error changes nothing; one wallet per user is kept |
| WalletLogic.WalletLogic.GetWallet | wallet-service/logic/wallet.go:52-59 | the user's wallet, created on first use |
| WalletLogic.WalletLogic.RecordAndSettle | wallet-service/logic/wallet.go:74-103 | a pending record, then the whole-row save of the wallet moved by the signed amount, then the record's final status: a success leaves the row moved and the record completed (or still pending when that last write failed); a failure leaves the balances unchanged and the record absent, pending or failed |
| WalletLogic.SettledChange | wallet-service/logic/wallet.go:62-118 | what `RecordAndSettle` leaves behind, run on the user's wallet in the table after a successful lazy creation, is an outcome `ChangeOutcomeAt` allows for that table and position |
| WalletLogic.SaveAtOwnId | wallet-service/logic/wallet.go:88-90 | saving a row moved by an amount at its own id is the balance update of its position |
| WalletLogic.WalletLogic.AddBalance | wallet-service/logic/wallet.go:62-118 | a non-positive amount changes nothing; otherwise the outcome is an allowed income outcome; success emits one event of +amount |
| WalletLogic.WalletLogic.DeductBalance | wallet-service/logic/wallet.go:121-182 | as for adding, for an expense; a balance below the amount gives insufficient balance with no change; success emits an event of -amount |
| WalletLogic.WalletLogic.GetTransactions | wallet-service/logic/wallet.go:185-187 | the user's records, newest first |
| WalletLogic.WalletLogic.Transfer | wallet-service/logic/wallet.go:197-221 | the outcome is a `TwoStepTransfer`: success is a successful debit of the sender then a successful credit of the recipient, and moves the money as `SafeTransferSpec` does, conserving the total and appending two events, the sender's debit of -amount then the recipient's credit of +amount, with their descriptions; a failed debit keeps every existing wallet row and the recipient's lookup, adds only the sender's records, and emits nothing; a failed credit keeps the sender debited with no other wallet changed (at most a zero wallet for the recipient), the total falling by the amount, and appends only the sender's debit event; earlier events are always kept; non-negativity is kept |
| WalletLogic.WalletLogic.TransferLegs | wallet-service/logic/wallet.go:206-220 | the two legs make a `TwoStepTransfer` outcome, and the event log gains exactly the events of the legs that succeeded, in order, earlier events kept |
| WalletLogic.TwoStepTransferFacts | wallet-service/logic/wallet.go:197-221 | whose money moves in each two-step outcome: a success equals the locked transfer's success; a failed debit touches only the sender's side; a failed credit is not undone, leaving the sender debited and the total down by the amount; no balance becomes negative |
| WalletLogic.TwoStepSucceeded | wallet-service/logic/wallet.go:206-220 | a successful two-step transfer has the wallets of the locked transfer's success, keeps the total, and makes no balance negative |
| WalletLogic.TwoStepDebitFailed | wallet-service/logic/wallet.go:206-209 | a failed debit keeps every existing wallet and record, keeps the recipient's lookup, adds only the sender's records, and keeps the total |
| WalletLogic.TwoStepCreditFailed | wallet-service/logic/wallet.go:212-218 | a failed credit leaves the sender debited, adds at most a zero-balance wallet for the recipient, and leaves the total down by the amount |
| WalletLogic.TwoLegsAsSafeTransfer | wallet-service/logic/wallet.go:206-219 | a successful debit of the sender followed by a successful credit of the recipient gives exactly the wallets of the locked transfer's success |
| WalletLogic.DebitLegFailureSparesOthers | wallet-service/logic/wallet.go:206-209 | a failed debit keeps every existing wallet row, adds at most a zero wallet for the sender, keeps every other user's lookup, and adds at most one record, the sender's |
| WalletLogic.CreditLegFailureKeepsDebit | wallet-service/logic/wallet.go:212-218 | a failed credit after a successful debit leaves the sender's wallet debited, every other existing row as it was, and at most a zero wallet for the recipient |
| WalletLogic.TwoLegsTotals | wallet-service/logic/wallet.go:206-219 | after a successful debit, a successful credit restores the total and a failed one leaves it down by the amount; no balance becomes negative |
| ShopModels.ReduceOne | shop-service/repository/product.go:136-140 | stock is reduced only when it covers the quantity; no other row or field changes; non-negative stock stays non-negative |
| ShopModels.IncreaseOne | shop-service/repository/product.go:142-146 | stock is increased unconditionally; no other row or field changes |
| ShopModels.Offline | shop-service/repository/product.go:132-134 | delete is a soft delete: only the row's status becomes "offline" |
| ShopModels.Listed | shop-service/repository/product.go:108-126 | exactly the active products (of the category, when one is given), newest first |
| ShopModels.Page | shop-service/repository/product.go:121-123 | the page is a contiguous slice of the listing, no longer than the limit, and full when enough rows remain |
| ShopModels.PagesTileListing | shop-service/logic/product.go:83-86 | with `offset = (page - 1) * pageSize`, every listed product appears on its page at its position |
| ShopModels.ConsecutivePages | shop-service/logic/product.go:83-86 | two consecutive pages together are the double-size page starting at the first one |
| ShopModels.Merge | shop-service/logic/product.go:95-137 | each field present in the update request replaces the stored field; absent fields keep their values; the id is kept |
| ShopModels.MergeLaws | shop-service/logic/product.go:95-137 | an empty update request changes nothing, and applying one request twice is applying it once |
| ShopModels.UpdateProductAsWritten | shop-service/repository/product.go:128-130 | the update as written keeps the id; a requested non-zero stock or price is stored, while a requested zero, like an absent field, keeps the stored value |
| ShopModels.GormUpdates | shop-service/repository/product.go:128-130 | as written, a struct update skips zero-valued fields, so a new stock of 0 keeps the old stock |
| ShopModels.ZeroStockUpdateIsLost | shop-service/repository/product.go:128-130 | an update setting stock 5 to 0 stores 0 in the corrected model but keeps 5 as written |
| ShopModels.AsWrittenAgreesWithoutZeroValues | shop-service/logic/product.go:89-145 | without zero values on either side, the written update and the corrected merge agree |
| ShopModels.Overwrite | shop-service/repository/product.go:128-130 | the corrected update stores every field of the merged row at that id and changes no other row |
| ShopModels.UpdateProductStoresMerge | shop-service/logic/product.go:89-145 | the corrected update stores exactly the merge, including a stock of 0, and keeps the id layout |
| ShopModels.CheckLine | shop-service/logic/product.go:171-222 | a line passes only for an existing active product with enough stock, and its item carries the product's price and name and total = price × quantity; a failure names that line's product |
| ShopModels.ValidateAt | shop-service/logic/product.go:171-222 | in a validated order, each line's item passed the stock check against everything requested of its product so far |
| ShopModels.ValidateItems | shop-service/logic/product.go:171-222 | a validated order has one item per line, for that line's product and quantity, at the product's price; every product's stock covers the whole quantity requested of it |
| ShopModels.ValidateLines | shop-service/logic/product.go:171-222 | a validated order's items stand for exactly its lines: the same products and quantities, in the same order |
| ShopModels.ValidateFailure | shop-service/logic/product.go:171-222 | a refused order fails with a product error that names a product of one of its lines |
| ShopModels.ValidateFailurePropagates | shop-service/logic/product.go:171-222 | once a prefix of the lines is refused, the whole order is refused with that prefix's error |
| ShopModels.RequestedPrefixBound | shop-service/logic/product.go:171-222 | in a validated order, every line's product exists and its stock covers everything the whole order requests of it |
| ShopModels.ApplyReduce | shop-service/logic/product.go:249-252 | the item-by-item stock reductions never make a non-negative stock negative |
| ShopModels.ValidatedReduceApplies | shop-service/logic/product.go:241-253 | after a validated order no reduction is skipped: every product loses exactly what the order requests of it |
| ShopModels.IncreaseAllShifts | shop-service/logic/product.go:258-261 | the compensation gives every product exactly what the lines request of it |
| ShopModels.CompensationRestoresStock | shop-service/logic/product.go:255-266 | for a validated order, returning every item's quantity after the reductions restores all stock exactly |
| ShopModels.ValidateAgreesWithoutRepeats | shop-service/logic/product.go:171-222 | when no product is named by two lines, the corrected cumulative check and the check as written give the same result, so the correction only changes orders that repeat a product |
| ShopModels.ValidateAsWritten | shop-service/logic/product.go:171-222 | the per-line stock check as written; an accepted order has one item per line |
| ShopModels.Validate | shop-service/logic/product.go:171-222 | (corrected, see Findings) the cumulative stock check; an accepted order has one item per line (its facts in `ValidateItems`, `ValidateLines`, `ValidateFailure`) |
| ShopModels.IncreaseAll | shop-service/logic/product.go:255-266 | the compensation after a failed payment, every line's quantity returned to its product, keeps the number of products (what each product gains is `IncreaseAllShifts`) |
| ShopModels.DuplicateLinesInflateStock | shop-service/logic/product.go:171-222 | with stock 5 and two lines of 3 for one product, the written check passes, the reductions leave 2, and compensation inflates stock to 8; the corrected check refuses the order |
| ShopModels.SetOrderStatus | shop-service/repository/product.go:169-171 | only that order's status changes |
| ShopModels.OrdersOf | shop-service/repository/product.go:163-167 | exactly the user's orders, newest first |
| ShopModels.ItemsOf | shop-service/repository/product.go:177-181 | exactly the order's items, in insertion order: with ids equal to positions their ids ascend |
| ShopModels.ItemsOfAppend | shop-service/repository/product.go:173-181 | a new item joins the end of its own order's items and no other order's |
| ShopModels.FindCart | shop-service/repository/product.go:219-226 | the row of the (user, product) pair, or none when there is no such row |
| ShopModels.MergeAddQuantities | shop-service/repository/product.go:185-197 | adding to the cart raises an existing pair's total quantity by the added quantity; a pair with no row starts at the inserted quantity, 1 for a zero request; no other pair's quantity changes |
| ShopModels.MergeAdd | shop-service/repository/product.go:185-197 | adding to the cart: an existing pair's row gains the quantity, otherwise a row with the next id and the inserted quantity is appended (facts in `MergeAddQuantities`, `MergeAddShape`) |
| ShopModels.InsertedQuantity | shop-service/models/product.go:50 | an inserted cart row never has quantity 0: a zero request gets the column default 1, any other quantity is kept |
| ShopModels.MergeAddShape | shop-service/repository/product.go:185-197 | an existing pair's row is updated in place, otherwise one row is appended with the next id and the inserted quantity; at most one row per pair is kept |
| ShopModels.SetQuantity | shop-service/repository/product.go:205-209 | only the pair's row gets the new quantity |
| ShopModels.KeepPreservesShape | shop-service/repository/product.go:211-217 | deleting rows keeps the id order and at most one row per pair |
| ShopModels.WithoutPair | shop-service/repository/product.go:211-213 | exactly the rows other than the pair's remain |
| ShopModels.WithoutUser | shop-service/repository/product.go:215-217 | exactly the other users' rows remain |
| ShopModels.CartOf | shop-service/repository/product.go:199-203 | exactly the user's rows |
| ShopModels.CartLines | shop-service/logic/product.go:160-168 | one order line per cart row, with its product and quantity |
| ShopRepository.ProductRepository.CreateProduct | shop-service/repository/product.go:95-97 | the product is stored with the next id |
| ShopRepository.ProductRepository.GetProductByID | shop-service/repository/product.go:99-106 | the row with that id, whatever its status, or not-found |
| ShopRepository.ProductRepository.GetProducts | shop-service/repository/product.go:108-126 | the total counts every listed product, and the page is the slice of the listing at that offset and limit |
| ShopRepository.ProductRepository.UpdateProduct | shop-service/repository/product.go:128-130 | (corrected) every field of the given row is stored at that id |
| ShopRepository.ProductRepository.DeleteProduct | shop-service/repository/product.go:132-134 | only that row's status becomes "offline" |
| ShopRepository.ProductRepository.ReduceStock | shop-service/repository/product.go:136-140 | the conditional reduction of that row's stock |
| ShopRepository.ProductRepository.IncreaseStock | shop-service/repository/product.go:142-146 | the unconditional increase of that row's stock |
| ShopRepository.OrderRepository.CreateOrder | shop-service/repository/product.go:150-152 | the order is stored with the next id |
| ShopRepository.OrderRepository.GetOrderByID | shop-service/repository/product.go:154-161 | the order with that id, or not-found |
| ShopRepository.OrderRepository.GetOrdersByUserID | shop-service/repository/product.go:163-167 | the user's orders, newest first |
| ShopRepository.OrderRepository.UpdateOrderStatus | shop-service/repository/product.go:169-171 | only that order's status changes |
| ShopRepository.OrderRepository.CreateOrderItem | shop-service/repository/product.go:173-175 | the item is stored with the next id |
| ShopRepository.OrderRepository.GetOrderItemsByOrderID | shop-service/repository/product.go:177-181 | exactly the items stored for the order, in ascending id (insertion) order |
| ShopRepository.CartRepository.AddToCart | shop-service/repository/product.go:185-197 | the pair's quantity is raised by the request, or a row is inserted with the next id and the request's quantity, a zero quantity stored as the default 1 |
| ShopRepository.CartRepository.GetCartByUserID | shop-service/repository/product.go:199-203 | the user's rows |
| ShopRepository.CartRepository.UpdateCartItem | shop-service/repository/product.go:205-209 | only the pair's quantity changes |
| ShopRepository.CartRepository.DeleteCartItem | shop-service/repository/product.go:211-213 | only the pair's row is removed |
| ShopRepository.CartRepository.ClearCart | shop-service/repository/product.go:215-217 | every row of the user is removed, and no other user's row |
| ShopRepository.CartRepository.GetCartItem | shop-service/repository/product.go:219-226 | the pair's row, or not-found |
| ShopLogic.ProductLogic.CreateProduct | shop-service/logic/product.go:58-75 | the requested fields are stored with status "active" and the next id |
| ShopLogic.ProductLogic.GetProduct | shop-service/logic/product.go:78-80 | the product with that id, or not-found |
| ShopLogic.ProductLogic.GetProducts | shop-service/logic/product.go:83-86 | page `page` of `pageSize` listed products, starting at `(page - 1) * pageSize`, all active, with the listing's size as total |
| ShopLogic.ProductLogic.UpdateProduct | shop-service/logic/product.go:89-145 | (corrected, see Findings) a missing product is not-found with no change; otherwise the stored row becomes the merge of the old row with the request, and nothing else changes |
| ShopLogic.ProductLogic.DeleteProduct | shop-service/logic/product.go:148-150 | the soft delete |
| ShopLogic.OrderLogic.CollectItems | shop-service/logic/product.go:171-222 | (corrected, see Findings) the loop's items and total are those of the cumulative validation: the items of a valid order with total = sum of item totals, or the first failing line's error |
| ShopLogic.OrderLogic.WriteItem | shop-service/logic/product.go:242-252 | one pass of the write loop: when the first k items are stored and their reductions applied, afterwards the first k + 1 are |
| ShopLogic.OrderLogic.WriteItems | shop-service/logic/product.go:241-253 | every item is stored for the order with consecutive ids, and every product's stock is reduced as the items say |
| ShopLogic.OrderLogic.RestoreStock | shop-service/logic/product.go:255-266 | every item's quantity is returned to its product |
| ShopLogic.OrderLogic.PlaceOrder | shop-service/logic/product.go:225-274 | (corrected, see Findings) a validated order is written as pending with its items and reductions; after payment it is "paid" (cart cleared if it came from the cart) or "cancelled" with all stock restored |
| ShopLogic.OrderLogic.Settle | shop-service/logic/product.go:255-274 | after the payment: the order becomes "paid" or "cancelled"; a failed payment returns every item's quantity to its product; a paid order placed from the cart clears the user's cart; the items table is untouched |
| ShopLogic.OrderLogic.CreateOrder | shop-service/logic/product.go:155-275 | (corrected, see Findings) an empty cart is refused; an invalid order writes nothing and reports the first failing line's product error; otherwise it is placed at the sum of its item totals, paid with stock reduced, or cancelled with stock restored |
| ShopLogic.OrderLogic.GetOrder | shop-service/logic/product.go:318-320 | the order with that id, or not-found |
| ShopLogic.OrderLogic.GetUserOrders | shop-service/logic/product.go:323-325 | the user's orders, newest first |
| ShopLogic.OrderLogic.CancelOrder | shop-service/logic/product.go:328-350 | a missing order, or one neither pending nor paid, is refused with no change; otherwise every item's stock is returned and the order becomes "cancelled", after which it cannot be cancelled again |
| ShopLogic.OrderLogic.PayOrder | shop-service/logic/product.go:278-315 | the wallet call's success or failure, chosen nondeterministically |
| ShopLogic.CartLogic.AddToCart | shop-service/logic/product.go:355-373 | a missing or non-active product is refused with the cart unchanged; otherwise the quantity, unchecked, is merged into the pair's row as `MergeAdd` does, a new row asked with 0 getting 1 |
| ShopLogic.CartLogic.GetCart | shop-service/logic/product.go:376-378 | the user's rows |
| ShopLogic.CartLogic.UpdateCartItem | shop-service/logic/product.go:381-383 | only the pair's quantity changes |
| ShopLogic.CartLogic.RemoveFromCart | shop-service/logic/product.go:386-388 | only the pair's row is removed |
| ShopLogic.CartLogic.ClearCart | shop-service/logic/product.go:391-393 | only the user's rows are removed |
| UserLogic.FindByEmail | user-service/logic/user.go:40-43 | the first user with that email, or none exactly when no user has it |
| UserLogic.MarkVerified | user-service/logic/user.go:149-154 | only that user's verified flag is set; id, name, email and password hash are untouched |
| UserLogic.FindByEmailIgnoresFlag | user-service/logic/user.go:149-154 | setting the verified flag does not change which user an email finds |
| UserLogic.VerificationCode | user-service/logic/user.go:209-214 | the code for a draw below 999999 is exactly 6 decimal digits, zero-padded, and reads back as the draw |
| UserLogic.VerificationCodeInjective | user-service/logic/user.go:209-214 | different draws give different codes |
| Decimal.ParseNatToString | user-service/logic/user.go:213 | the decimal digits of a number read back as that number |
| Decimal.ParseLeadingZeros | user-service/logic/user.go:213 | zero padding, as `%06d` adds it, does not change the value the digits denote |
| Decimal.NatToString | user-service/logic/user.go:213 | `%d` of a number: at least one decimal digit, and no leading zero unless the number is 0 |
| Decimal.NatToStringMagnitude | user-service/logic/user.go:213 | `%d` of n takes k digits where n is below 10^k and, for more than one digit, at least 10^(k-1) |
| Decimal.PadZeros | user-service/logic/user.go:213 | the `06` of `%06d`: the digits are kept as the suffix, zeros fill the front up to the width, the length is the larger of the two, and digits stay digits |
| UserLogic.Login | user-service/logic/user.go:99-129 | login succeeds only for a user with that email whose hash matches, returning that user; with unique emails every such user can log in; every failure is the same "invalid email or password" |
| UserLogic.LoginAfterRegister | user-service/logic/user.go:46-62 | a newly registered user whose hash the compare accepts can log in with the same password |
| UserLogic.VerificationKeepsLogin | user-service/logic/user.go:149-154 | verifying an email does not change who can log in |
| UserLogic.VerifyCheck | user-service/logic/user.go:132-147 | verification can proceed exactly when a code is stored for the email, it equals the given code, and the user exists |
| UserLogic.ResendCheck | user-service/logic/user.go:172-181 | a resend can proceed only for an existing unverified user; otherwise user not found or already verified |
| UserLogic.ResendThenVerify | user-service/logic/user.go:193-195 | the code a resend stores verifies the user, and any other code is refused as invalid |
| UserLogic.VerifyIsFinal | user-service/logic/user.go:150-160 | after verification, a resend is refused as already verified, and the deleted code no longer verifies |
| UserLogic.UserLogic.Register | user-service/logic/user.go:38-96 | a taken email is refused; a bcrypt failure or store error changes nothing; a new user is stored unverified with the hash of the password (not the password); the 6-digit code of the draw is stored and mailed unless those writes fail |
| UserLogic.UserLogic.VerifyEmail | user-service/logic/user.go:132-169 | a missing or different code, or a missing user, fails with the user unchanged; success sets only the verified flag and deletes the code, unless the delete fails, which the code only logs |
| UserLogic.UserLogic.ResendVerificationCode | user-service/logic/user.go:172-199 | an unknown or verified user is refused with no change; a failed mail stores no code; success mails and stores the new code |
| UserLogic.UserLogic.GetUserProfile | user-service/logic/user.go:217-230 | the user with that id, or user not found |
| Middleware.Cors | api-gateway/middleware/middleware.go:20-40 | Allow-Origin echoes a non-empty Origin, otherwise it is "*"; the four CORS headers are always set; OPTIONS is answered 204 and never passed on, and everything else is |
| Middleware.BearerToken | api-gateway/middleware/middleware.go:72-77 | a token exists exactly when the header starts with "Bearer ", and it is the header without that prefix |
| Middleware.BearerTokenRoundTrip | api-gateway/middleware/middleware.go:77 | extracting from "Bearer " + t gives back t |
| Middleware.Auth | api-gateway/middleware/middleware.go:53-92 | a request passes exactly when its path starts with a skip path, or it carries a Bearer token that parses, is HMAC-signed under the secret and has valid claims; every refusal is 401, and a missing or non-Bearer header gives "missing or invalid token" |
| Middleware.SkipIsByPrefix | api-gateway/middleware/middleware.go:56-69 | any path extending a skip path bypasses authentication |
| Middleware.NonHmacRefused | api-gateway/middleware/middleware.go:79-88 | a token signed with a non-HMAC method is refused with 401 "invalid token" |
| Middleware.ProtectedPathNeedsSecret | api-gateway/middleware/middleware.go:72-90 | on a protected path, a Bearer token passes exactly when the token itself is accepted under the secret |
| Gateway.TargetUrl | api-gateway/controller/gateway.go:39-52 | exactly six service names are routed; "users", "wallets" and "comments" go to `/api/v1/<name>` plus the path on their own service; "products", "orders" and "shop" go to the shop service at `/api/v1` plus the path |
| Gateway.TargetUsesItsService | api-gateway/controller/gateway.go:41-46 | each of users, wallets and comments uses its own service's host and port |
| Gateway.ShopNamesAgree | api-gateway/controller/gateway.go:47-48 | the three shop names build the same URL |
| Gateway.TargetUrlKeepsPath | api-gateway/controller/gateway.go:39-48 | for one service, different paths never give the same URL |
| Gateway.CopyHeaders | api-gateway/controller/gateway.go:68-73 | the proxied request carries every request header with all its values in order; keys with no value are not added |
| Gateway.ProxyRequest | api-gateway/controller/gateway.go:33-100 | an unknown service gets 400 "Unknown service" and no upstream request; otherwise the request goes out with the same method, body and headers to the target URL; the upstream status and body come back unchanged, or 500 when the call fails |
| Gateway.Classify | api-gateway/controller/gateway.go:116-121 | "healthy" exactly when the probe succeeded with 200, otherwise "unhealthy" |
| Gateway.HealthUrls | api-gateway/controller/gateway.go:107-112 | the four backends are probed |
| Gateway.HealthCheck | api-gateway/controller/gateway.go:103-131 | the gateway reports itself "healthy"; every backend is reported, "healthy" exactly when its probe returned 200 |
| Gateway.Admit | api-gateway/controller/gateway.go:140-156 | a request reaches a route exactly when it is not a preflight and authentication passes; a preflight gets the 204 reply; any other refusal is a 401 |
| Gateway.PreflightNeedsNoToken | api-gateway/controller/gateway.go:145-146 | a preflight is answered 204 before authentication, with or without a token |
| Gateway.HealthRouteNeedsToken | api-gateway/controller/gateway.go:152 | the gateway's own health route is not on the skip list, so without a token it is refused 401 |
| CommentRepository.Listed | services/comment-service/repository/comment.go:85-101 | exactly the active comments (of the user, when one is given) |
| CommentRepository.ListedNewestFirst | services/comment-service/repository/comment.go:87 | listings are newest first |
| CommentRepository.SoftDelete | services/comment-service/repository/comment.go:110-112 | only that row's status becomes "deleted"; the row stays |
| CommentRepository.SoftDeleteHides | services/comment-service/repository/comment.go:95-112 | a soft-deleted comment leaves every listing, and every other listed comment stays |
| CommentRepository.SoftDeleteIdempotent | services/comment-service/repository/comment.go:110-112 | deleting a comment twice is the same as deleting it once |
| CommentRepository.NewCommentListedFirst | services/comment-service/repository/comment.go:95-101 | a new active comment heads the listing |
| CommentRepository.CommentRepository.CreateComment | services/comment-service/repository/comment.go:70-72 | the comment is stored with the next id, or a store error changes nothing |
| CommentRepository.CommentRepository.GetCommentByID | services/comment-service/repository/comment.go:75-82 | the comment with that id whatever its status, or none |
| CommentRepository.CommentRepository.GetCommentsByUserID | services/comment-service/repository/comment.go:85-92 | exactly the user's active comments, newest first |
| CommentRepository.CommentRepository.GetAllComments | services/comment-service/repository/comment.go:95-102 | exactly the active comments, newest first |
| CommentRepository.CommentRepository.UpdateComment | services/comment-service/repository/comment.go:105-107 | the row with that id is overwritten and no other; a store error changes nothing |
| CommentRepository.CommentRepository.DeleteComment | services/comment-service/repository/comment.go:110-112 | the soft delete, or no change on a store error |
| CommentLogic.ToResponse | comment-service/logic/comment.go:56-63 | the response copies id, user, content, parent and status |
| CommentLogic.CommentLogic.CreateComment | comment-service/logic/comment.go:29-66 | the comment is stored with the requested user, content and parent, status "active" and the next id, and a "create" event is sent; a store error changes nothing and sends nothing |
| CommentLogic.CommentLogic.GetComment | comment-service/logic/comment.go:69-85 | the comment with that id whatever its status, or "comment not found" |
| CommentLogic.CommentLogic.Responses | comment-service/logic/comment.go:94-107 | one response per comment, in the same order, with fields copied |
| CommentLogic.CommentLogic.GetComments | comment-service/logic/comment.go:88-108 | responses for the active comments, newest first |
| CommentLogic.CommentLogic.GetCommentsByUser | comment-service/logic/comment.go:111-131 | responses for the user's active comments, newest first |
| CommentLogic.CommentLogic.UpdateComment | comment-service/logic/comment.go:134-168 | a missing id is "comment not found" with no change; otherwise only the content changes and an "update" event is sent |
| CommentLogic.CommentLogic.DeleteComment | comment-service/logic/comment.go:171-195 | a missing id is "comment not found" with nothing deleted; otherwise the comment is soft-deleted and a "delete" event carries it as it was |

## Left out

- Database transactions, row locks and concurrency. Each repository call is one atomic step. Lock order is recorded only as the ghost `locks` sequence, and deadlock freedom is not modelled.
- Floating point: money is an integer number of cents.
- Timestamps: `created_at` ordering is the insertion order. Code expiry after 10 minutes is not modelled, so a stored code never expires.
- Kafka:
  - The user service's register and login events are not modelled.
  - The other services' events are ghost logs of what was handed to the producer.
  - Event keys, topics and delivery are not modelled.
  - The consumers (`HandlePaymentEvent`, `HandleEmailVerification`, `HandleCommentEvent`) only log.
- E-mail content and delivery: a mail appears in `outbox` when the mail server accepts it.
- Read errors from the database other than "not found" are not modelled.
- In the shop service, no writes fail: its repository methods always succeed.
- `GetTransactionsByProductID` and `GetTransactionsByOrderID` filter on columns the transaction record does not have.
- services/wallet-service/repository/wallet.go is an older subset of the wallet repository and is not part of this model.
- Controllers, HTTP plumbing and configuration are not part of this model. This covers:
  - the gateway's request-body reading and response-header copying (lines 55-59 and 91-96);
  - its failures to build a request or read a response, which both become the 500 reply.
- Error texts are error constructors; the `%v` details appended to them are dropped.
- `WalletRepository.WalletRepository.UpdateWallet`: requires the row to exist; the upsert `Save` performs for a missing id is not modelled.
- `WalletRepository.TransactionRepository.UpdateTransaction`: requires the record to exist, for the same reason.
- `CommentRepository.CommentRepository.UpdateComment`: requires the row to exist, for the same reason.
- `WalletLogic.WalletLogic.AddBalance`: the Kafka producer is assumed configured. The code would dereference a nil producer.
- `WalletLogic.WalletLogic.DeductBalance`: the same assumption; the code dereferences the same possibly nil producer.
- Row locks as written: the locking reads ask for `FOR UPDATE` through `tx.Set("gorm:query_option", "FOR UPDATE")`, a GORM v1 setting. The services import gorm.io/gorm (v2), which ignores it, so as written these reads probably take no lock. The ghost `locks` log records the locking reads the code intends.
- `UserLogic.FindByEmail` (and `UserLogic.Taken`, `UserLogic.UniqueEmails`): e-mails and usernames are compared exactly. MySQL's default utf8mb4 collation compares them ignoring case, so after "A@x.com" is registered the code refuses "a@x.com" as taken while the model accepts it. The collation's case folding is not modelled.
- Request validation: no `validate:` tag of the request types is enforced. The controllers bind with gin's `ShouldBindJSON`, which reads only `binding:` tags, and no validator is called. The model follows the code and accepts what those tags would refuse: empty order lines, zero or negative quantities, and a zero or missing cart quantity (stored as the column default 1 for a new cart row, see `ShopModels.InsertedQuantity`).
- `ShopLogic.OrderLogic.PayOrder`: the wallet call is a nondeterministic success or failure. Its URL, payload and the reply body are not modelled.
- `ShopLogic.OrderLogic.CancelOrder`: no payment is refunded, as in the code.
- `ShopRepository.OrderRepository.GetOrderByID`: the code preloads an `OrderItems` association (line 156) that the order model does not declare (shop-service/models/product.go:22-32). As we read GORM v2, such a preload adds an unsupported-relation error after the row is read, so as written this lookup fails for every order, existing ones included. The model leaves the preload out and returns the order, the evidently intended behaviour.
- `ShopRepository.OrderRepository.GetOrdersByUserID`: the same preload (line 165), so as written the listing fails for every user. The model returns the user's orders.
- `ShopLogic.OrderLogic.GetOrder` and `ShopLogic.OrderLogic.GetUserOrders`: they pass those results through, so as written neither ever succeeds. The model returns the order, or the orders.
- `ShopLogic.OrderLogic.CancelOrder`: it begins with `GetOrderByID`, so as written every cancellation fails as "order not found" and no stock is ever restored. The model cancels from the order as read, as the code evidently intends.
- `Middleware.Auth`: JWT parsing is abstract. A token is what the parser reports: its signing family, the key its signature verifies under, and whether its claims hold.
- `Gateway.CopyHeaders`: keys are assumed already canonical, as the HTTP server delivers them, so `Header.Add` keeps them as given.
- `UserLogic.UserLogic.Register`: bcrypt is the parameter `hasher`; the code stores `hasher(password)`. A salted hash is one fixed output per call.
- `CommentLogic.CommentResponse`: `Username`, `CreatedAt` and `Replies` are left out. The code never fills the first and third, and the second is a timestamp.
- The wiring mismatches are not modelled:
  - `SafeTransfer` is modelled through its own transaction (lines 222-224) and takes no `tx` parameter;
  - the constructor arities in the `main.go` files do not match.

## Findings

| source | as written | input that shows it | evidently intended | confidence | as-written member | corrected member |
|---|---|---|---|---|---|---|
| shop-service/repository/product.go:128-130 | `Updates(product)` with a struct skips zero-valued fields, so an update request that sets stock (or price) to 0, or a text field to "", is silently dropped | stored stock 5, update request with stock 0: the stored stock stays 5 | each field present in the request is stored, including zero values | medium, not executed | ShopModels.ZeroStockUpdateIsLost | ShopModels.UpdateProductStoresMerge |
| shop-service/logic/product.go:171-222 | each order line is checked against the unchanged stock, so several lines for one product can together exceed it; the conditional `ReduceStock` then skips a reduction, but the compensation after a failed payment returns every line | stock 5, lines (product 1, 3) and (product 1, 3): the check passes, stock goes to 2, and after a failed payment it becomes 8 | the check covers the total quantity requested of each product, and compensation restores exactly the original stock | medium, not executed | ShopModels.DuplicateLinesInflateStock | ShopModels.CompensationRestoresStock |

=== FILE: comment_logic.dfy ===
/**
 * The comment service's logic: create, edit and soft-delete through the
 * repository, announce each change as an event, and map stored comments to
 * responses.  `events` records the events handed to the producer; a failed
 * send is only logged, so it changes nothing else.
 */
module CommentLogic {
  import opened Wrappers
  import opened CommentRepository

  datatype CommentError =
    | CommentNotFound   // "comment not found"
    | StorageFailure    // "failed to create / update / delete comment"

  datatype CommentResponse = CommentResponse(id: nat, userId: UserId, content: string, parentId: Option<nat>, status: string)

  datatype CommentEvent = CommentEvent(commentId: nat, userId: UserId, content: string, action: string)

  function ToResponse(c: Comment): (r: CommentResponse)
    ensures r.id == c.id && r.userId == c.userId && r.content == c.content
    ensures r.parentId == c.parentId && r.status == c.status
  {
    CommentResponse(c.id, c.userId, c.content, c.parentId, c.status)
  }

  /** The event for an action on a comment. */
  function Announce(c: Comment, action: string): CommentEvent
  {
    CommentEvent(c.id, c.userId, c.content, action)
  }

  class CommentLogic {
    const repo: CommentRepository
    ghost var events: seq<CommentEvent>

    ghost predicate Valid()
      reads this, repo
    {
      repo.Valid()
    }

    constructor(repo: CommentRepository)
      requires repo.Valid()
      ensures Valid() && this.repo == repo && events == []
    {
      this.repo := repo;
      events := [];
    }

    /** Lines 29-66: a new active comment. */
    method CreateComment(userId: UserId, content: string, parentId: Option<nat>) returns (r: Result<CommentResponse, CommentError>)
      requires Valid()
      modifies this, repo
      ensures Valid()
      ensures r.Failure? ==> r.error == StorageFailure && repo.comments == old(repo.comments) && events == old(events)
      ensures r.Success? ==>
        var c := Comment(|old(repo.comments)| + 1, userId, content, parentId, "active");
        repo.comments == old(repo.comments) + [c] && r.value == ToResponse(c) &&
        events == old(events) + [Announce(c, "create")]
    {
      var stored := repo.CreateComment(Comment(0, userId, content, parentId, "active"));
      if stored.None? {
        return Failure(StorageFailure);
      }
      events := events + [Announce(stored.value, "create")];
      r := Success(ToResponse(stored.value));
    }

    /** Lines 69-85: any comment by id, deleted ones included. */
    method GetComment(id: nat) returns (r: Result<CommentResponse, CommentError>)
      requires Valid()
      ensures r.Success? <==> 1 <= id <= |repo.comments|
      ensures r.Success? ==> r.value == ToResponse(repo.comments[id - 1]) && r.value.id == id
      ensures r.Failure? ==> r.error == CommentNotFound
    {
      var found := repo.GetCommentByID(id);
      if found.None? {
        return Failure(CommentNotFound);
      }
      r := Success(ToResponse(found.value));
    }

    /** Lines 94-107 and 117-130: one response per listed comment, in listing order. */
    method Responses(list: seq<Comment>) returns (r: seq<CommentResponse>)
      ensures |r| == |list|
      ensures forall i :: 0 <= i < |list| ==> r[i] == ToResponse(list[i])
    {
      r := [];
      for i := 0 to |list|
        invariant |r| == i
        invariant forall k :: 0 <= k < i ==> r[k] == ToResponse(list[k])
      {
        r := r + [ToResponse(list[i])];
      }
    }

    /** Lines 88-108: every active comment, newest first. */
    method GetComments() returns (r: seq<CommentResponse>)
      requires Valid()
      ensures |r| == |Listed(repo.comments, None)|
      ensures forall i :: 0 <= i < |r| ==> r[i] == ToResponse(Listed(repo.comments, None)[i]) && r[i].status == "active"
      ensures forall i, j :: 0 <= i < j < |r| ==> r[i].id > r[j].id
    {
      var list := repo.GetAllComments();
      r := Responses(list);
    }

    /** Lines 111-131: the user's active comments, newest first. */
    method GetCommentsByUser(user: UserId) returns (r: seq<CommentResponse>)
      requires Valid()
      ensures |r| == |Listed(repo.comments, Some(user))|
      ensures forall i :: 0 <= i < |r| ==>
        r[i] == ToResponse(Listed(repo.comments, Some(user))[i]) && r[i].status == "active" && r[i].userId == user
      ensures forall i, j :: 0 <= i < j < |r| ==> r[i].id > r[j].id
    {
      var list := repo.GetCommentsByUserID(user);
      r := Responses(list);
    }

    /** Lines 134-168: replace the content; everything else about the row stays. */
    method UpdateComment(id: nat, content: string) returns (r: Result<CommentResponse, CommentError>)
      requires Valid()
      modifies this, repo
      ensures Valid()
      ensures r.Failure? ==> repo.comments == old(repo.comments) && events == old(events)
      ensures !(1 <= id <= |old(repo.comments)|) ==> r == Failure(CommentNotFound)
      ensures r.Failure? && 1 <= id <= |old(repo.comments)| ==> r.error == StorageFailure
      ensures r.Success? ==>
        1 <= id <= |old(repo.comments)| &&
        var c := old(repo.comments)[id - 1].(content := content);
        repo.comments == old(repo.comments)[id - 1 := c] && r.value == ToResponse(c) &&
        events == old(events) + [Announce(c, "update")]
    {
      var found := repo.GetCommentByID(id);
      if found.None? {
        return Failure(CommentNotFound);
      }
      var c := found.value.(content := content);
      var ok := repo.UpdateComment(c);
      if !ok {
        return Failure(StorageFailure);
      }
      events := events + [Announce(c, "update")];
      r := Success(ToResponse(c));
    }

    /** Lines 171-195: soft delete, announced with the comment as it was. */
    method DeleteComment(id: nat) returns (r: Result<(), CommentError>)
      requires Valid()
      modifies this, repo
      ensures Valid()
      ensures r.Failure? ==> repo.comments == old(repo.comments) && events == old(events)
      ensures !(1 <= id <= |old(repo.comments)|) ==> r == Failure(CommentNotFound)
      ensures r.Failure? && 1 <= id <= |old(repo.comments)| ==> r.error == StorageFailure
      ensures r.Success? ==>
        1 <= id <= |old(repo.comments)| &&
        repo.comments == SoftDelete(old(repo.comments), id) &&
        events == old(events) + [Announce(old(repo.comments)[id - 1], "delete")]
    {
      var found := repo.GetCommentByID(id);
      if found.None? {
        return Failure(CommentNotFound);
      }
      var ok := repo.DeleteComment(id);
      if !ok {
        return Failure(StorageFailure);
      }
      events := events + [Announce(found.value, "delete")];
      r := Success(());
    }
  }
}

=== FILE: comment_repository.dfy ===
/**
 * The comment table.  Rows are never removed: deleting a comment flips its
 * status to "deleted", and the listings show "active" rows only, newest
 * first.  Row ids are auto-increment, so row i has id i + 1 and a newer row
 * has a larger id; the model orders by id where the database orders by
 * creation time.
 */
module CommentRepository {
  import opened Wrappers

  type UserId = nat

  datatype Comment = Comment(id: nat, userId: UserId, content: string, parentId: Option<nat>, status: string)

  ghost predicate IdsArePositions(cs: seq<Comment>)
  {
    forall i :: 0 <= i < |cs| ==> cs[i].id == i + 1
  }

  /** The listing filter: active, and of the given user when there is one. */
  predicate Shown(c: Comment, user: Option<UserId>)
  {
    c.status == "active" && (user.None? || c.userId == user.value)
  }

  /** `Where(...status = "active").Order("created_at DESC").Find`: the shown rows, newest first. */
  function Listed(cs: seq<Comment>, user: Option<UserId>): (r: seq<Comment>)
    ensures |r| <= |cs|
    ensures forall c :: c in r ==> c in cs && Shown(c, user)
    ensures forall i :: 0 <= i < |cs| && Shown(cs[i], user) ==> cs[i] in r
  {
    if cs == [] then []
    else
      var last := cs[|cs| - 1];
      var rest := Listed(cs[..|cs| - 1], user);
      if Shown(last, user) then [last] + rest else rest
  }

  /** The listing is newest first. */
  lemma {:induction false} ListedNewestFirst(cs: seq<Comment>, user: Option<UserId>)
    requires IdsArePositions(cs)
    ensures forall i, j :: 0 <= i < j < |Listed(cs, user)| ==> Listed(cs, user)[i].id > Listed(cs, user)[j].id
  {
    if cs != [] {
      var prefix := cs[..|cs| - 1];
      ListedNewestFirst(prefix, user);
      var rest := Listed(prefix, user);
      forall c | c in rest
        ensures c.id < |cs|
      {
        var k :| 0 <= k < |prefix| && prefix[k] == c;
      }
    }
  }

  /** `Update("status", "deleted")` on the row with that id; no row, no change. */
  function SoftDelete(cs: seq<Comment>, id: nat): (r: seq<Comment>)
    ensures |r| == |cs|
    ensures forall i :: 0 <= i < |cs| && i != id - 1 ==> r[i] == cs[i]
    ensures 1 <= id <= |cs| ==> r[id - 1] == cs[id - 1].(status := "deleted")
  {
    if 1 <= id <= |cs| then cs[id - 1 := cs[id - 1].(status := "deleted")] else cs
  }

  /** A soft-deleted comment leaves every listing, and every other listed comment stays. */
  lemma SoftDeleteHides(cs: seq<Comment>, id: nat, user: Option<UserId>)
    requires IdsArePositions(cs)
    ensures forall c :: c in Listed(SoftDelete(cs, id), user) ==> c.id != id
    ensures forall c :: c in Listed(cs, user) && c.id != id ==> c in Listed(SoftDelete(cs, id), user)
  {
    var after := SoftDelete(cs, id);
    forall c | c in Listed(after, user)
      ensures c.id != id
    {
      var k :| 0 <= k < |after| && after[k] == c;
    }
    forall c | c in Listed(cs, user) && c.id != id
      ensures c in Listed(after, user)
    {
      var k :| 0 <= k < |cs| && cs[k] == c;
      assert after[k] == c;
    }
  }

  /** Deleting twice is deleting once. */
  lemma SoftDeleteIdempotent(cs: seq<Comment>, id: nat)
    ensures SoftDelete(SoftDelete(cs, id), id) == SoftDelete(cs, id)
  {
  }

  /** A new shown comment heads its listings. */
  lemma NewCommentListedFirst(cs: seq<Comment>, c: Comment, user: Option<UserId>)
    requires Shown(c, user)
    ensures Listed(cs + [c], user) == [c] + Listed(cs, user)
  {
    assert (cs + [c])[..|cs|] == cs;
  }

  class CommentRepository {
    /** The `comments` table. */
    var comments: seq<Comment>

    ghost predicate Valid()
      reads this
    {
      IdsArePositions(comments)
    }

    constructor()
      ensures Valid() && comments == []
    {
      comments := [];
    }

    /** Lines 70-72: insert; the database assigns the id. */
    method CreateComment(c: Comment) returns (stored: Option<Comment>)
      requires Valid()
      modifies this
      ensures Valid()
      ensures stored.Some? ==> stored.value == c.(id := |old(comments)| + 1) && comments == old(comments) + [stored.value]
      ensures stored.None? ==> comments == old(comments)
    {
      var fault: bool := *;
      if fault {
        return None;
      }
      var row := c.(id := |comments| + 1);
      comments := comments + [row];
      stored := Some(row);
    }

    /** Lines 75-82: by primary key, whatever the status. */
    method GetCommentByID(id: nat) returns (r: Option<Comment>)
      requires Valid()
      ensures r.Some? <==> 1 <= id <= |comments|
      ensures r.Some? ==> r.value in comments && r.value.id == id
    {
      if 1 <= id <= |comments| {
        r := Some(comments[id - 1]);
      } else {
        r := None;
      }
    }

    /** Lines 85-92: the user's active comments, newest first. */
    method GetCommentsByUserID(user: UserId) returns (r: seq<Comment>)
      requires Valid()
      ensures r == Listed(comments, Some(user))
      ensures forall c :: c in r <==> c in comments && c.status == "active" && c.userId == user
      ensures forall i, j :: 0 <= i < j < |r| ==> r[i].id > r[j].id
    {
      r := Listed(comments, Some(user));
      ListedNewestFirst(comments, Some(user));
    }

    /** Lines 95-102: every active comment, newest first. */
    method GetAllComments() returns (r: seq<Comment>)
      requires Valid()
      ensures r == Listed(comments, None)
      ensures forall c :: c in r <==> c in comments && c.status == "active"
      ensures forall i, j :: 0 <= i < j < |r| ==> r[i].id > r[j].id
    {
      r := Listed(comments, None);
      ListedNewestFirst(comments, None);
    }

    /** Lines 105-107: `Save` overwrites the row with the comment's id. */
    method UpdateComment(c: Comment) returns (ok: bool)
      requires Valid() && 1 <= c.id <= |comments|
      modifies this
      ensures Valid()
      ensures ok ==> comments == old(comments)[c.id - 1 := c]
      ensures !ok ==> comments == old(comments)
    {
      var fault: bool := *;
      if fault {
        return false;
      }
      comments := comments[c.id - 1 := c];
      ok := true;
    }

    /** Lines 110-112: soft delete. */
    method DeleteComment(id: nat) returns (ok: bool)
      requires Valid()
      modifies this
      ensures Valid()
      ensures ok ==> comments == SoftDelete(old(comments), id)
      ensures !ok ==> comments == old(comments)
    {
      var fault: bool := *;
      if fault {
        return false;
      }
      comments := SoftDelete(comments, id);
      ok := true;
    }
  }
}

=== FILE: decimal.dfy ===
/**
  Decimal rendering of unsigned integers, as Go's `fmt` verbs `%d` and
  `%06d` produce it, and the parse that inverts it.
*/
module Decimal {

  predicate IsDigit(c: char) { '0' <= c <= '9' }

  predicate IsDigits(s: string) { forall i :: 0 <= i < |s| ==> IsDigit(s[i]) }

  function DigitChar(d: nat): (c: char)
    requires d < 10
    ensures IsDigit(c) && c as int - '0' as int == d
  {
    (d + '0' as int) as char
  }

  function DigitValue(c: char): (d: nat)
    requires IsDigit(c)
    ensures d < 10 && DigitChar(d) == c
  {
    c as int - '0' as int
  }

  function Pow10(k: nat): (p: nat)
    ensures p >= 1
  {
    if k == 0 then 1 else 10 * Pow10(k - 1)
  }

  /** `%d` of a non-negative integer: digits only, no leading zero except for 0 itself. */
  function NatToString(n: nat): (s: string)
    ensures 1 <= |s| && IsDigits(s)
    ensures |s| > 1 ==> s[0] != '0'
    decreases n
  {
    if n < 10 then [DigitChar(n)] else NatToString(n / 10) + [DigitChar(n % 10)]
  }

  /** The value of a string of decimal digits (most significant first). */
  function ParseDigits(s: string): nat
    requires IsDigits(s)
  {
    if s == [] then 0 else 10 * ParseDigits(s[..|s| - 1]) + DigitValue(s[|s| - 1])
  }

  function Zeros(k: nat): (z: string)
    ensures |z| == k && IsDigits(z)
    ensures forall i :: 0 <= i < k ==> z[i] == '0'
  {
    seq(k, _ => '0')
  }

  /** `%0<width>d`: the `%d` text left-padded with '0' up to `width` characters. */
  function PadZeros(s: string, width: nat): (r: string)
    ensures |r| == if |s| >= width then |s| else width
    ensures forall i :: 0 <= i < |r| ==> r[i] == if i < |r| - |s| then '0' else s[i - (|r| - |s|)]
    ensures IsDigits(s) ==> IsDigits(r)
  {
    if |s| >= width then s else Zeros(width - |s|) + s
  }

  /** Parsing undoes `%d`. */
  lemma {:induction false} ParseNatToString(n: nat)
    ensures ParseDigits(NatToString(n)) == n
    decreases n
  {
    var s := NatToString(n);
    if n >= 10 {
      ParseNatToString(n / 10);
      assert s[..|s| - 1] == NatToString(n / 10);
    }
  }

  /** `%d` of `n` takes k characters exactly when n is below 10^k and, for k > 1, at least 10^(k-1). */
  lemma {:induction false} NatToStringMagnitude(n: nat)
    ensures n < Pow10(|NatToString(n)|)
    ensures |NatToString(n)| > 1 ==> Pow10(|NatToString(n)| - 1) <= n
    decreases n
  {
    if n >= 10 {
      var k := |NatToString(n / 10)|;
      NatToStringMagnitude(n / 10);
      assert |NatToString(n)| == k + 1;
      assert n < 10 * Pow10(k) by {
        assert n / 10 + 1 <= Pow10(k);
      }
      if k > 1 {
        assert Pow10(k) == 10 * Pow10(k - 1);
        assert Pow10(k) <= 10 * (n / 10);
      }
    }
  }

  /** `%d` of a number below 10^k takes at most k characters. */
  lemma {:induction false} NatToStringLength(n: nat, k: nat)
    requires 1 <= k && n < Pow10(k)
    ensures |NatToString(n)| <= k
    decreases n
  {
    if n >= 10 {
      assert k >= 2;
      assert n / 10 < Pow10(k - 1);
      NatToStringLength(n / 10, k - 1);
    }
  }

  /** Leading zeros do not change the value of a digit string. */
  lemma {:induction false} ParseLeadingZeros(k: nat, s: string)
    requires IsDigits(s)
    ensures IsDigits(Zeros(k) + s) && ParseDigits(Zeros(k) + s) == ParseDigits(s)
    decreases |s|
  {
    var z := Zeros(k) + s;
    if s == [] {
      assert z == Zeros(k);
      ZerosParseToZero(k);
    } else {
      ParseLeadingZeros(k, s[..|s| - 1]);
      assert z[..|z| - 1] == Zeros(k) + s[..|s| - 1];
    }
  }

  lemma {:induction false} ZerosParseToZero(k: nat)
    ensures ParseDigits(Zeros(k)) == 0
  {
    if k > 0 {
      ZerosParseToZero(k - 1);
      assert Zeros(k)[..k - 1] == Zeros(k - 1);
    }
  }
}

=== FILE: gateway_controller.dfy ===
/**
 * The API gateway's controller: where a request is forwarded, what is
 * forwarded, what comes back, and how the health report is put together.
 * The HTTP client is a parameter: `upstream` answers a forwarded request, or
 * gives `None` when the call or the read of its body fails.
 */
module Gateway {
  import opened Wrappers
  import opened Middleware

  datatype ServiceConfig = ServiceConfig(host: string, port: string)

  datatype Services = Services(user: ServiceConfig, wallet: ServiceConfig, comment: ServiceConfig, shop: ServiceConfig)

  /** HTTP headers: each key with its values in order. */
  type Header = map<string, seq<string>>

  datatype Outgoing = Outgoing(verb: string, url: string, header: Header, body: string)

  datatype Upstream = Upstream(status: int, body: string)

  /** What the gateway answers: a relayed upstream response, or its own JSON error. */
  datatype Reply = Relayed(status: int, body: string) | ErrorJson(status: int, error: string)

  function Origin(s: ServiceConfig): string
  {
    "http://" + s.host + ":" + s.port
  }

  // ----- routing -----

  /** The target URL `ProxyRequest` builds from the `service` and `path` route parameters, or `None` for an unknown service. */
  function TargetUrl(cfg: Services, service: string, path: string): (r: Option<string>)
    ensures r.Some? <==> service in {"users", "wallets", "comments", "products", "orders", "shop"}
    ensures service in {"users", "wallets", "comments"} ==>
      r.Some? && exists s :: s in {cfg.user, cfg.wallet, cfg.comment} && r.value == Origin(s) + "/api/v1/" + service + path
    ensures service in {"products", "orders", "shop"} ==> r == Some(Origin(cfg.shop) + "/api/v1" + path)
  {
    if service == "users" then Some(Origin(cfg.user) + "/api/v1/users" + path)
    else if service == "wallets" then Some(Origin(cfg.wallet) + "/api/v1/wallets" + path)
    else if service == "comments" then Some(Origin(cfg.comment) + "/api/v1/comments" + path)
    else if service in {"products", "orders", "shop"} then Some(Origin(cfg.shop) + "/api/v1" + path)
    else None
  }

  /** Each service name is sent to its own service's configuration. */
  lemma TargetUsesItsService(cfg: Services, path: string)
    ensures TargetUrl(cfg, "users", path) == Some(Origin(cfg.user) + "/api/v1/users" + path)
    ensures TargetUrl(cfg, "wallets", path) == Some(Origin(cfg.wallet) + "/api/v1/wallets" + path)
    ensures TargetUrl(cfg, "comments", path) == Some(Origin(cfg.comment) + "/api/v1/comments" + path)
  {
  }

  /** The three shop names are interchangeable: the service segment is dropped. */
  lemma ShopNamesAgree(cfg: Services, path: string)
    ensures TargetUrl(cfg, "products", path) == TargetUrl(cfg, "orders", path) == TargetUrl(cfg, "shop", path)
  {
  }

  /** Routing keeps the path: two paths to one service never meet at one URL. */
  lemma {:induction false} TargetUrlKeepsPath(cfg: Services, service: string, p: string, q: string)
    requires TargetUrl(cfg, service, p).Some?
    requires TargetUrl(cfg, service, p) == TargetUrl(cfg, service, q)
    ensures p == q
  {
    var u := TargetUrl(cfg, service, p).value;
    var base := |u| - |p|;
    assert u[base..] == p;
    assert |TargetUrl(cfg, service, q).value| - |q| == base;
    assert u[base..] == q;
  }

  // ----- forwarding -----

  /** The proxied request's headers, built with `Header.Add` for every value of every key. */
  method CopyHeaders(src: Header) returns (dst: Header)
    ensures forall k :: k in dst <==> k in src && src[k] != []
    ensures forall k :: k in dst ==> dst[k] == src[k]
  {
    dst := map[];
    var todo := src.Keys;
    while todo != {}
      invariant todo <= src.Keys
      invariant forall k :: k in dst <==> k in src && k !in todo && src[k] != []
      invariant forall k :: k in dst ==> dst[k] == src[k]
      decreases |todo|
    {
      var key :| key in todo;
      var values := src[key];
      ghost var before := dst;
      var i := 0;
      while i < |values|
        invariant 0 <= i <= |values|
        invariant key !in before
        invariant dst == if i == 0 then before else before[key := values[..i]]
      {
        assert values[..i + 1] == values[..i] + [values[i]];
        // Header.Add appends to the key's values.
        dst := dst[key := (if key in dst then dst[key] else []) + [values[i]]];
        i := i + 1;
      }
      assert values[..|values|] == values;
      todo := todo - {key};
    }
  }

  /** Lines 33-100: route, copy the request, call upstream, relay its answer. */
  method ProxyRequest(cfg: Services, service: string, path: string, verb: string, header: Header, body: string,
                      upstream: Outgoing -> Option<Upstream>)
    returns (sent: Option<Outgoing>, reply: Reply)
    ensures TargetUrl(cfg, service, path).None? ==> sent.None? && reply == ErrorJson(400, "Unknown service")
    ensures TargetUrl(cfg, service, path).Some? ==>
      sent.Some? && sent.value.verb == verb && sent.value.url == TargetUrl(cfg, service, path).value &&
      sent.value.body == body &&
      (forall k :: k in sent.value.header <==> k in header && header[k] != []) &&
      (forall k :: k in sent.value.header ==> sent.value.header[k] == header[k])
    ensures sent.Some? && upstream(sent.value).Some? ==>
      reply == Relayed(upstream(sent.value).value.status, upstream(sent.value).value.body)
    ensures sent.Some? && upstream(sent.value).None? ==> reply == ErrorJson(500, "Failed to proxy request")
  {
    var target := TargetUrl(cfg, service, path);
    if target.None? {
      return None, ErrorJson(400, "Unknown service");
    }
    var copied := CopyHeaders(header);
    var request := Outgoing(verb, target.value, copied, body);
    sent := Some(request);
    var response := upstream(request);
    if response.None? {
      reply := ErrorJson(500, "Failed to proxy request");
    } else {
      reply := Relayed(response.value.status, response.value.body);
    }
  }

  // ----- health -----

  /** The health URL of each backend. */
  function HealthUrls(cfg: Services): (m: map<string, string>)
    ensures m.Keys == {"user-service", "wallet-service", "comment-service", "shop-service"}
  {
    map[
      "user-service" := Origin(cfg.user) + "/health",
      "wallet-service" := Origin(cfg.wallet) + "/health",
      "comment-service" := Origin(cfg.comment) + "/health",
      "shop-service" := Origin(cfg.shop) + "/api/v1/health"]
  }

  /** A probe's outcome: the status code, or `None` when the GET failed. */
  function Classify(probe: Option<int>): (s: string)
    ensures s == "healthy" <==> probe == Some(200)
    ensures s != "healthy" ==> s == "unhealthy"
  {
    if probe.None? || probe.value != 200 then "unhealthy" else "healthy"
  }

  /** Lines 103-131: probe every backend; the gateway reports itself healthy. */
  method HealthCheck(cfg: Services, probe: string -> Option<int>) returns (gateway: string, status: map<string, string>)
    ensures gateway == "healthy"
    ensures status.Keys == HealthUrls(cfg).Keys
    ensures forall name :: name in status ==>
      (status[name] == "healthy" <==> probe(HealthUrls(cfg)[name]) == Some(200))
    ensures forall name :: name in status ==> status[name] in {"healthy", "unhealthy"}
  {
    var urls := HealthUrls(cfg);
    status := map[];
    var todo := urls.Keys;
    while todo != {}
      invariant todo <= urls.Keys
      invariant status.Keys == urls.Keys - todo
      invariant forall name :: name in status ==> status[name] == Classify(probe(urls[name]))
      decreases |todo|
    {
      var name :| name in todo;
      status := status[name := Classify(probe(urls[name]))];
      todo := todo - {name};
    }
    gateway := "healthy";
  }

  // ----- the middleware chain -----

  /**
   * Lines 140-156: CORS runs first, then authentication, and only then the
   * route.  `Next` means the request reaches the controller.
   */
  function Admit(verb: string, origin: string, path: string, authorization: string,
                 secret: string, parse: string -> Option<Jwt>): (d: Decision)
    ensures d.Next? <==> verb != "OPTIONS" && Auth(path, authorization, secret, parse).Next?
    ensures verb == "OPTIONS" ==> d == Abort(204, "")
    ensures verb != "OPTIONS" && d.Abort? ==> d.status == 401
  {
    var cors := Cors(origin, verb);
    if cors.decision.Abort? then cors.decision else Auth(path, authorization, secret, parse)
  }

  /** A preflight is answered 204 before authentication, token or not. */
  lemma PreflightNeedsNoToken(origin: string, path: string, authorization: string,
                              secret: string, parse: string -> Option<Jwt>)
    ensures Admit("OPTIONS", origin, path, authorization, secret, parse) == Abort(204, "")
  {
  }

  /** The gateway's own health route is not on the skip list, so it needs a token too. */
  lemma HealthRouteNeedsToken(verb: string, origin: string, secret: string, parse: string -> Option<Jwt>)
    requires verb != "OPTIONS"
    ensures Admit(verb, origin, "/api/v1/health", "", secret, parse) == Abort(401, "missing or invalid token")
  {
    var path := "/api/v1/health";
    forall i | 0 <= i < |SkipPaths|
      ensures !(SkipPaths[i] <= path)
    {
      assert |SkipPaths[i]| > |path|;
    }
  }
}

=== FILE: gateway_middleware.dfy ===
/**
 * The API gateway's two middlewares, as decisions over the request's method,
 * path and headers.  JWT parsing is abstracted: `parse` maps the token text to
 * what the JWT library learns from it, or `None` when it is malformed.
 */
module Middleware {
  import opened Wrappers

  /** What a middleware does with the request: pass it on, or answer it now. */
  datatype Decision = Next | Abort(status: int, error: string)

  /** What parsing a token reveals: its signing family, the HMAC key its signature verifies under, and whether its time claims hold. */
  datatype Jwt = Jwt(hmac: bool, key: string, claimsValid: bool)

  // ----- CORS -----

  const AllowMethods := "GET, POST, PUT, DELETE, OPTIONS"
  const AllowHeaders := "Origin, Content-Type, Content-Length, Accept-Encoding, X-CSRF-Token, Authorization"

  /** The response headers and the decision of the CORS handler, for the request's `Origin` value and method. */
  datatype CorsReply = CorsReply(headers: map<string, string>, decision: Decision)

  function Cors(origin: string, verb: string): (r: CorsReply)
    ensures "Access-Control-Allow-Origin" in r.headers
    ensures r.headers["Access-Control-Allow-Origin"] != ""
    ensures origin != "" ==> r.headers["Access-Control-Allow-Origin"] == origin
    ensures origin == "" ==> r.headers["Access-Control-Allow-Origin"] == "*"
    ensures r.headers.Keys == {"Access-Control-Allow-Origin", "Access-Control-Allow-Methods",
                               "Access-Control-Allow-Headers", "Access-Control-Allow-Credentials"}
    ensures r.decision.Next? <==> verb != "OPTIONS"
    ensures r.decision.Abort? ==> r.decision.status == 204
  {
    var allowOrigin := if origin != "" then origin else "*";
    var headers := map[
      "Access-Control-Allow-Origin" := allowOrigin,
      "Access-Control-Allow-Methods" := AllowMethods,
      "Access-Control-Allow-Headers" := AllowHeaders,
      "Access-Control-Allow-Credentials" := "true"];
    CorsReply(headers, if verb == "OPTIONS" then Abort(204, "") else Next)
  }

  // ----- authentication -----

  const SkipPaths: seq<string> := [
    "/api/v1/users/register",
    "/api/v1/users/login",
    "/api/v1/users/verify-email",
    "/api/v1/users/resend-code"]

  const BearerPrefix := "Bearer "

  /** `strings.HasPrefix(path, p)` for some skip path `p`. */
  predicate SkipsAuth(path: string)
  {
    exists i :: 0 <= i < |SkipPaths| && SkipPaths[i] <= path
  }

  /** The token in an `Authorization` header: `TrimPrefix` after a `HasPrefix` check. */
  function BearerToken(header: string): (t: Option<string>)
    ensures t.Some? <==> BearerPrefix <= header
    ensures t.Some? ==> BearerPrefix + t.value == header
  {
    if BearerPrefix <= header then Some(header[|BearerPrefix|..]) else None
  }

  /** Extraction undoes the `Bearer ` framing. */
  lemma BearerTokenRoundTrip(token: string)
    ensures BearerToken(BearerPrefix + token) == Some(token)
  {
    assert (BearerPrefix + token)[|BearerPrefix|..] == token;
  }

  /** `jwt.Parse` with a key function that refuses non-HMAC methods, then `token.Valid`. */
  predicate Accepts(token: Option<Jwt>, secret: string)
  {
    token.Some? && token.value.hmac && token.value.key == secret && token.value.claimsValid
  }

  function Auth(path: string, authorization: string, secret: string, parse: string -> Option<Jwt>): (d: Decision)
    ensures d.Abort? ==> d.status == 401
    ensures d.Next? <==>
      SkipsAuth(path) || (BearerToken(authorization).Some? && Accepts(parse(BearerToken(authorization).value), secret))
    ensures !SkipsAuth(path) && BearerToken(authorization).None? ==> d == Abort(401, "missing or invalid token")
  {
    if SkipsAuth(path) then Next
    else if authorization == "" || !(BearerPrefix <= authorization) then Abort(401, "missing or invalid token")
    else
      var token := authorization[|BearerPrefix|..];
      if Accepts(parse(token), secret) then Next else Abort(401, "invalid token")
  }

  /** The skip list matches by prefix, so anything below a skipped path is public too. */
  lemma SkipIsByPrefix(i: nat, suffix: string, authorization: string, secret: string, parse: string -> Option<Jwt>)
    requires i < |SkipPaths|
    ensures Auth(SkipPaths[i] + suffix, authorization, secret, parse) == Next
  {
    assert SkipPaths[i] <= SkipPaths[i] + suffix;
  }

  /** A non-HMAC token is refused whatever key it carries. */
  lemma NonHmacRefused(path: string, token: string, secret: string, parse: string -> Option<Jwt>)
    requires !SkipsAuth(path)
    requires parse(token).Some? && !parse(token).value.hmac
    ensures Auth(path, BearerPrefix + token, secret, parse) == Abort(401, "invalid token")
  {
    BearerTokenRoundTrip(token);
  }

  /** A protected path passes exactly with a Bearer token signed under the gateway's secret. */
  lemma {:induction false} ProtectedPathNeedsSecret(path: string, token: string, secret: string, parse: string -> Option<Jwt>)
    requires !SkipsAuth(path)
    ensures Auth(path, BearerPrefix + token, secret, parse).Next? <==> Accepts(parse(token), secret)
  {
    BearerTokenRoundTrip(token);
  }
}

=== FILE: shop_logic.dfy ===
/**
  The shop service's logic (shop-service/logic/product.go): product
  maintenance, the order workflow and the cart checks. The wallet payment of
  an order is a call into another service whose outcome is not known here, so
  `PayOrder` may succeed or fail.
*/
module ShopLogic {
  import opened Wrappers
  import opened ShopModels
  import opened ShopRepository

  /** The fields of a product creation request. */
  datatype ProductCreate = ProductCreate(
    name: string,
    description: string,
    price: int,
    stock: int,
    imageUrl: string,
    category: string)

  class ProductLogic {
    const productRepo: ProductRepository

    ghost predicate Valid()
      reads this, productRepo
    {
      productRepo.Valid()
    }

    constructor (productRepo: ProductRepository)
      requires productRepo.Valid()
      ensures Valid() && this.productRepo == productRepo
    {
      this.productRepo := productRepo;
    }

    /** `CreateProduct` (lines 58-75): the requested fields with status "active", stored with the next id. */
    method CreateProduct(req: ProductCreate) returns (created: Product)
      requires Valid()
      modifies productRepo
      ensures Valid()
      ensures created == Product(|old(productRepo.products)| + 1, req.name, req.description, req.price, req.stock,
                                 req.imageUrl, req.category, "active")
      ensures productRepo.products == old(productRepo.products) + [created]
    {
      created := productRepo.CreateProduct(Product(0, req.name, req.description, req.price, req.stock,
                                                   req.imageUrl, req.category, "active"));
    }

    /** `GetProduct` (lines 78-80). */
    method GetProduct(id: nat) returns (r: Result<Product, ShopError>)
      requires Valid()
      ensures r.Success? <==> 1 <= id <= |productRepo.products|
      ensures r.Success? ==> r.value == productRepo.products[id - 1]
    {
      r := productRepo.GetProductByID(id);
    }

    /**
      `GetProducts` (lines 83-86): page `page` of `pageSize` listed products,
      that is the listing from offset `(page - 1) * pageSize`, and the count of
      the whole listing.
    */
    method GetProducts(page: int, pageSize: int, category: string) returns (r: seq<Product>, total: nat)
      requires Valid()
      ensures total == |Listed(productRepo.products, category)|
      ensures r == Page(Listed(productRepo.products, category), (page - 1) * pageSize, pageSize)
      ensures pageSize >= 0 ==> |r| <= pageSize
      ensures forall k :: 0 <= k < |r| ==> r[k].status == "active"
    {
      r, total := productRepo.GetProducts((page - 1) * pageSize, pageSize, category);
    }

    /**
      `UpdateProduct` (lines 89-145): a missing product is an error that
      changes nothing; otherwise exactly the fields the request gives change,
      and the stored product is read back.
    */
    method UpdateProduct(id: nat, u: ProductUpdate) returns (r: Result<Product, ShopError>)
      requires Valid()
      modifies productRepo
      ensures Valid()
      ensures r.Success? <==> 1 <= id <= |old(productRepo.products)|
      ensures r.Failure? ==> r.error == RecordNotFound && productRepo.products == old(productRepo.products)
      ensures r.Success? ==>
        && r.value == Merge(old(productRepo.products)[id - 1], u)
        && productRepo.products == old(productRepo.products)[id - 1 := r.value]
    {
      var product := productRepo.GetProductByID(id);
      if product.Failure? {
        return Failure(RecordNotFound);
      }
      productRepo.UpdateProduct(id, Merge(product.value, u));
      r := productRepo.GetProductByID(id);
    }

    /** `DeleteProduct` (lines 148-150): the soft delete. */
    method DeleteProduct(id: nat)
      requires Valid()
      modifies productRepo
      ensures Valid()
      ensures productRepo.products == Offline(old(productRepo.products), id)
    {
      productRepo.DeleteProduct(id);
    }
  }

  /** The lines an order is made of: the user's cart, or the request's lines. */
  function OrderLines(carts: seq<Cart>, user: nat, requested: seq<Line>, useCart: bool): seq<Line>
  {
    if useCart then CartLines(CartOf(carts, user)) else requested
  }

  class OrderLogic {
    const productRepo: ProductRepository
    const orderRepo: OrderRepository
    const cartRepo: CartRepository

    ghost predicate Valid()
      reads this, productRepo, orderRepo, cartRepo
    {
      productRepo.Valid() && orderRepo.Valid() && cartRepo.Valid()
    }

    constructor (productRepo: ProductRepository, orderRepo: OrderRepository, cartRepo: CartRepository)
      requires productRepo.Valid() && orderRepo.Valid() && cartRepo.Valid()
      ensures Valid()
      ensures this.productRepo == productRepo && this.orderRepo == orderRepo && this.cartRepo == cartRepo
    {
      this.productRepo := productRepo;
      this.orderRepo := orderRepo;
      this.cartRepo := cartRepo;
    }

    /**
      The validation loop of `CreateOrder` (lines 171-222), with the stock check
      corrected to cover every earlier line of the same product: the items
      and the total of a valid order, or the first failing line's error.
    */
    method CollectItems(lines: seq<Line>) returns (r: Result<seq<OrderItem>, ShopError>, total: int)
      requires Valid()
      ensures r == Validate(productRepo.products, lines)
      ensures r.Success? ==> total == OrderTotal(r.value)
    {
      var items: seq<OrderItem> := [];
      total := 0;
      var k := 0;
      while k < |lines|
        invariant 0 <= k <= |lines|
        invariant Validate(productRepo.products, lines[..k]) == Success(items)
        invariant total == OrderTotal(items)
      {
        var line := lines[k];
        ValidateStep(productRepo.products, lines, k, items);
        var product := productRepo.GetProductByID(line.productId);
        if product.Failure? {
          ValidateFailurePropagates(productRepo.products, lines, k + 1);
          return Failure(ProductNotFound(line.productId)), total;
        }
        var p := product.value;
        if p.status != "active" {
          ValidateFailurePropagates(productRepo.products, lines, k + 1);
          return Failure(ProductNotAvailable(line.productId)), total;
        }
        if p.stock < Requested(lines[..k + 1], line.productId) {
          ValidateFailurePropagates(productRepo.products, lines, k + 1);
          return Failure(StockInsufficient(line.productId)), total;
        }
        var itemPrice := p.price * line.quantity;
        total := total + itemPrice;
        var item := OrderItem(0, 0, p.id, line.quantity, p.price, itemPrice, p.name);
        assert (items + [item])[..|items|] == items;
        items := items + [item];
        k := k + 1;
      }
      assert lines[..k] == lines;
      r := Success(items);
    }

    /**
      One pass of the write loop (lines 242-252): item `k` stored for the
      order with the next id, then its product's stock reduced; after `k`
      passes the tables hold the first `k` items' effects.
    */
    method WriteItem(oid: nat, items: seq<OrderItem>, k: nat, ghost P: seq<Product>, ghost I: seq<OrderItem>)
      requires Valid() && k < |items|
      requires orderRepo.items == I + Stamped(items[..k], oid, |I| + 1)
      requires productRepo.products == ApplyReduce(P, ItemLines(items[..k]))
      modifies productRepo, orderRepo
      ensures Valid()
      ensures orderRepo.orders == old(orderRepo.orders)
      ensures orderRepo.items == I + Stamped(items[..k + 1], oid, |I| + 1)
      ensures productRepo.products == ApplyReduce(P, ItemLines(items[..k + 1]))
    {
      ItemLinesStep(items, k);
      ApplyReduceSnoc(P, ItemLines(items[..k]), Line(items[k].productId, items[k].quantity));
      ghost var before := orderRepo.items;
      var created := orderRepo.CreateOrderItem(items[k].(orderId := oid));
      StampedAppend(I, items, k, oid, before, created);
      productRepo.ReduceStock(items[k].productId, items[k].quantity);
    }

    /** The write loop of `CreateOrder` (lines 241-253): each item stored for the order, then its stock reduced. */
    method WriteItems(oid: nat, items: seq<OrderItem>)
      requires Valid()
      modifies productRepo, orderRepo
      ensures Valid()
      ensures orderRepo.orders == old(orderRepo.orders)
      ensures orderRepo.items == old(orderRepo.items) + Stamped(items, oid, |old(orderRepo.items)| + 1)
      ensures productRepo.products == ApplyReduce(old(productRepo.products), ItemLines(items))
    {
      ghost var P, I := productRepo.products, orderRepo.items;
      var k := 0;
      while k < |items|
        invariant 0 <= k <= |items|
        invariant Valid()
        invariant orderRepo.orders == old(orderRepo.orders)
        invariant orderRepo.items == I + Stamped(items[..k], oid, |I| + 1)
        invariant productRepo.products == ApplyReduce(P, ItemLines(items[..k]))
      {
        WriteItem(oid, items, k, P, I);
        k := k + 1;
      }
      assert items[..k] == items;
    }

    /** The compensation loop (lines 259-261): every item's quantity returned to its product. */
    method RestoreStock(items: seq<OrderItem>)
      requires Valid()
      modifies productRepo
      ensures Valid()
      ensures productRepo.products == IncreaseAll(old(productRepo.products), ItemLines(items))
    {
      var k := 0;
      while k < |items|
        invariant 0 <= k <= |items|
        invariant productRepo.Valid()
        invariant productRepo.products == IncreaseAll(old(productRepo.products), ItemLines(items[..k]))
      {
        ItemLinesStep(items, k);
        IncreaseAllSnoc(old(productRepo.products), ItemLines(items[..k]), Line(items[k].productId, items[k].quantity));
        productRepo.IncreaseStock(items[k].productId, items[k].quantity);
        k := k + 1;
      }
      assert items[..k] == items;
    }

    /** `payOrder` (lines 278-315): an HTTP call to the wallet service; only its success or failure matters here. */
    method PayOrder(oid: nat, user: nat, amount: int) returns (ok: bool)
    {
      ok := *;
    }

    /**
      The writes of `CreateOrder` for a validated order (lines 225-274): the
      pending order, its items and the stock reductions, then the payment. A
      failed payment returns every item's stock and cancels the order; a paid
      order is marked paid and, when it came from the cart, the cart is
      emptied. The returned order carries the status it was created with.
    */
    method PlaceOrder(user: nat, lines: seq<Line>, items: seq<OrderItem>, total: int,
                      address: string, phone: string, remark: string, useCart: bool)
      returns (r: Result<Order, ShopError>)
      requires Valid()
      requires Validate(productRepo.products, lines) == Success(items) && total == OrderTotal(items)
      modifies productRepo, orderRepo, cartRepo
      ensures Valid()
      ensures r.Success? || r == Failure(PaymentFailed)
      ensures orderRepo.items == old(orderRepo.items) + Stamped(items, |old(orderRepo.orders)| + 1, |old(orderRepo.items)| + 1)
      ensures var order := Order(|old(orderRepo.orders)| + 1, user, "pending", total, address, phone, remark);
        && (r.Success? ==>
              && r.value == order
              && orderRepo.orders == old(orderRepo.orders) + [order.(status := "paid")]
              && productRepo.products == ApplyReduce(old(productRepo.products), lines)
              && cartRepo.carts == (if useCart then WithoutUser(old(cartRepo.carts), user) else old(cartRepo.carts)))
        && (r.Failure? ==>
              && orderRepo.orders == old(orderRepo.orders) + [order.(status := "cancelled")]
              && productRepo.products == old(productRepo.products)
              && cartRepo.carts == old(cartRepo.carts))
    {
      ghost var P := productRepo.products;
      ValidateLines(P, lines);
      var order := orderRepo.CreateOrder(Order(0, user, "pending", total, address, phone, remark));
      WriteItems(order.id, items);
      var paid := PayOrder(order.id, user, total);
      SetLastOrderStatus(old(orderRepo.orders), order, if paid then "paid" else "cancelled");
      Settle(order.id, user, items, paid, useCart);
      if !paid {
        CompensationRestoresStock(P, lines);
        return Failure(PaymentFailed);
      }
      r := Success(order);
    }

    /**
      What follows the payment in `CreateOrder` (lines 255-274): a failed
      payment returns every item's stock and cancels the order; a successful
      one marks it paid and, for a cart order, empties the user's cart.
    */
    method Settle(oid: nat, user: nat, items: seq<OrderItem>, paid: bool, useCart: bool)
      requires Valid()
      modifies productRepo, orderRepo, cartRepo
      ensures Valid()
      ensures orderRepo.items == old(orderRepo.items)
      ensures orderRepo.orders == SetOrderStatus(old(orderRepo.orders), oid, if paid then "paid" else "cancelled")
      ensures productRepo.products == if paid then old(productRepo.products) else IncreaseAll(old(productRepo.products), ItemLines(items))
      ensures cartRepo.carts == if paid && useCart then WithoutUser(old(cartRepo.carts), user) else old(cartRepo.carts)
    {
      if !paid {
        RestoreStock(items);
        orderRepo.UpdateOrderStatus(oid, "cancelled");
        return;
      }
      orderRepo.UpdateOrderStatus(oid, "paid");
      if useCart {
        cartRepo.ClearCart(user);
      }
    }

    /**
      `CreateOrder` (lines 155-275). The lines are the user's cart when
      `useCart` is set, and an empty cart is refused; otherwise they are the
      request's lines. An order the corrected validation refuses writes
      nothing and reports the first failing line; a valid order is placed as
      `PlaceOrder` says, at the sum of its items' totals.
    */
    method CreateOrder(user: nat, requested: seq<Line>, address: string, phone: string, remark: string, useCart: bool)
      returns (r: Result<Order, ShopError>)
      requires Valid()
      modifies productRepo, orderRepo, cartRepo
      ensures Valid()
      ensures useCart && CartOf(old(cartRepo.carts), user) == [] ==> r == Failure(CartEmpty)
      ensures !(useCart && CartOf(old(cartRepo.carts), user) == [])
              && Validate(old(productRepo.products), OrderLines(old(cartRepo.carts), user, requested, useCart)).Failure? ==>
        r == Failure(Validate(old(productRepo.products), OrderLines(old(cartRepo.carts), user, requested, useCart)).error)
      ensures r.Failure? && r.error != PaymentFailed ==>
        && productRepo.products == old(productRepo.products)
        && orderRepo.orders == old(orderRepo.orders) && orderRepo.items == old(orderRepo.items)
        && cartRepo.carts == old(cartRepo.carts)
      ensures r.Success? || r == Failure(PaymentFailed) ==>
        var lines := OrderLines(old(cartRepo.carts), user, requested, useCart);
        && Validate(old(productRepo.products), lines).Success?
        && var items := Validate(old(productRepo.products), lines).value;
        && var order := Order(|old(orderRepo.orders)| + 1, user, "pending", OrderTotal(items), address, phone, remark);
        && orderRepo.items == old(orderRepo.items) + Stamped(items, order.id, |old(orderRepo.items)| + 1)
        && (r.Success? ==>
              && r.value == order
              && orderRepo.orders == old(orderRepo.orders) + [order.(status := "paid")]
              && productRepo.products == ApplyReduce(old(productRepo.products), lines)
              && cartRepo.carts == (if useCart then WithoutUser(old(cartRepo.carts), user) else old(cartRepo.carts)))
        && (r.Failure? ==>
              && orderRepo.orders == old(orderRepo.orders) + [order.(status := "cancelled")]
              && productRepo.products == old(productRepo.products)
              && cartRepo.carts == old(cartRepo.carts))
    {
      ghost var P, O, I, C := productRepo.products, orderRepo.orders, orderRepo.items, cartRepo.carts;
      var lines := requested;
      if useCart {
        var cart := cartRepo.GetCartByUserID(user);
        if |cart| == 0 {
          return Failure(CartEmpty);
        }
        lines := CartLines(cart);
      }
      assert lines == OrderLines(cartRepo.carts, user, requested, useCart);
      var collected, total := CollectItems(lines);
      if collected.Failure? {
        ValidateFailure(productRepo.products, lines);
        return Failure(collected.error);
      }
      assert collected == Validate(P, OrderLines(C, user, requested, useCart));
      assert productRepo.products == P && orderRepo.orders == O && orderRepo.items == I && cartRepo.carts == C;
      r := PlaceOrder(user, lines, collected.value, total, address, phone, remark, useCart);
      assert orderRepo.items == I + Stamped(collected.value, |O| + 1, |I| + 1);
    }

    /** `GetOrder` (lines 318-320). */
    method GetOrder(orderId: nat) returns (r: Result<Order, ShopError>)
      requires Valid()
      ensures r.Success? <==> 1 <= orderId <= |orderRepo.orders|
      ensures r.Success? ==> r.value == orderRepo.orders[orderId - 1]
    {
      r := orderRepo.GetOrderByID(orderId);
    }

    /** `GetUserOrders` (lines 323-325): the user's orders, newest first. */
    method GetUserOrders(user: nat) returns (r: seq<Order>)
      requires Valid()
      ensures forall k :: 0 <= k < |r| ==> r[k].userId == user && r[k] in orderRepo.orders
      ensures forall o :: o in orderRepo.orders && o.userId == user ==> o in r
      ensures forall a, b :: 0 <= a < b < |r| ==> r[a].id > r[b].id
    {
      r := orderRepo.GetOrdersByUserID(user);
    }

    /**
      `CancelOrder` (lines 328-350): only a pending or paid order can be
      cancelled; its items' stock is returned and it becomes "cancelled", so
      cancelling it again is refused. No payment is refunded.
    */
    method CancelOrder(orderId: nat) returns (err: Option<ShopError>)
      requires Valid()
      modifies productRepo, orderRepo
      ensures Valid()
      ensures orderRepo.items == old(orderRepo.items)
      ensures !(1 <= orderId <= |old(orderRepo.orders)|) ==>
        err == Some(RecordNotFound) && unchanged(productRepo, orderRepo)
      ensures 1 <= orderId <= |old(orderRepo.orders)| && !Cancellable(old(orderRepo.orders)[orderId - 1].status) ==>
        err == Some(CannotCancel(old(orderRepo.orders)[orderId - 1].status)) && unchanged(productRepo, orderRepo)
      ensures err.None? <==> 1 <= orderId <= |old(orderRepo.orders)| && Cancellable(old(orderRepo.orders)[orderId - 1].status)
      ensures err.None? ==>
        && productRepo.products == IncreaseAll(old(productRepo.products), ItemLines(ItemsOf(old(orderRepo.items), orderId)))
        && orderRepo.orders == SetOrderStatus(old(orderRepo.orders), orderId, "cancelled")
        && !Cancellable(orderRepo.orders[orderId - 1].status)
    {
      var order := orderRepo.GetOrderByID(orderId);
      if order.Failure? {
        return Some(RecordNotFound);
      }
      if order.value.status != "pending" && order.value.status != "paid" {
        return Some(CannotCancel(order.value.status));
      }
      var items := orderRepo.GetOrderItemsByOrderID(orderId);
      RestoreStock(items);
      orderRepo.UpdateOrderStatus(orderId, "cancelled");
      err := None;
    }
  }

  class CartLogic {
    const cartRepo: CartRepository
    const productRepo: ProductRepository

    ghost predicate Valid()
      reads this, cartRepo, productRepo
    {
      cartRepo.Valid() && productRepo.Valid()
    }

    constructor (cartRepo: CartRepository, productRepo: ProductRepository)
      requires cartRepo.Valid() && productRepo.Valid()
      ensures Valid() && this.cartRepo == cartRepo && this.productRepo == productRepo
    {
      this.cartRepo := cartRepo;
      this.productRepo := productRepo;
    }

    /**
      `AddToCart` (lines 355-373): a missing or inactive product is refused
      and the cart is unchanged; otherwise the quantity is merged into the
      user's row for the product.
    */
    method AddToCart(user: nat, product: nat, quantity: int) returns (err: Option<ShopError>)
      requires Valid()
      modifies cartRepo
      ensures Valid()
      ensures !(1 <= product <= |productRepo.products|) ==> err == Some(ProductNotFound(product))
      ensures 1 <= product <= |productRepo.products| && productRepo.products[product - 1].status != "active" ==>
        err == Some(ProductNotAvailable(product))
      ensures err.Some? ==> unchanged(cartRepo)
      ensures err.None? ==>
        && 1 <= product <= |productRepo.products| && productRepo.products[product - 1].status == "active"
        && (cartRepo.carts, cartRepo.nextId) == MergeAdd(old(cartRepo.carts), old(cartRepo.nextId), Cart(0, user, product, quantity))
    {
      var p := productRepo.GetProductByID(product);
      if p.Failure? {
        return Some(ProductNotFound(product));
      }
      if p.value.status != "active" {
        return Some(ProductNotAvailable(product));
      }
      cartRepo.AddToCart(Cart(0, user, product, quantity));
      err := None;
    }

    /** `GetCart` (lines 376-378): the user's rows. */
    method GetCart(user: nat) returns (r: seq<Cart>)
      requires Valid()
      ensures forall x :: x in r <==> x in cartRepo.carts && x.userId == user
    {
      r := cartRepo.GetCartByUserID(user);
    }

    /** `UpdateCartItem` (lines 381-383). */
    method UpdateCartItem(user: nat, product: nat, quantity: int)
      requires Valid()
      modifies cartRepo
      ensures Valid()
      ensures cartRepo.carts == SetQuantity(old(cartRepo.carts), user, product, quantity)
    {
      cartRepo.UpdateCartItem(user, product, quantity);
    }

    /** `RemoveFromCart` (lines 386-388). */
    method RemoveFromCart(user: nat, product: nat)
      requires Valid()
      modifies cartRepo
      ensures Valid()
      ensures cartRepo.carts == WithoutPair(old(cartRepo.carts), user, product)
    {
      cartRepo.DeleteCartItem(user, product);
    }

    /** `ClearCart` (lines 391-393). */
    method ClearCart(user: nat)
      requires Valid()
      modifies cartRepo
      ensures Valid()
      ensures cartRepo.carts == WithoutUser(old(cartRepo.carts), user)
    {
      cartRepo.ClearCart(user);
    }
  }
}

=== FILE: shop_models.dfy ===
/**
  Rows of the shop service's four tables (shop-service/models/product.go) and
  the pure functions over them that the shop repository and logic are
  specified by. Prices and totals are integers (cents); status fields keep the
  strings the code compares against.
*/
module ShopModels {
  import opened Wrappers

  datatype Product = Product(
    id: nat,
    name: string,
    description: string,
    price: int,
    stock: int,
    imageUrl: string,
    category: string,
    status: string)   // "active", "sold_out" or "offline"

  datatype Order = Order(
    id: nat,
    userId: nat,
    status: string,   // "pending", "paid", "cancelled", ...
    totalAmount: int,
    address: string,
    phone: string,
    remark: string)

  datatype OrderItem = OrderItem(
    id: nat,
    orderId: nat,
    productId: nat,
    quantity: int,
    unitPrice: int,
    totalPrice: int,
    productName: string)

  datatype Cart = Cart(id: nat, userId: nat, productId: nat, quantity: int)

  /** One requested line of an order: a product and a quantity. */
  datatype Line = Line(productId: nat, quantity: int)

  datatype ShopError =
    | RecordNotFound                          // the store found no row
    | CartEmpty                               // "cart is empty"
    | ProductNotFound(productId: nat)         // "product %d not found"
    | ProductNotAvailable(productId: nat)     // "product %d is not available"
    | StockInsufficient(productId: nat)       // "product %d stock insufficient"
    | PaymentFailed                           // "payment failed: ..."
    | CannotCancel(status: string)            // "order cannot be cancelled in status: %s"
    | StorageFailure                          // any other error of the store

  // ---------------------------------------------------------------------------
  // Products
  // ---------------------------------------------------------------------------

  /** Auto-increment ids; products are soft-deleted, so rows are never removed. */
  predicate ProductIdsArePositions(P: seq<Product>)
  {
    forall i :: 0 <= i < |P| ==> P[i].id == i + 1
  }

  predicate NonNegativeStock(P: seq<Product>)
  {
    forall i :: 0 <= i < |P| ==> P[i].stock >= 0
  }

  /** `UPDATE products SET stock = stock - q WHERE id = pid AND stock >= q`. */
  function ReduceOne(P: seq<Product>, pid: nat, q: int): (r: seq<Product>)
    ensures |r| == |P|
    ensures forall j :: 0 <= j < |P| && j != pid - 1 ==> r[j] == P[j]
    ensures 1 <= pid <= |P| ==> r[pid - 1] == P[pid - 1].(stock := r[pid - 1].stock)
    ensures 1 <= pid <= |P| && P[pid - 1].stock >= q ==> r[pid - 1].stock == P[pid - 1].stock - q
    ensures !(1 <= pid <= |P| && P[pid - 1].stock >= q) ==> r == P
    ensures NonNegativeStock(P) ==> NonNegativeStock(r)
  {
    if 1 <= pid <= |P| && P[pid - 1].stock >= q then P[pid - 1 := P[pid - 1].(stock := P[pid - 1].stock - q)]
    else P
  }

  /** `UPDATE products SET stock = stock + q WHERE id = pid`. */
  function IncreaseOne(P: seq<Product>, pid: nat, q: int): (r: seq<Product>)
    ensures |r| == |P|
    ensures forall j :: 0 <= j < |P| && j != pid - 1 ==> r[j] == P[j]
    ensures 1 <= pid <= |P| ==> r[pid - 1] == P[pid - 1].(stock := P[pid - 1].stock + q)
    ensures NonNegativeStock(P) && q >= 0 ==> NonNegativeStock(r)
  {
    if 1 <= pid <= |P| then P[pid - 1 := P[pid - 1].(stock := P[pid - 1].stock + q)] else P
  }

  /** `UPDATE products SET status = 'offline' WHERE id = pid`: the row stays. */
  function Offline(P: seq<Product>, pid: nat): (r: seq<Product>)
    ensures |r| == |P|
    ensures forall j :: 0 <= j < |P| && j != pid - 1 ==> r[j] == P[j]
    ensures 1 <= pid <= |P| ==> r[pid - 1] == P[pid - 1].(status := "offline")
  {
    if 1 <= pid <= |P| then P[pid - 1 := P[pid - 1].(status := "offline")] else P
  }

  predicate Matches(p: Product, category: string)
  {
    p.status == "active" && (category == "" || p.category == category)
  }

  /** The products `GetProducts` lists: active, of `category` unless it is empty, newest first. */
  function Listed(P: seq<Product>, category: string): (r: seq<Product>)
    ensures |r| <= |P|
    ensures forall k :: 0 <= k < |r| ==> Matches(r[k], category) && r[k] in P
    ensures forall i :: 0 <= i < |P| && Matches(P[i], category) ==> P[i] in r
    ensures ProductIdsArePositions(P) ==> forall a, b :: 0 <= a < b < |r| ==> r[a].id > r[b].id
    ensures ProductIdsArePositions(P) && |P| > 0 ==> forall k :: 0 <= k < |r| ==> r[k].id <= |P|
  {
    if P == [] then []
    else
      var last := P[|P| - 1];
      var rest := Listed(P[..|P| - 1], category);
      if Matches(last, category) then [last] + rest else rest
  }

  /** Where a page starts: a non-positive offset is no offset, and an offset past the end leaves nothing. */
  function PageStart(offset: int, n: nat): (s: nat)
    ensures s <= n
    ensures 0 < offset <= n ==> s == offset
  {
    if offset <= 0 then 0 else if offset < n then offset else n
  }

  /** `OFFSET offset LIMIT limit`; a negative limit is no limit. */
  function Page<T>(s: seq<T>, offset: int, limit: int): (r: seq<T>)
    ensures limit >= 0 ==> |r| <= limit
    ensures PageStart(offset, |s|) + |r| <= |s|
    ensures r == s[PageStart(offset, |s|)..PageStart(offset, |s|) + |r|]
    ensures limit < 0 ==> PageStart(offset, |s|) + |r| == |s|
    ensures limit >= 0 && PageStart(offset, |s|) + limit <= |s| ==> |r| == limit
  {
    var start := PageStart(offset, |s|);
    if limit < 0 || start + limit > |s| then s[start..] else s[start..start + limit]
  }

  /**
    With `offset = (page - 1) * pageSize`, pages of a positive size tile the
    listing: the element at position k is on page k / size + 1, at position
    k % size.
  */
  lemma PagesTileListing<T>(s: seq<T>, size: int, k: nat)
    requires size > 0 && k < |s|
    ensures var page := k / size + 1;
      var r := Page(s, (page - 1) * size, size);
      k % size < |r| && r[k % size] == s[k]
  {
    var page := k / size + 1;
    var offset := (page - 1) * size;
    assert offset == (k / size) * size;
    assert offset + k % size == k;
    assert 0 <= offset <= k;
    var r := Page(s, offset, size);
    if offset > 0 {
      assert PageStart(offset, |s|) == offset;
    }
  }

  /** Two consecutive pages are the page of twice the size. */
  lemma ConsecutivePages<T>(s: seq<T>, size: int, page: int)
    requires size > 0 && page >= 1
    ensures Page(s, (page - 1) * size, size) + Page(s, page * size, size) == Page(s, (page - 1) * size, 2 * size)
  {
    var o := (page - 1) * size;
    PageOffsets(page, size);
    ConsecutiveSlices(s, o, size);
  }

  /** The offsets of page `page` and of the page after it. */
  lemma PageOffsets(page: int, size: int)
    requires size > 0 && page >= 1
    ensures (page - 1) * size >= 0
    ensures page * size == (page - 1) * size + size
  {
  }

  /** `ConsecutivePages` at a non-negative offset, case by case on where the pages end. */
  lemma {:induction false} ConsecutiveSlices<T>(s: seq<T>, o: int, size: int)
    requires size > 0 && o >= 0
    ensures Page(s, o, size) + Page(s, o + size, size) == Page(s, o, 2 * size)
  {
    if o + 2 * size <= |s| {
      BothPagesFull(s, o, size);
    } else if o + size <= |s| {
      SecondPageShort(s, o, size);
    } else {
      FirstPageShort(s, o, size);
    }
  }

  /** Both pages fit: their slices meet at `o + size`. */
  lemma BothPagesFull<T>(s: seq<T>, o: int, size: int)
    requires size > 0 && o >= 0 && o + 2 * size <= |s|
    ensures Page(s, o, size) + Page(s, o + size, size) == Page(s, o, 2 * size)
  {
    FullPage(s, o, size);
    FullPage(s, o + size, size);
    FullPage(s, o, 2 * size);
    assert s[o..o + 2 * size] == s[o..o + size] + s[o + size..o + 2 * size];
  }

  /** The first page fits and the second runs past the end. */
  lemma SecondPageShort<T>(s: seq<T>, o: int, size: int)
    requires size > 0 && o >= 0 && o + size <= |s| < o + 2 * size
    ensures Page(s, o, size) + Page(s, o + size, size) == Page(s, o, 2 * size)
  {
    FullPage(s, o, size);
    TailPage(s, o + size, size);
    TailPage(s, o, 2 * size);
    assert s[o..] == s[o..o + size] + s[o + size..];
  }

  /** The first page already runs past the end, so the second is empty. */
  lemma FirstPageShort<T>(s: seq<T>, o: int, size: int)
    requires size > 0 && o >= 0 && |s| < o + size
    ensures Page(s, o, size) + Page(s, o + size, size) == Page(s, o, 2 * size)
  {
    TailPage(s, o, size);
    TailPage(s, o + size, size);
    TailPage(s, o, 2 * size);
    assert s[|s|..] == [];
  }

  /** A page that fits is the slice at its offset. */
  lemma FullPage<T>(s: seq<T>, o: int, size: int)
    requires size > 0 && o >= 0 && o + size <= |s|
    ensures Page(s, o, size) == s[o..o + size]
  {
    assert PageStart(o, |s|) == o;
  }

  /** A page that runs past the end is the rest of the listing from its start. */
  lemma TailPage<T>(s: seq<T>, o: int, size: int)
    requires size > 0 && o >= 0 && o + size > |s|
    ensures Page(s, o, size) == s[if o < |s| then o else |s|..]
  {
  }


  // ---------------------------------------------------------------------------
  // UpdateProduct (shop-service/logic/product.go:89-145)
  // ---------------------------------------------------------------------------

  /** The optional fields of an update request; `None` is a field the request leaves out. */
  datatype ProductUpdate = ProductUpdate(
    name: Option<string>,
    description: Option<string>,
    price: Option<int>,
    stock: Option<int>,
    imageUrl: Option<string>,
    category: Option<string>,
    status: Option<string>)

  /** The request merged into the stored product: exactly the given fields take the given values. */
  function Merge(p: Product, u: ProductUpdate): (r: Product)
    ensures r.id == p.id
    ensures r.name == (if u.name.Some? then u.name.value else p.name)
    ensures r.description == (if u.description.Some? then u.description.value else p.description)
    ensures r.price == (if u.price.Some? then u.price.value else p.price)
    ensures r.stock == (if u.stock.Some? then u.stock.value else p.stock)
    ensures r.imageUrl == (if u.imageUrl.Some? then u.imageUrl.value else p.imageUrl)
    ensures r.category == (if u.category.Some? then u.category.value else p.category)
    ensures r.status == (if u.status.Some? then u.status.value else p.status)
  {
    p.(name := if u.name.Some? then u.name.value else p.name)
     .(description := if u.description.Some? then u.description.value else p.description)
     .(price := if u.price.Some? then u.price.value else p.price)
     .(stock := if u.stock.Some? then u.stock.value else p.stock)
     .(imageUrl := if u.imageUrl.Some? then u.imageUrl.value else p.imageUrl)
     .(category := if u.category.Some? then u.category.value else p.category)
     .(status := if u.status.Some? then u.status.value else p.status)
  }

  /** An empty request changes nothing, and applying the same request twice is applying it once. */
  lemma MergeLaws(p: Product, u: ProductUpdate)
    ensures Merge(p, ProductUpdate(None, None, None, None, None, None, None)) == p
    ensures Merge(Merge(p, u), u) == Merge(p, u)
  {
  }

  /**
    As written, the store writes the merged product with gorm's `Updates` of
    a struct, which skips every zero-valued field ("" or 0): a field the
    request sets to zero keeps its stored value.
  */
  function GormUpdates(stored: Product, src: Product): (r: Product)
    ensures r.id == stored.id
    ensures src.stock != 0 ==> r.stock == src.stock
    ensures src.stock == 0 ==> r.stock == stored.stock
  {
    stored.(name := if src.name != "" then src.name else stored.name)
          .(description := if src.description != "" then src.description else stored.description)
          .(price := if src.price != 0 then src.price else stored.price)
          .(stock := if src.stock != 0 then src.stock else stored.stock)
          .(imageUrl := if src.imageUrl != "" then src.imageUrl else stored.imageUrl)
          .(category := if src.category != "" then src.category else stored.category)
          .(status := if src.status != "" then src.status else stored.status)
  }

  /**
    The stored product after `UpdateProduct` as written: a requested non-zero
    stock or price is stored, a requested zero is lost, and an absent field
    keeps its stored value.
  */
  function UpdateProductAsWritten(stored: Product, u: ProductUpdate): (r: Product)
    ensures r.id == stored.id
    ensures u.stock.Some? && u.stock.value != 0 ==> r.stock == u.stock.value
    ensures u.stock == Some(0) || u.stock.None? ==> r.stock == stored.stock
    ensures u.price.Some? && u.price.value != 0 ==> r.price == u.price.value
    ensures u.price == Some(0) || u.price.None? ==> r.price == stored.price
  {
    GormUpdates(stored, Merge(stored, u))
  }

  /** Setting the stock to 0 (marking a product out of stock) is lost as written. */
  lemma ZeroStockUpdateIsLost(stored: Product)
    requires stored.stock == 5
    ensures var u := ProductUpdate(None, None, None, Some(0), None, None, None);
      && Merge(stored, u).stock == 0
      && UpdateProductAsWritten(stored, u).stock == 5
  {
  }

  /** The discrepancy is confined to zero values: a request with no zero-valued field is stored exactly. */
  lemma AsWrittenAgreesWithoutZeroValues(stored: Product, u: ProductUpdate)
    requires u.name != Some("") && u.description != Some("") && u.price != Some(0) && u.stock != Some(0)
    requires u.imageUrl != Some("") && u.category != Some("") && u.status != Some("")
    requires stored.name != "" && stored.description != "" && stored.price != 0 && stored.stock != 0
    requires stored.imageUrl != "" && stored.category != "" && stored.status != ""
    ensures UpdateProductAsWritten(stored, u) == Merge(stored, u)
  {
  }

  /** The corrected write: every field of `src` is stored (as `Select("*")` or `Save` does), the id kept. */
  function Overwrite(P: seq<Product>, pid: nat, src: Product): (r: seq<Product>)
    ensures |r| == |P|
    ensures forall j :: 0 <= j < |P| && j != pid - 1 ==> r[j] == P[j]
    ensures 1 <= pid <= |P| ==> r[pid - 1] == src.(id := P[pid - 1].id)
  {
    if 1 <= pid <= |P| then P[pid - 1 := src.(id := P[pid - 1].id)] else P
  }

  /** With the corrected write, the product read back after an update is the merge, zero values included. */
  lemma UpdateProductStoresMerge(P: seq<Product>, pid: nat, u: ProductUpdate)
    requires ProductIdsArePositions(P) && 1 <= pid <= |P|
    ensures var r := Overwrite(P, pid, Merge(P[pid - 1], u));
      && r[pid - 1] == Merge(P[pid - 1], u)
      && ProductIdsArePositions(r)
      && (u.stock == Some(0) ==> r[pid - 1].stock == 0)
  {
  }

  // ---------------------------------------------------------------------------
  // Order validation and stock movements (shop-service/logic/product.go:155-275)
  // ---------------------------------------------------------------------------

  /** The total quantity of product `pid` over `lines`. */
  function Requested(lines: seq<Line>, pid: nat): int
  {
    if lines == [] then 0
    else Requested(lines[..|lines| - 1], pid) + (if lines[|lines| - 1].productId == pid then lines[|lines| - 1].quantity else 0)
  }

  /** The errors that name a product. */
  predicate AboutProduct(e: ShopError)
  {
    e.ProductNotFound? || e.ProductNotAvailable? || e.StockInsufficient?
  }

  /**
    One line checked against the products: the product must exist, be active,
    and have at least `needed` in stock. The item snapshots its name and
    price, and its total is price times quantity.
  */
  function CheckLine(P: seq<Product>, line: Line, needed: int): (r: Result<OrderItem, ShopError>)
    ensures r.Success? ==>
      && 1 <= line.productId <= |P|
      && P[line.productId - 1].status == "active"
      && P[line.productId - 1].stock >= needed
      && r.value == OrderItem(0, 0, P[line.productId - 1].id, line.quantity, P[line.productId - 1].price,
                              P[line.productId - 1].price * line.quantity, P[line.productId - 1].name)
    ensures r.Failure? ==> AboutProduct(r.error) && r.error.productId == line.productId
    ensures r.Failure? ==> (r.error.ProductNotFound? <==> !(1 <= line.productId <= |P|))
  {
    if !(1 <= line.productId <= |P|) then Failure(ProductNotFound(line.productId))
    else
      var p := P[line.productId - 1];
      if p.status != "active" then Failure(ProductNotAvailable(line.productId))
      else if p.stock < needed then Failure(StockInsufficient(line.productId))
      else Success(OrderItem(0, 0, p.id, line.quantity, p.price, p.price * line.quantity, p.name))
  }

  /**
    The validation loop as written: each line is checked against the stock as
    it was before the order, so two lines for the same product are each
    checked alone. The first failing line decides the error.
  */
  function ValidateAsWritten(P: seq<Product>, lines: seq<Line>): (r: Result<seq<OrderItem>, ShopError>)
    ensures r.Success? ==> |r.value| == |lines|
  {
    if lines == [] then Success([])
    else
      var prefix := ValidateAsWritten(P, lines[..|lines| - 1]);
      if prefix.Failure? then prefix
      else
        var last := lines[|lines| - 1];
        var check := CheckLine(P, last, last.quantity);
        if check.Failure? then Failure(check.error) else Success(prefix.value + [check.value])
  }

  /**
    The corrected validation: a line is checked against the quantity of its
    product requested by it and every earlier line, so the order never asks
    for more than the stock holds.
  */
  function Validate(P: seq<Product>, lines: seq<Line>): (r: Result<seq<OrderItem>, ShopError>)
    ensures r.Success? ==> |r.value| == |lines|
  {
    if lines == [] then Success([])
    else
      var prefix := Validate(P, lines[..|lines| - 1]);
      if prefix.Failure? then prefix
      else
        var last := lines[|lines| - 1];
        var check := CheckLine(P, last, Requested(lines, last.productId));
        if check.Failure? then Failure(check.error) else Success(prefix.value + [check.value])
  }

  /** No product is named by more than one line. */
  predicate DistinctProducts(lines: seq<Line>)
  {
    forall i, j :: 0 <= i < j < |lines| ==> lines[i].productId != lines[j].productId
  }

  /** A product no line names is requested zero times. */
  lemma {:induction false} RequestedAbsent(lines: seq<Line>, pid: nat)
    requires forall i :: 0 <= i < |lines| ==> lines[i].productId != pid
    ensures Requested(lines, pid) == 0
    decreases |lines|
  {
    if lines != [] {
      RequestedAbsent(lines[..|lines| - 1], pid);
    }
  }

  /**
    The correction only matters for repeated products: when every line names a
    different product, the cumulative check and the check as written agree.
  */
  lemma {:induction false} ValidateAgreesWithoutRepeats(P: seq<Product>, lines: seq<Line>)
    requires DistinctProducts(lines)
    ensures Validate(P, lines) == ValidateAsWritten(P, lines)
    decreases |lines|
  {
    if lines != [] {
      var n := |lines| - 1;
      var prefix := lines[..n];
      assert DistinctProducts(prefix) by {
        forall i, j | 0 <= i < j < |prefix| ensures prefix[i].productId != prefix[j].productId {
          assert prefix[i] == lines[i] && prefix[j] == lines[j];
        }
      }
      ValidateAgreesWithoutRepeats(P, prefix);
      assert forall i :: 0 <= i < |prefix| ==> prefix[i].productId != lines[n].productId by {
        forall i | 0 <= i < |prefix| ensures prefix[i].productId != lines[n].productId {
          assert prefix[i] == lines[i];
        }
      }
      RequestedAbsent(prefix, lines[n].productId);
      assert Requested(lines, lines[n].productId) == lines[n].quantity;
    }
  }

  /** A validated order's last line passed its check, and so did the lines before it. */
  lemma ValidateLast(P: seq<Product>, lines: seq<Line>)
    requires lines != [] && Validate(P, lines).Success?
    ensures Validate(P, lines[..|lines| - 1]).Success?
    ensures CheckLine(P, lines[|lines| - 1], Requested(lines, lines[|lines| - 1].productId)).Success?
  {
  }

  /** Validating one more line: its check decides, against everything the lines so far request of its product. */
  lemma ValidateStep(P: seq<Product>, lines: seq<Line>, k: nat, items: seq<OrderItem>)
    requires k < |lines| && Validate(P, lines[..k]) == Success(items)
    ensures var check := CheckLine(P, lines[k], Requested(lines[..k + 1], lines[k].productId));
      Validate(P, lines[..k + 1]) == if check.Failure? then Failure(check.error) else Success(items + [check.value])
  {
    assert lines[..k + 1][..k] == lines[..k];
  }

  /** Once a prefix of the lines is refused, the whole order is refused with the same error. */
  lemma {:induction false} ValidateFailurePropagates(P: seq<Product>, lines: seq<Line>, k: nat)
    requires k <= |lines| && Validate(P, lines[..k]).Failure?
    ensures Validate(P, lines) == Validate(P, lines[..k])
    decreases |lines| - k
  {
    if k < |lines| {
      assert lines[..k + 1][..k] == lines[..k];
      ValidateFailurePropagates(P, lines, k + 1);
    } else {
      assert lines[..k] == lines;
    }
  }

  /** Item k of a validated order is line k's check against what lines 0..k request of its product. */
  lemma {:induction false} ValidateAt(P: seq<Product>, lines: seq<Line>, k: nat)
    requires Validate(P, lines).Success? && k < |lines|
    ensures CheckLine(P, lines[k], Requested(lines[..k + 1], lines[k].productId)) == Success(Validate(P, lines).value[k])
    decreases |lines|
  {
    var n := |lines| - 1;
    if k == n {
      assert lines[..k + 1] == lines;
    } else {
      ValidateAt(P, lines[..n], k);
      assert lines[..n][k] == lines[k];
      assert lines[..n][..k + 1] == lines[..k + 1];
    }
  }

  /** The lines an item list stands for. */
  function ItemLines(items: seq<OrderItem>): (r: seq<Line>)
    ensures |r| == |items|
    ensures forall k :: 0 <= k < |items| ==> r[k] == Line(items[k].productId, items[k].quantity)
  {
    if items == [] then [] else ItemLines(items[..|items| - 1]) + [Line(items[|items| - 1].productId, items[|items| - 1].quantity)]
  }

  /** The sum of the items' totals. */
  function OrderTotal(items: seq<OrderItem>): int
  {
    if items == [] then 0 else OrderTotal(items[..|items| - 1]) + items[|items| - 1].totalPrice
  }

  /**
    A validated order: one item per line, in order, for the line's product and
    quantity, at the product's current price, every product active and its
    stock covering everything the order asks of it.
  */
  lemma ValidateItems(P: seq<Product>, lines: seq<Line>)
    requires ProductIdsArePositions(P)
    requires Validate(P, lines).Success?
    ensures var items := Validate(P, lines).value;
      && ItemLines(items) == lines
      && forall k :: 0 <= k < |lines| ==>
           && 1 <= lines[k].productId <= |P|
           && P[lines[k].productId - 1].status == "active"
           && P[lines[k].productId - 1].stock >= Requested(lines, lines[k].productId)
           && items[k].unitPrice == P[lines[k].productId - 1].price
           && items[k].totalPrice == items[k].unitPrice * items[k].quantity
  {
    var items := Validate(P, lines).value;
    forall k | 0 <= k < |lines|
      ensures ItemLines(items)[k] == lines[k]
      ensures 1 <= lines[k].productId <= |P|
      ensures P[lines[k].productId - 1].status == "active"
      ensures P[lines[k].productId - 1].stock >= Requested(lines, lines[k].productId)
      ensures items[k].unitPrice == P[lines[k].productId - 1].price
      ensures items[k].totalPrice == items[k].unitPrice * items[k].quantity
    {
      ValidateAt(P, lines, k);
      RequestedPrefixBound(P, lines, k);
    }
  }

  /** A validated order's items stand for exactly its lines. */
  lemma ValidateLines(P: seq<Product>, lines: seq<Line>)
    requires ProductIdsArePositions(P)
    requires Validate(P, lines).Success?
    ensures ItemLines(Validate(P, lines).value) == lines
  {
    var items := Validate(P, lines).value;
    forall k | 0 <= k < |lines|
      ensures ItemLines(items)[k] == lines[k]
    {
      ValidateAt(P, lines, k);
    }
  }

  /** A validated line's product covers everything requested of it by the whole order. */
  lemma {:induction false} RequestedPrefixBound(P: seq<Product>, lines: seq<Line>, k: nat)
    requires k < |lines| && Validate(P, lines).Success?
    ensures 1 <= lines[k].productId <= |P|
    ensures P[lines[k].productId - 1].stock >= Requested(lines, lines[k].productId)
    decreases |lines|
  {
    var n := |lines| - 1;
    var pid := lines[k].productId;
    var last := lines[n];
    assert Validate(P, lines[..n]).Success?;
    assert CheckLine(P, last, Requested(lines, last.productId)).Success?;
    if k < n {
      RequestedPrefixBound(P, lines[..n], k);
      assert lines[..n][k] == lines[k];
      if last.productId != pid {
        assert Requested(lines, pid) == Requested(lines[..n], pid);
      }
    }
  }

  /** A refused order names the product of one of its lines. */
  lemma {:induction false} ValidateFailure(P: seq<Product>, lines: seq<Line>)
    requires Validate(P, lines).Failure?
    ensures AboutProduct(Validate(P, lines).error)
    ensures exists k :: 0 <= k < |lines| && Validate(P, lines).error.productId == lines[k].productId
    decreases |lines|
  {
    var n := |lines| - 1;
    if Validate(P, lines[..n]).Failure? {
      ValidateFailure(P, lines[..n]);
      var k :| 0 <= k < n && Validate(P, lines[..n]).error.productId == lines[..n][k].productId;
      assert lines[..n][k] == lines[k];
    } else {
      assert Validate(P, lines).error.productId == lines[n].productId;
    }
  }

  /** The stock movements of an order's items, one `ReduceStock` after another. */
  function ApplyReduce(P: seq<Product>, lines: seq<Line>): (r: seq<Product>)
    ensures |r| == |P|
    ensures NonNegativeStock(P) ==> NonNegativeStock(r)
  {
    if lines == [] then P
    else ReduceOne(ApplyReduce(P, lines[..|lines| - 1]), lines[|lines| - 1].productId, lines[|lines| - 1].quantity)
  }

  /** The compensation, one `IncreaseStock` per item. */
  function IncreaseAll(P: seq<Product>, lines: seq<Line>): (r: seq<Product>)
    ensures |r| == |P|
  {
    if lines == [] then P
    else IncreaseOne(IncreaseAll(P, lines[..|lines| - 1]), lines[|lines| - 1].productId, lines[|lines| - 1].quantity)
  }

  /** One more item is one more line. */
  lemma ItemLinesStep(items: seq<OrderItem>, k: nat)
    requires k < |items|
    ensures ItemLines(items[..k + 1]) == ItemLines(items[..k]) + [Line(items[k].productId, items[k].quantity)]
  {
    assert items[..k + 1][..k] == items[..k];
  }

  /** One more line is one more `ReduceStock`. */
  lemma ApplyReduceSnoc(P: seq<Product>, lines: seq<Line>, x: Line)
    ensures ApplyReduce(P, lines + [x]) == ReduceOne(ApplyReduce(P, lines), x.productId, x.quantity)
  {
    assert (lines + [x])[..|lines|] == lines;
  }

  /** One more line is one more `IncreaseStock`. */
  lemma IncreaseAllSnoc(P: seq<Product>, lines: seq<Line>, x: Line)
    ensures IncreaseAll(P, lines + [x]) == IncreaseOne(IncreaseAll(P, lines), x.productId, x.quantity)
  {
    assert (lines + [x])[..|lines|] == lines;
  }

  /** Storing item `k` with the next id after the rows so far extends the stamped rows by one. */
  lemma {:induction false} StampedAppend(I: seq<OrderItem>, items: seq<OrderItem>, k: nat, oid: nat, before: seq<OrderItem>, created: OrderItem)
    requires k < |items| && before == I + Stamped(items[..k], oid, |I| + 1)
    requires created == items[k].(orderId := oid).(id := |before| + 1)
    ensures before + [created] == I + Stamped(items[..k + 1], oid, |I| + 1)
  {
    StampedStep(items, k, oid, |I| + 1);
    var stamped := Stamped(items[..k], oid, |I| + 1);
    assert created == items[k].(id := |I| + 1 + k, orderId := oid);
    assert I + stamped + [created] == I + (stamped + [created]);
  }

  /** One more item is one more stored item, with the next id. */
  lemma StampedStep(items: seq<OrderItem>, k: nat, oid: nat, firstId: nat)
    requires k < |items|
    ensures Stamped(items[..k + 1], oid, firstId) == Stamped(items[..k], oid, firstId) + [items[k].(id := firstId + k, orderId := oid)]
  {
    assert items[..k + 1][..k] == items[..k];
  }

  /** Every product's stock moved by `sign` times what the lines request of it. */
  function Shifted(P: seq<Product>, lines: seq<Line>, sign: int): (r: seq<Product>)
    ensures |r| == |P|
  {
    seq(|P|, j requires 0 <= j < |P| => P[j].(stock := P[j].stock + sign * Requested(lines, j + 1)))
  }

  /** One more line moves only its own product, by `sign` times its quantity. */
  lemma {:induction false} ShiftedStep(P: seq<Product>, lines: seq<Line>, sign: int)
    requires lines != []
    ensures var x := lines[|lines| - 1];
      var before := Shifted(P, lines[..|lines| - 1], sign);
      Shifted(P, lines, sign) ==
        if 1 <= x.productId <= |P| then before[x.productId - 1 := before[x.productId - 1].(stock := before[x.productId - 1].stock + sign * x.quantity)]
        else before
  {
    var n := |lines| - 1;
    var x := lines[n];
    var before := Shifted(P, lines[..n], sign);
    forall j | 0 <= j < |P|
      ensures Shifted(P, lines, sign)[j] == (if j + 1 == x.productId then before[j].(stock := before[j].stock + sign * x.quantity) else before[j])
    {
      var extra := if x.productId == j + 1 then x.quantity else 0;
      assert Requested(lines, j + 1) == Requested(lines[..n], j + 1) + extra;
      assert sign * Requested(lines, j + 1) == sign * Requested(lines[..n], j + 1) + sign * extra;
    }
  }

  /** Increasing is unconditional: every product gains exactly what the lines request of it. */
  lemma {:induction false} IncreaseAllShifts(P: seq<Product>, lines: seq<Line>)
    ensures IncreaseAll(P, lines) == Shifted(P, lines, 1)
    decreases |lines|
  {
    if lines != [] {
      IncreaseAllShifts(P, lines[..|lines| - 1]);
      ShiftedStep(P, lines, 1);
    }
  }

  /** After a validated order every `ReduceStock` applies: each product loses exactly what the order requests of it. */
  lemma {:induction false} ValidatedReduceApplies(P: seq<Product>, lines: seq<Line>)
    requires Validate(P, lines).Success?
    ensures ApplyReduce(P, lines) == Shifted(P, lines, -1)
    decreases |lines|
  {
    if lines != [] {
      ValidateLast(P, lines);
      ValidatedReduceApplies(P, lines[..|lines| - 1]);
      ReduceStepShifts(P, lines);
    }
  }

  /** A reduction whose product covers everything requested of it so far keeps the stock shifted. */
  lemma {:induction false} ReduceStepShifts(P: seq<Product>, lines: seq<Line>)
    requires lines != []
    requires ApplyReduce(P, lines[..|lines| - 1]) == Shifted(P, lines[..|lines| - 1], -1)
    requires var pid := lines[|lines| - 1].productId; 1 <= pid <= |P| && P[pid - 1].stock >= Requested(lines, pid)
    ensures ApplyReduce(P, lines) == Shifted(P, lines, -1)
  {
    var n := |lines| - 1;
    var pid := lines[n].productId;
    ShiftedStep(P, lines, -1);
    assert Requested(lines, pid) == Requested(lines[..n], pid) + lines[n].quantity;
  }

  /** With the corrected validation, a failed payment's compensation restores every product exactly. */
  lemma CompensationRestoresStock(P: seq<Product>, lines: seq<Line>)
    requires Validate(P, lines).Success?
    ensures IncreaseAll(ApplyReduce(P, lines), lines) == P
  {
    ValidatedReduceApplies(P, lines);
    IncreaseAllShifts(Shifted(P, lines, -1), lines);
    var back := Shifted(Shifted(P, lines, -1), lines, 1);
    forall j | 0 <= j < |P|
      ensures back[j] == P[j]
    {
    }
  }

  /**
    As written: two lines of 3 for a product with 5 in stock both pass the
    check, the second `ReduceStock` silently does nothing, and a failed
    payment's compensation then adds 6, leaving 8 in stock.
  */
  lemma DuplicateLinesInflateStock()
    ensures var P := [Product(1, "pen", "", 100, 5, "", "office", "active")];
      var lines := [Line(1, 3), Line(1, 3)];
      && ValidateAsWritten(P, lines).Success?
      && ApplyReduce(P, lines)[0].stock == 2
      && IncreaseAll(ApplyReduce(P, lines), lines)[0].stock == 8
      && Validate(P, lines) == Failure(StockInsufficient(1))
  {
    var P := [Product(1, "pen", "", 100, 5, "", "office", "active")];
    var lines := [Line(1, 3), Line(1, 3)];
    assert lines[..1] == [Line(1, 3)];
    assert [Line(1, 3)][..0] == [];
    assert Requested(lines[..1], 1) == 3;
    assert Requested(lines, 1) == 6;
    var once := ApplyReduce(P, lines[..1]);
    assert once == ReduceOne(P, 1, 3);
    assert once[0].stock == 2;
    var twice := ApplyReduce(P, lines);
    assert twice == ReduceOne(once, 1, 3) == once;
    var up1 := IncreaseAll(twice, [Line(1, 3)]);
    assert [Line(1, 3)][..0] == [];
    assert up1 == IncreaseOne(IncreaseAll(twice, []), 1, 3);
    assert up1[0].stock == 5;
    assert IncreaseAll(twice, lines) == IncreaseOne(up1, 1, 3);
  }

  // ---------------------------------------------------------------------------
  // Orders
  // ---------------------------------------------------------------------------

  predicate OrderIdsArePositions(O: seq<Order>)
  {
    forall i :: 0 <= i < |O| ==> O[i].id == i + 1
  }

  predicate ItemIdsArePositions(I: seq<OrderItem>)
  {
    forall i :: 0 <= i < |I| ==> I[i].id == i + 1
  }

  /** `UPDATE orders SET status = s WHERE id = oid`. */
  function SetOrderStatus(O: seq<Order>, oid: nat, s: string): (r: seq<Order>)
    ensures |r| == |O|
    ensures forall j :: 0 <= j < |O| && j != oid - 1 ==> r[j] == O[j]
    ensures 1 <= oid <= |O| ==> r[oid - 1] == O[oid - 1].(status := s)
  {
    if 1 <= oid <= |O| then O[oid - 1 := O[oid - 1].(status := s)] else O
  }

  /** Setting the status of the order just created changes only that last row. */
  lemma SetLastOrderStatus(O: seq<Order>, o: Order, s: string)
    ensures SetOrderStatus(O + [o], |O| + 1, s) == O + [o.(status := s)]
  {
  }

  /** The user's orders, newest first. */
  function OrdersOf(O: seq<Order>, user: nat): (r: seq<Order>)
    ensures forall k :: 0 <= k < |r| ==> r[k].userId == user && r[k] in O
    ensures forall o :: o in O && o.userId == user ==> o in r
    ensures OrderIdsArePositions(O) ==> forall a, b :: 0 <= a < b < |r| ==> r[a].id > r[b].id
    ensures OrderIdsArePositions(O) && |O| > 0 ==> forall k :: 0 <= k < |r| ==> r[k].id <= |O|
  {
    if O == [] then []
    else
      var rest := OrdersOf(O[..|O| - 1], user);
      if O[|O| - 1].userId == user then [O[|O| - 1]] + rest else rest
  }

  /** The order's items, in insertion order. */
  function ItemsOf(I: seq<OrderItem>, oid: nat): (r: seq<OrderItem>)
    ensures forall k :: 0 <= k < |r| ==> r[k].orderId == oid && r[k] in I
    ensures forall it :: it in I && it.orderId == oid ==> it in r
    ensures ItemIdsArePositions(I) ==> forall a, b :: 0 <= a < b < |r| ==> r[a].id < r[b].id
    ensures ItemIdsArePositions(I) && |I| > 0 ==> forall k :: 0 <= k < |r| ==> r[k].id <= |I|
  {
    if I == [] then []
    else
      var n := |I| - 1;
      var rest := ItemsOf(I[..n], oid);
      assert ItemIdsArePositions(I) ==> ItemIdsArePositions(I[..n]) && I[n].id == n + 1;
      if I[n].orderId == oid then rest + [I[n]] else rest
  }

  lemma ItemsOfAppend(I: seq<OrderItem>, it: OrderItem, oid: nat)
    ensures ItemsOf(I + [it], oid) == ItemsOf(I, oid) + (if it.orderId == oid then [it] else [])
  {
    assert (I + [it])[..|I|] == I;
  }

  /** The items as stored for order `oid`: consecutive ids from `firstId`, each pointing at the order. */
  function Stamped(items: seq<OrderItem>, oid: nat, firstId: nat): (r: seq<OrderItem>)
    ensures |r| == |items|
    ensures forall k :: 0 <= k < |items| ==> r[k] == items[k].(id := firstId + k, orderId := oid)
  {
    if items == [] then []
    else Stamped(items[..|items| - 1], oid, firstId) + [items[|items| - 1].(id := firstId + |items| - 1, orderId := oid)]
  }

  /** An order may be cancelled only while pending or paid. */
  predicate Cancellable(status: string)
  {
    status == "pending" || status == "paid"
  }

  // ---------------------------------------------------------------------------
  // Carts
  // ---------------------------------------------------------------------------

  /** Cart ids are positive, below the next id to assign, and increase along the table. */
  predicate CartIdsOrdered(C: seq<Cart>, nextId: nat)
  {
    && nextId >= 1
    && (forall i :: 0 <= i < |C| ==> 1 <= C[i].id < nextId)
    && (forall i, j :: 0 <= i < j < |C| ==> C[i].id < C[j].id)
  }

  /** At most one row per (user, product). */
  predicate UniquePairs(C: seq<Cart>)
  {
    forall i, j :: 0 <= i < j < |C| ==> (C[i].userId, C[i].productId) != (C[j].userId, C[j].productId)
  }

  /** The first row of the pair, as `First` finds it. */
  function FindCart(C: seq<Cart>, user: nat, product: nat): (r: Option<nat>)
    ensures r.Some? ==> r.value < |C| && C[r.value].userId == user && C[r.value].productId == product
    ensures r.None? ==> forall i :: 0 <= i < |C| ==> !(C[i].userId == user && C[i].productId == product)
  {
    if C == [] then None
    else
      var r := FindCart(C[..|C| - 1], user, product);
      if r.Some? then r
      else if C[|C| - 1].userId == user && C[|C| - 1].productId == product then Some(|C| - 1)
      else None
  }

  /** How many units of `product` the user's cart holds over all its rows. */
  function PairQuantity(C: seq<Cart>, user: nat, product: nat): int
  {
    if C == [] then 0
    else PairQuantity(C[..|C| - 1], user, product)
         + (if C[|C| - 1].userId == user && C[|C| - 1].productId == product then C[|C| - 1].quantity else 0)
  }

  /**
    The quantity an inserted cart row gets: the column is declared with
    `gorm:"default:1"`, and `Create` leaves a zero-valued field with a default
    out of the INSERT, so the database stores 1 in place of 0.
  */
  function InsertedQuantity(q: int): (r: int)
    ensures r != 0
    ensures q != 0 ==> r == q
    ensures q == 0 ==> r == 1
  {
    if q == 0 then 1 else q
  }

  /**
    `AddToCart`: raise the existing row's quantity by the requested amount, or
    insert a row with the next id and the inserted quantity.
  */
  function MergeAdd(C: seq<Cart>, nextId: nat, c: Cart): (seq<Cart>, nat)
  {
    match FindCart(C, c.userId, c.productId)
    case Some(i) => (C[i := C[i].(quantity := C[i].quantity + c.quantity)], nextId)
    case None => (C + [Cart(nextId, c.userId, c.productId, InsertedQuantity(c.quantity))], nextId + 1)
  }

  lemma {:induction false} PairQuantityUpdate(C: seq<Cart>, i: nat, row: Cart, user: nat, product: nat)
    requires i < |C| && row.userId == C[i].userId && row.productId == C[i].productId
    ensures PairQuantity(C[i := row], user, product) ==
      PairQuantity(C, user, product) + (if row.userId == user && row.productId == product then row.quantity - C[i].quantity else 0)
    decreases |C|
  {
    var u := C[i := row];
    if i < |C| - 1 {
      assert u[..|u| - 1] == C[..|C| - 1][i := row];
      PairQuantityUpdate(C[..|C| - 1], i, row, user, product);
    } else {
      assert u[..|u| - 1] == C[..|C| - 1];
    }
  }

  /** A pair with no row holds no units. */
  lemma {:induction false} PairQuantityOfMissingPair(C: seq<Cart>, user: nat, product: nat)
    requires FindCart(C, user, product).None?
    ensures PairQuantity(C, user, product) == 0
    decreases |C|
  {
    if C != [] {
      assert FindCart(C[..|C| - 1], user, product).None?;
      PairQuantityOfMissingPair(C[..|C| - 1], user, product);
    }
  }

  lemma PairQuantityAppend(C: seq<Cart>, row: Cart, user: nat, product: nat)
    ensures PairQuantity(C + [row], user, product) ==
      PairQuantity(C, user, product) + (if row.userId == user && row.productId == product then row.quantity else 0)
  {
    assert (C + [row])[..|C|] == C;
  }

  /**
    Adding to the cart raises the pair's quantity by the added amount when the
    pair has a row, starts it at the inserted quantity (1 for a zero request)
    when it has none, and changes no other pair's.
  */
  lemma MergeAddQuantities(C: seq<Cart>, nextId: nat, c: Cart)
    ensures var r := MergeAdd(C, nextId, c).0;
      && (FindCart(C, c.userId, c.productId).Some? ==>
            PairQuantity(r, c.userId, c.productId) == PairQuantity(C, c.userId, c.productId) + c.quantity)
      && (FindCart(C, c.userId, c.productId).None? ==>
            && PairQuantity(C, c.userId, c.productId) == 0
            && PairQuantity(r, c.userId, c.productId) == InsertedQuantity(c.quantity))
      && (forall u: nat, p: nat :: (u, p) != (c.userId, c.productId) ==> PairQuantity(r, u, p) == PairQuantity(C, u, p))
  {
    var r := MergeAdd(C, nextId, c).0;
    match FindCart(C, c.userId, c.productId)
    case Some(i) =>
      var row := C[i].(quantity := C[i].quantity + c.quantity);
      PairQuantityUpdate(C, i, row, c.userId, c.productId);
      forall u: nat, p: nat | (u, p) != (c.userId, c.productId)
        ensures PairQuantity(r, u, p) == PairQuantity(C, u, p)
      {
        PairQuantityUpdate(C, i, row, u, p);
      }
    case None =>
      var row := Cart(nextId, c.userId, c.productId, InsertedQuantity(c.quantity));
      PairQuantityOfMissingPair(C, c.userId, c.productId);
      PairQuantityAppend(C, row, c.userId, c.productId);
      forall u: nat, p: nat | (u, p) != (c.userId, c.productId)
        ensures PairQuantity(r, u, p) == PairQuantity(C, u, p)
      {
        PairQuantityAppend(C, row, u, p);
      }
  }

  /**
    Adding to the cart keeps one row per pair and the id order, and adds a row
    only when the pair had none.
  */
  lemma MergeAddShape(C: seq<Cart>, nextId: nat, c: Cart)
    requires CartIdsOrdered(C, nextId)
    ensures var (r, n) := MergeAdd(C, nextId, c);
      && CartIdsOrdered(r, n)
      && (UniquePairs(C) ==> UniquePairs(r))
      && (FindCart(C, c.userId, c.productId).Some? ==> |r| == |C| && n == nextId)
      && (FindCart(C, c.userId, c.productId).None? ==>
            |r| == |C| + 1 && r[|C|] == Cart(nextId, c.userId, c.productId, InsertedQuantity(c.quantity)))
  {
  }

  /** `UPDATE carts SET quantity = q WHERE user_id = user AND product_id = product`. */
  function SetQuantity(C: seq<Cart>, user: nat, product: nat, q: int): (r: seq<Cart>)
    ensures |r| == |C|
    ensures forall i :: 0 <= i < |C| ==>
      r[i] == if C[i].userId == user && C[i].productId == product then C[i].(quantity := q) else C[i]
  {
    if C == [] then []
    else
      var last := C[|C| - 1];
      SetQuantity(C[..|C| - 1], user, product, q)
        + [if last.userId == user && last.productId == product then last.(quantity := q) else last]
  }

  /** The rows that satisfy `keep`, in order. */
  function Keep(C: seq<Cart>, keep: Cart -> bool): (r: seq<Cart>)
    ensures |r| <= |C|
    ensures forall x :: x in r <==> x in C && keep(x)
  {
    if C == [] then []
    else
      var rest := Keep(C[..|C| - 1], keep);
      if keep(C[|C| - 1]) then rest + [C[|C| - 1]] else rest
  }

  /** Keeping a subsequence keeps the id order and one row per pair. */
  lemma {:induction false} KeepPreservesShape(C: seq<Cart>, nextId: nat, keep: Cart -> bool)
    requires CartIdsOrdered(C, nextId)
    ensures CartIdsOrdered(Keep(C, keep), nextId)
    ensures UniquePairs(C) ==> UniquePairs(Keep(C, keep))
    decreases |C|
  {
    if C != [] {
      var n := |C| - 1;
      var rest := Keep(C[..n], keep);
      KeepPreservesShape(C[..n], nextId, keep);
      if keep(C[n]) {
        forall x | x in rest
          ensures x.id < C[n].id
          ensures UniquePairs(C) ==> (x.userId, x.productId) != (C[n].userId, C[n].productId)
        {
          var a :| 0 <= a < n && C[..n][a] == x;
        }
        if UniquePairs(C) {
          assert UniquePairs(C[..n]);
        }
        KeptRowAppended(rest, C[n], nextId);
      }
    }
  }

  /** A row with a larger id than every kept row extends the kept rows' shape. */
  lemma KeptRowAppended(rest: seq<Cart>, c: Cart, nextId: nat)
    requires CartIdsOrdered(rest, nextId) && 1 <= c.id < nextId
    requires forall x :: x in rest ==> x.id < c.id
    ensures CartIdsOrdered(rest + [c], nextId)
    ensures (UniquePairs(rest) && forall x :: x in rest ==> (x.userId, x.productId) != (c.userId, c.productId))
              ==> UniquePairs(rest + [c])
  {
    var r := rest + [c];
    forall i, j | 0 <= i < j < |r|
      ensures r[i].id < r[j].id
    {
      if j == |rest| {
        assert r[i] in rest;
      }
    }
  }

  /** The user's cart rows, in table order. */
  function CartOf(C: seq<Cart>, user: nat): (r: seq<Cart>)
    ensures forall x :: x in r <==> x in C && x.userId == user
  {
    Keep(C, (x: Cart) => x.userId == user)
  }

  /** `DELETE FROM carts WHERE user_id = user AND product_id = product`. */
  function WithoutPair(C: seq<Cart>, user: nat, product: nat): (r: seq<Cart>)
    ensures forall x :: x in r <==> x in C && !(x.userId == user && x.productId == product)
  {
    Keep(C, (x: Cart) => !(x.userId == user && x.productId == product))
  }

  /** `DELETE FROM carts WHERE user_id = user`. */
  function WithoutUser(C: seq<Cart>, user: nat): (r: seq<Cart>)
    ensures forall x :: x in r <==> x in C && x.userId != user
  {
    Keep(C, (x: Cart) => x.userId != user)
  }

  /** The order lines a cart stands for. */
  function CartLines(C: seq<Cart>): (r: seq<Line>)
    ensures |r| == |C|
    ensures forall k :: 0 <= k < |C| ==> r[k] == Line(C[k].productId, C[k].quantity)
  {
    if C == [] then [] else CartLines(C[..|C| - 1]) + [Line(C[|C| - 1].productId, C[|C| - 1].quantity)]
  }
}

=== FILE: shop_repository.dfy ===
/**
  The shop service's store (shop-service/repository/product.go): products,
  orders with their items, and carts. Each call is one atomic statement on a
  table; a `WHERE` clause that matches no row changes nothing and is not an
  error.
*/
module ShopRepository {
  import opened Wrappers
  import opened ShopModels

  class ProductRepository {
    var products: seq<Product>

    ghost predicate Valid()
      reads this
    {
      ProductIdsArePositions(products)
    }

    constructor ()
      ensures Valid() && products == []
    {
      products := [];
    }

    /** `CreateProduct` (lines 95-97): inserts the row with the next id. */
    method CreateProduct(p: Product) returns (created: Product)
      requires Valid()
      modifies this
      ensures Valid()
      ensures created == p.(id := |old(products)| + 1) && products == old(products) + [created]
    {
      created := p.(id := |products| + 1);
      products := products + [created];
    }

    /** `GetProductByID` (lines 99-106): the row with that id, whatever its status. */
    method GetProductByID(id: nat) returns (r: Result<Product, ShopError>)
      requires Valid()
      ensures r.Success? <==> 1 <= id <= |products|
      ensures r.Success? ==> r.value == products[id - 1] && r.value.id == id
      ensures r.Failure? ==> r.error == RecordNotFound
    {
      if 1 <= id <= |products| {
        r := Success(products[id - 1]);
      } else {
        r := Failure(RecordNotFound);
      }
    }

    /**
      `GetProducts` (lines 108-126): the count of every active product of the
      category (any category when it is empty), and the requested page of
      them, newest first.
    */
    method GetProducts(offset: int, limit: int, category: string) returns (page: seq<Product>, total: nat)
      requires Valid()
      ensures total == |Listed(products, category)|
      ensures page == Page(Listed(products, category), offset, limit)
      ensures forall k :: 0 <= k < |page| ==> page[k].status == "active" && page[k] in products
      ensures category != "" ==> forall k :: 0 <= k < |page| ==> page[k].category == category
      ensures forall a, b :: 0 <= a < b < |page| ==> page[a].id > page[b].id
      ensures limit >= 0 ==> |page| <= limit
    {
      var listed := Listed(products, category);
      total := |listed|;
      page := Page(listed, offset, limit);
      assert forall k :: 0 <= k < |page| ==> page[k] in listed;
    }

    /**
      `UpdateProduct` (lines 128-130), corrected to store every field of `src`
      (see `GormUpdates` for the statement as written); the id is kept.
    */
    method UpdateProduct(id: nat, src: Product)
      requires Valid()
      modifies this
      ensures Valid()
      ensures products == Overwrite(old(products), id, src)
    {
      if 1 <= id <= |products| {
        products := products[id - 1 := src.(id := products[id - 1].id)];
      }
    }

    /** `DeleteProduct` (lines 132-134): a soft delete, the row stays with status "offline". */
    method DeleteProduct(id: nat)
      requires Valid()
      modifies this
      ensures Valid()
      ensures products == Offline(old(products), id)
    {
      if 1 <= id <= |products| {
        products := products[id - 1 := products[id - 1].(status := "offline")];
      }
    }

    /** `ReduceStock` (lines 136-140): subtracts only when the stock covers the quantity, and never fails. */
    method ReduceStock(id: nat, quantity: int)
      requires Valid()
      modifies this
      ensures Valid()
      ensures products == ReduceOne(old(products), id, quantity)
    {
      if 1 <= id <= |products| && products[id - 1].stock >= quantity {
        products := products[id - 1 := products[id - 1].(stock := products[id - 1].stock - quantity)];
      }
    }

    /** `IncreaseStock` (lines 142-146): adds unconditionally. */
    method IncreaseStock(id: nat, quantity: int)
      requires Valid()
      modifies this
      ensures Valid()
      ensures products == IncreaseOne(old(products), id, quantity)
    {
      if 1 <= id <= |products| {
        products := products[id - 1 := products[id - 1].(stock := products[id - 1].stock + quantity)];
      }
    }
  }

  class OrderRepository {
    var orders: seq<Order>
    var items: seq<OrderItem>

    ghost predicate Valid()
      reads this
    {
      OrderIdsArePositions(orders) && ItemIdsArePositions(items)
    }

    constructor ()
      ensures Valid() && orders == [] && items == []
    {
      orders := [];
      items := [];
    }

    /** `CreateOrder` (lines 150-152): inserts the order with the next id. */
    method CreateOrder(o: Order) returns (created: Order)
      requires Valid()
      modifies this
      ensures Valid() && items == old(items)
      ensures created == o.(id := |old(orders)| + 1) && orders == old(orders) + [created]
    {
      created := o.(id := |orders| + 1);
      orders := orders + [created];
    }

    /** `GetOrderByID` (lines 154-161). */
    method GetOrderByID(id: nat) returns (r: Result<Order, ShopError>)
      requires Valid()
      ensures r.Success? <==> 1 <= id <= |orders|
      ensures r.Success? ==> r.value == orders[id - 1] && r.value.id == id
      ensures r.Failure? ==> r.error == RecordNotFound
    {
      if 1 <= id <= |orders| {
        r := Success(orders[id - 1]);
      } else {
        r := Failure(RecordNotFound);
      }
    }

    /** `GetOrdersByUserID` (lines 163-167): the user's orders, newest first. */
    method GetOrdersByUserID(user: nat) returns (r: seq<Order>)
      requires Valid()
      ensures r == OrdersOf(orders, user)
    {
      r := OrdersOf(orders, user);
    }

    /** `UpdateOrderStatus` (lines 169-171): only that order's status changes. */
    method UpdateOrderStatus(id: nat, status: string)
      requires Valid()
      modifies this
      ensures Valid() && items == old(items)
      ensures orders == SetOrderStatus(old(orders), id, status)
    {
      if 1 <= id <= |orders| {
        orders := orders[id - 1 := orders[id - 1].(status := status)];
      }
    }

    /** `CreateOrderItem` (lines 173-175): inserts the item with the next id. */
    method CreateOrderItem(item: OrderItem) returns (created: OrderItem)
      requires Valid()
      modifies this
      ensures Valid() && orders == old(orders)
      ensures created == item.(id := |old(items)| + 1) && items == old(items) + [created]
    {
      created := item.(id := |items| + 1);
      items := items + [created];
    }

    /** `GetOrderItemsByOrderID` (lines 177-181): the order's items in insertion order. */
    method GetOrderItemsByOrderID(orderId: nat) returns (r: seq<OrderItem>)
      requires Valid()
      ensures r == ItemsOf(items, orderId)
      ensures forall k :: 0 <= k < |r| ==> r[k].orderId == orderId && r[k] in items
      ensures forall it :: it in items && it.orderId == orderId ==> it in r
      ensures forall a, b :: 0 <= a < b < |r| ==> r[a].id < r[b].id
    {
      r := ItemsOf(items, orderId);
    }
  }

  class CartRepository {
    var carts: seq<Cart>
    var nextId: nat

    ghost predicate Valid()
      reads this
    {
      CartIdsOrdered(carts, nextId) && UniquePairs(carts)
    }

    constructor ()
      ensures Valid() && carts == []
    {
      carts := [];
      nextId := 1;
    }

    /** `AddToCart` (lines 185-197): raise the quantity of the pair's row, or insert one, a zero quantity stored as the column default 1. */
    method AddToCart(c: Cart)
      requires Valid()
      modifies this
      ensures Valid()
      ensures (carts, nextId) == MergeAdd(old(carts), old(nextId), c)
    {
      MergeAddShape(carts, nextId, c);
      var found := FindCart(carts, c.userId, c.productId);
      if found.Some? {
        var i := found.value;
        carts := carts[i := carts[i].(quantity := carts[i].quantity + c.quantity)];
      } else {
        carts := carts + [Cart(nextId, c.userId, c.productId, InsertedQuantity(c.quantity))];
        nextId := nextId + 1;
      }
    }

    /** `GetCartByUserID` (lines 199-203): the user's rows in table order. */
    method GetCartByUserID(user: nat) returns (r: seq<Cart>)
      requires Valid()
      ensures r == CartOf(carts, user)
    {
      r := CartOf(carts, user);
    }

    /** `UpdateCartItem` (lines 205-209): sets the quantity of the pair's row only. */
    method UpdateCartItem(user: nat, product: nat, quantity: int)
      requires Valid()
      modifies this
      ensures Valid() && nextId == old(nextId)
      ensures carts == SetQuantity(old(carts), user, product, quantity)
    {
      carts := SetQuantity(carts, user, product, quantity);
    }

    /** `DeleteCartItem` (lines 211-213): removes the pair's row only. */
    method DeleteCartItem(user: nat, product: nat)
      requires Valid()
      modifies this
      ensures Valid() && nextId == old(nextId)
      ensures carts == WithoutPair(old(carts), user, product)
    {
      KeepPreservesShape(carts, nextId, (x: Cart) => !(x.userId == user && x.productId == product));
      carts := WithoutPair(carts, user, product);
    }

    /** `ClearCart` (lines 215-217): removes every row of the user and no other. */
    method ClearCart(user: nat)
      requires Valid()
      modifies this
      ensures Valid() && nextId == old(nextId)
      ensures carts == WithoutUser(old(carts), user)
    {
      KeepPreservesShape(carts, nextId, (x: Cart) => x.userId != user);
      carts := WithoutUser(carts, user);
    }

    /** `GetCartItem` (lines 219-226): the pair's row, if any. */
    method GetCartItem(user: nat, product: nat) returns (r: Result<Cart, ShopError>)
      requires Valid()
      ensures r.Success? <==> exists i :: 0 <= i < |carts| && carts[i].userId == user && carts[i].productId == product
      ensures r.Success? ==> r.value in carts && r.value.userId == user && r.value.productId == product
      ensures r.Failure? ==> r.error == RecordNotFound
    {
      var found := FindCart(carts, user, product);
      if found.None? {
        return Failure(RecordNotFound);
      }
      r := Success(carts[found.value]);
    }
  }
}

=== FILE: user_logic.dfy ===
/**
 * The user service: registration, login and the e-mail verification state
 * machine (a 6-digit code kept in Redis, a verified flag on the user row).
 *
 * bcrypt is a pair of parameters: `hasher` (GenerateFromPassword, `None` when
 * it fails) and `matches` (CompareHashAndPassword).  crypto/rand is the
 * parameter `random`, already drawn from [0, 999999).  Storage faults and mail
 * delivery failures are nondeterministic choices.
 */
module UserLogic {
  import opened Wrappers
  import opened Decimal

  type UserId = nat

  datatype User = User(id: UserId, username: string, email: string, password: string, isVerified: bool)

  datatype UserResponse = UserResponse(id: UserId, username: string, email: string, isVerified: bool)

  datatype UserError =
    | EmailExists          // "email already exists"
    | HashFailed           // "failed to hash password"
    | StorageFailure       // a failed database or Redis write
    | InvalidCredentials   // "invalid email or password"
    | CodeNotFound         // "verification code not found or expired"
    | InvalidCode          // "invalid verification code"
    | UserNotFound         // "user not found"
    | AlreadyVerified      // "email already verified"
    | SendFailed           // "failed to send verification email"

  /** Mails handed to the mail server. */
  datatype Mail = VerificationMail(to: string, code: string) | WelcomeMail(to: string, username: string)

  function Response(u: User): UserResponse
  {
    UserResponse(u.id, u.username, u.email, u.isVerified)
  }

  // ----- the users table -----

  /** Auto-increment ids: row i has id i + 1. */
  ghost predicate IdsArePositions(users: seq<User>)
  {
    forall i :: 0 <= i < |users| ==> users[i].id == i + 1
  }

  /** The unique indexes on email and username. */
  ghost predicate UniqueEmails(users: seq<User>)
  {
    forall i, j :: 0 <= i < j < |users| ==> users[i].email != users[j].email
  }

  ghost predicate UniqueUsernames(users: seq<User>)
  {
    forall i, j :: 0 <= i < j < |users| ==> users[i].username != users[j].username
  }

  predicate Taken(users: seq<User>, username: string)
  {
    exists i :: 0 <= i < |users| && users[i].username == username
  }

  /** `Where("email = ?").First`: the first row with that email. */
  function FindByEmail(users: seq<User>, email: string): (r: Option<nat>)
    ensures r.Some? ==> r.value < |users| && users[r.value].email == email
    ensures r.Some? ==> forall j :: 0 <= j < r.value ==> users[j].email != email
    ensures r.None? <==> forall j :: 0 <= j < |users| ==> users[j].email != email
  {
    if |users| == 0 then None
    else if users[0].email == email then Some(0)
    else match FindByEmail(users[1..], email) {
      case None => None
      case Some(i) => Some(i + 1)
    }
  }

  /** The row after `user.IsVerified = true; UpdateUser(user)`. */
  function MarkVerified(users: seq<User>, i: nat): (r: seq<User>)
    requires i < |users|
    ensures |r| == |users| && r[i].isVerified
    ensures forall j :: 0 <= j < |users| ==>
      r[j].id == users[j].id && r[j].username == users[j].username &&
      r[j].email == users[j].email && r[j].password == users[j].password
    ensures forall j :: 0 <= j < |users| && j != i ==> r[j] == users[j]
  {
    users[i := users[i].(isVerified := true)]
  }

  /** Any two rows equal but for the verified flag are found alike by email. */
  lemma FindByEmailIgnoresFlag(users: seq<User>, i: nat, email: string)
    requires i < |users|
    ensures FindByEmail(MarkVerified(users, i), email) == FindByEmail(users, email)
  {
  }

  // ----- the verification code -----

  /** `fmt.Sprintf("%06d", n)` for the number drawn by `rand.Int(rand.Reader, 999999)`. */
  function VerificationCode(n: nat): (code: string)
    requires n < 999999
    ensures |code| == 6 && IsDigits(code)
    ensures ParseDigits(code) == n
  {
    var s := NatToString(n);
    assert Pow10(6) == 1000000;
    NatToStringLength(n, 6);
    ParseNatToString(n);
    ParseLeadingZeros(6 - |s|, s);
    assert Zeros(0) + s == s;
    PadZeros(s, 6)
  }

  /** Different draws give different codes, so the code pins the draw down. */
  lemma VerificationCodeInjective(m: nat, n: nat)
    requires m < 999999 && n < 999999 && m != n
    ensures VerificationCode(m) != VerificationCode(n)
  {
  }

  // ----- login -----

  /**
   * The decision `Login` takes: the user with that email whose stored hash
   * matches the password, and otherwise one error that does not tell an
   * unknown email from a wrong password.
   */
  function Login(users: seq<User>, email: string, password: string, matches: (string, string) -> bool)
    : (r: Result<UserResponse, UserError>)
    ensures r.Failure? ==> r.error == InvalidCredentials
    ensures r.Success? ==>
              (exists i :: 0 <= i < |users| && users[i].email == email &&
                           matches(users[i].password, password) && r.value == Response(users[i]))
    ensures (UniqueEmails(users) &&
             exists i :: 0 <= i < |users| && users[i].email == email &&
                         matches(users[i].password, password))
            ==> r.Success?
  {
    match FindByEmail(users, email) {
      case None => Failure(InvalidCredentials)
      case Some(i) =>
        if matches(users[i].password, password) then Success(Response(users[i]))
        else Failure(InvalidCredentials)
    }
  }

  /** Whoever registered can log in with the same password, if bcrypt's compare accepts its own hash. */
  lemma LoginAfterRegister(users: seq<User>, u: User, password: string,
                           hasher: string -> Option<string>, matches: (string, string) -> bool)
    requires forall j :: 0 <= j < |users| ==> users[j].email != u.email
    requires hasher(password).Some? && u.password == hasher(password).value
    requires matches(hasher(password).value, password)
    ensures Login(users + [u], u.email, password, matches) == Success(Response(u))
  {
    assert (users + [u])[|users|].email == u.email;
  }

  /** Verifying an email does not change who can log in. */
  lemma VerificationKeepsLogin(users: seq<User>, i: nat, email: string, password: string,
                               matches: (string, string) -> bool)
    requires i < |users|
    ensures Login(MarkVerified(users, i), email, password, matches).Success?
        == Login(users, email, password, matches).Success?
  {
    FindByEmailIgnoresFlag(users, i, email);
  }

  // ----- the checks before a write -----

  /** What `VerifyEmail` checks before it writes: the row to mark verified, or the error. */
  function VerifyCheck(users: seq<User>, codes: map<string, string>, email: string, code: string)
    : (r: Result<nat, UserError>)
    ensures r.Success? <==> email in codes && codes[email] == code && FindByEmail(users, email).Some?
    ensures r.Success? ==> r.value < |users| && users[r.value].email == email
    ensures r.Failure? ==> r.error in {CodeNotFound, InvalidCode, UserNotFound}
  {
    if email !in codes then Failure(CodeNotFound)
    else if codes[email] != code then Failure(InvalidCode)
    else match FindByEmail(users, email) {
      case None => Failure(UserNotFound)
      case Some(i) => Success(i)
    }
  }

  /** What `ResendVerificationCode` checks before it mails: the unverified row, or the error. */
  function ResendCheck(users: seq<User>, email: string): (r: Result<nat, UserError>)
    ensures r.Success? ==> r.value < |users| && users[r.value].email == email && !users[r.value].isVerified
    ensures r.Failure? ==> r.error in {UserNotFound, AlreadyVerified}
    ensures r.Failure? <==> FindByEmail(users, email).None? || users[FindByEmail(users, email).value].isVerified
  {
    match FindByEmail(users, email) {
      case None => Failure(UserNotFound)
      case Some(i) => if users[i].isVerified then Failure(AlreadyVerified) else Success(i)
    }
  }

  /** The code stored by a resend verifies that user, and no other code does. */
  lemma ResendThenVerify(users: seq<User>, codes: map<string, string>, email: string, code: string, other: string)
    requires ResendCheck(users, email).Success?
    ensures VerifyCheck(users, codes[email := code], email, code) == Success(ResendCheck(users, email).value)
    ensures other != code ==> VerifyCheck(users, codes[email := code], email, other) == Failure(InvalidCode)
  {
  }

  /** Once verified, the user cannot get another code, and the deleted code no longer verifies. */
  lemma {:induction false} VerifyIsFinal(users: seq<User>, codes: map<string, string>, email: string, code: string)
    requires VerifyCheck(users, codes, email, code).Success?
    ensures ResendCheck(MarkVerified(users, VerifyCheck(users, codes, email, code).value), email)
         == Failure(AlreadyVerified)
    ensures VerifyCheck(MarkVerified(users, VerifyCheck(users, codes, email, code).value), codes - {email}, email, code)
         == Failure(CodeNotFound)
  {
    var i := VerifyCheck(users, codes, email, code).value;
    FindByEmailIgnoresFlag(users, i, email);
  }

  // ----- the service -----

  class UserLogic {
    /** The `users` table. */
    var users: seq<User>
    /** Redis: `verification:<email>` -> code. */
    var codes: map<string, string>
    /** Mails the mail server accepted, oldest first. */
    ghost var outbox: seq<Mail>

    ghost predicate Valid()
      reads this
    {
      IdsArePositions(users) && UniqueEmails(users) && UniqueUsernames(users)
    }

    constructor()
      ensures Valid() && users == [] && codes == map[] && outbox == []
    {
      users := [];
      codes := map[];
      outbox := [];
    }

    /** Lines 38-96. */
    method Register(username: string, email: string, password: string,
                    hasher: string -> Option<string>, random: nat)
      returns (r: Result<UserResponse, UserError>)
      requires Valid() && random < 999999
      modifies this
      ensures Valid()
      ensures r.Failure? ==> unchanged(this)
      ensures FindByEmail(old(users), email).Some? ==> r == Failure(EmailExists)
      ensures FindByEmail(old(users), email).None? && hasher(password).None? ==> r == Failure(HashFailed)
      ensures Taken(old(users), username) ==> r.Failure?
      ensures r.Success? ==>
        var u := User(|old(users)| + 1, username, email, hasher(password).value, false);
        FindByEmail(old(users), email).None? && hasher(password).Some? && !Taken(old(users), username) &&
        users == old(users) + [u] && r.value == Response(u) && !r.value.isVerified &&
        (codes == old(codes) || codes == old(codes)[email := VerificationCode(random)]) &&
        (outbox == old(outbox) || outbox == old(outbox) + [VerificationMail(email, VerificationCode(random))])
    {
      var existing := FindByEmail(users, email);
      if existing.Some? {
        return Failure(EmailExists);
      }
      var hashed := hasher(password);
      if hashed.None? {
        return Failure(HashFailed);
      }
      // CreateUser: the unique index on username, or any other database error.
      var fault: bool := *;
      if fault || Taken(users, username) {
        return Failure(StorageFailure);
      }
      var u := User(|users| + 1, username, email, hashed.value, false);
      users := users + [u];
      var code := VerificationCode(random);
      // A failed send or a failed Redis write is only logged.
      var sent: bool := *;
      if sent {
        outbox := outbox + [VerificationMail(email, code)];
      }
      var saved: bool := *;
      if saved {
        codes := codes[email := code];
      }
      r := Success(Response(u));
    }

    /** Lines 132-169. */
    method VerifyEmail(email: string, code: string) returns (r: Result<(), UserError>)
      requires Valid()
      modifies this
      ensures Valid()
      ensures r.Failure? ==> unchanged(this)
      ensures VerifyCheck(old(users), old(codes), email, code).Failure? ==>
        r == Failure(VerifyCheck(old(users), old(codes), email, code).error)
      ensures VerifyCheck(old(users), old(codes), email, code).Success? && r.Failure? ==>
        r.error == StorageFailure
      ensures r.Success? ==>
        var i := VerifyCheck(old(users), old(codes), email, code).value;
        VerifyCheck(old(users), old(codes), email, code).Success? &&
        users == MarkVerified(old(users), i) &&
        (codes == old(codes) - {email} || codes == old(codes)) &&
        (outbox == old(outbox) + [WelcomeMail(email, old(users)[i].username)] || outbox == old(outbox))
    {
      var check := VerifyCheck(users, codes, email, code);
      if check.Failure? {
        return Failure(check.error);
      }
      var i := check.value;
      // UpdateUser saves the whole row with the flag set.
      var fault: bool := *;
      if fault {
        return Failure(StorageFailure);
      }
      users := MarkVerified(users, i);
      // A failed Redis delete or a failed welcome mail is only logged.
      var deleted: bool := *;
      if deleted {
        codes := codes - {email};
      }
      var sent: bool := *;
      if sent {
        outbox := outbox + [WelcomeMail(email, users[i].username)];
      }
      r := Success(());
    }

    /** Lines 172-199. */
    method ResendVerificationCode(email: string, random: nat) returns (r: Result<(), UserError>)
      requires Valid() && random < 999999
      modifies this
      ensures Valid() && users == old(users)
      ensures r.Failure? ==> codes == old(codes)
      ensures ResendCheck(old(users), email).Failure? ==>
        r == Failure(ResendCheck(old(users), email).error) && unchanged(this)
      ensures ResendCheck(old(users), email).Success? && r.Failure? ==>
        (r.error == SendFailed && outbox == old(outbox)) ||
        (r.error == StorageFailure && outbox == old(outbox) + [VerificationMail(email, VerificationCode(random))])
      ensures r.Success? ==>
        ResendCheck(old(users), email).Success? &&
        codes == old(codes)[email := VerificationCode(random)] &&
        outbox == old(outbox) + [VerificationMail(email, VerificationCode(random))]
    {
      var check := ResendCheck(users, email);
      if check.Failure? {
        return Failure(check.error);
      }
      var code := VerificationCode(random);
      var sent: bool := *;
      if !sent {
        return Failure(SendFailed);
      }
      outbox := outbox + [VerificationMail(email, code)];
      var saved: bool := *;
      if !saved {
        return Failure(StorageFailure);
      }
      codes := codes[email := code];
      r := Success(());
    }

    /** Lines 217-230: `First(&user, id)` by primary key. */
    method GetUserProfile(id: UserId) returns (r: Result<UserResponse, UserError>)
      requires Valid()
      ensures r.Success? <==> 1 <= id <= |users|
      ensures r.Success? ==> r.value == Response(users[id - 1]) && r.value.id == id
      ensures r.Failure? ==> r.error == UserNotFound
    {
      if 1 <= id <= |users| {
        r := Success(Response(users[id - 1]));
      } else {
        r := Failure(UserNotFound);
      }
    }
  }
}

=== FILE: wallet_logic.dfy ===
/**
  The older wallet logic (wallet-service/logic/wallet.go): lazy wallet
  creation and balance changes done as separate store calls, a pending record
  first, the balance update second, the record's final status third. Nothing
  is rolled back: a failed step leaves the earlier steps in place. Published
  payment events are kept in the ghost `events` log.
*/
module WalletLogic {
  import opened Wrappers
  import opened WalletModels
  import opened WalletRepository

  /**
    The outcomes a balance change of the older layer can have, starting from
    wallet table `W` and record table `T`. With `e` the table after lazy
    wallet creation, `i` the user's wallet in it and `t` the pending record:
    a success moves wallet `i` by the signed amount and leaves `t` completed
    (or pending, when the final status write fails); a store failure keeps
    every balance of `e` and leaves at most `t` pending or failed; an expense
    larger than the balance is refused before any record is written.
  */
  predicate ChangeOutcome(W: seq<Wallet>, T: seq<Transaction>, W2: seq<Wallet>, T2: seq<Transaction>,
                          r: Result<Transaction, WalletError>, user: UserId, kind: TxType, amount: int, description: string)
  {
    var (e, i) := LazyWallet(W, user);
    ChangeOutcomeAt(W, e, i, T, W2, T2, r, user, kind, amount, description)
  }

  /** `ChangeOutcome` with the table after lazy creation `e` and the user's wallet `i` in it given. */
  predicate ChangeOutcomeAt(W: seq<Wallet>, e: seq<Wallet>, i: nat, T: seq<Transaction>, W2: seq<Wallet>, T2: seq<Transaction>,
                            r: Result<Transaction, WalletError>, user: UserId, kind: TxType, amount: int, description: string)
    requires i < |e|
  {
    var t := Transaction(|T| + 1, user, e[i].id, kind, amount, description, Pending);
    match r
    case Success(v) =>
      && (kind == Expense ==> e[i].balance >= amount)
      && v == t.(status := Completed)
      && W2 == Adjust(e, i, Signed(kind, amount))
      && (T2 == T + [v] || T2 == T + [t])
    case Failure(err) =>
      || (err == StorageFailure && W2 == W && T2 == T)
      || (err == StorageFailure && W2 == e && (T2 == T || T2 == T + [t] || T2 == T + [t.(status := Failed)]))
      || (err == InsufficientBalance && kind == Expense && e[i].balance < amount && W2 == e && T2 == T)
  }

  /**
    What `RecordAndSettle` leaves behind, run on the user's wallet after a
    lazy creation that succeeded, is an outcome `ChangeOutcome` allows.
  */
  lemma {:induction false} SettledChange(W: seq<Wallet>, T: seq<Transaction>, W2: seq<Wallet>, T2: seq<Transaction>,
                      r: Result<Transaction, WalletError>, user: UserId, kind: TxType, amount: int, description: string,
                      e: seq<Wallet>, i: nat)
    requires i < |e| && e[i].id == i + 1
    requires kind == Expense ==> e[i].balance >= amount
    requires r.Success? ==>
      && r.value == Transaction(|T| + 1, user, e[i].id, kind, amount, description, Completed)
      && W2 == e[e[i].id - 1 := e[i].(balance := e[i].balance + Signed(kind, amount))]
      && (T2 == T + [r.value] || T2 == T + [r.value.(status := Pending)])
    requires r.Failure? ==>
      && r.error == StorageFailure
      && W2 == e
      && var t := Transaction(|T| + 1, user, e[i].id, kind, amount, description, Pending);
         T2 == T || T2 == T + [t] || T2 == T + [t.(status := Failed)]
    ensures ChangeOutcomeAt(W, e, i, T, W2, T2, r, user, kind, amount, description)
  {
    if r.Success? {
      SaveAtOwnId(e, i, Signed(kind, amount), W2);
    }
  }

  /** Saving a row, its balance moved by `delta`, at its own id is the balance update of its position. */
  lemma {:induction false} SaveAtOwnId(rows: seq<Wallet>, i: nat, delta: int, saved: seq<Wallet>)
    requires i < |rows| && rows[i].id == i + 1
    requires saved == rows[rows[i].id - 1 := rows[i].(balance := rows[i].balance + delta)]
    ensures saved == Adjust(rows, i, delta)
  {
  }

  /** A success moves the total of all balances by the signed amount; a failure moves no money. */
  lemma ChangeOutcomeTotal(W: seq<Wallet>, T: seq<Transaction>, W2: seq<Wallet>, T2: seq<Transaction>,
                           r: Result<Transaction, WalletError>, user: UserId, kind: TxType, amount: int, description: string)
    requires ChangeOutcome(W, T, W2, T2, r, user, kind, amount, description)
    ensures r.Success? ==> TotalBalance(W2) == TotalBalance(W) + Signed(kind, amount)
    ensures r.Failure? ==> TotalBalance(W2) == TotalBalance(W)
  {
    var (e, i) := LazyWallet(W, user);
    EnsureWalletFacts(W, user);
    if r.Success? {
      TotalBalanceAdjust(e, i, Signed(kind, amount));
    }
  }

  /** A positive income, or an expense the balance covers, never makes a balance negative. */
  lemma ChangeOutcomeNonNegative(W: seq<Wallet>, T: seq<Transaction>, W2: seq<Wallet>, T2: seq<Transaction>,
                                 r: Result<Transaction, WalletError>, user: UserId, kind: TxType, amount: int, description: string)
    requires ChangeOutcome(W, T, W2, T2, r, user, kind, amount, description)
    requires NonNegative(W) && amount > 0
    ensures NonNegative(W2)
  {
    EnsureWalletFacts(W, user);
  }

  /**
    Every outcome keeps the ledger consistent, except a success whose final
    status write failed: that leaves the balance moved and its record pending.
  */
  lemma {:induction false} ChangeOutcomeLedger(W: seq<Wallet>, T: seq<Transaction>, W2: seq<Wallet>, T2: seq<Transaction>,
                            r: Result<Transaction, WalletError>, user: UserId, kind: TxType, amount: int, description: string)
    requires ChangeOutcome(W, T, W2, T2, r, user, kind, amount, description)
    requires LedgerConsistent(W, T)
    ensures r.Failure? ==> LedgerConsistent(W2, T2)
    ensures r.Success? && T2 == T + [r.value] ==> LedgerConsistent(W2, T2)
    ensures r.Success? && T2 != T + [r.value] && amount != 0 ==> !Reconciled(W2, T2)
  {
    var (e, i) := LazyWallet(W, user);
    EnsureWalletKeepsConsistent(W, T, user);
    OutcomeAtLedger(W, e, i, T, W2, T2, r, user, kind, amount, description);
  }

  /** `ChangeOutcomeLedger` on a given table after lazy creation `e` that is consistent with the records. */
  lemma {:induction false} OutcomeAtLedger(W: seq<Wallet>, e: seq<Wallet>, i: nat, T: seq<Transaction>, W2: seq<Wallet>,
                                           T2: seq<Transaction>, r: Result<Transaction, WalletError>, user: UserId,
                                           kind: TxType, amount: int, description: string)
    requires i < |e| && ChangeOutcomeAt(W, e, i, T, W2, T2, r, user, kind, amount, description)
    requires LedgerConsistent(W, T) && LedgerConsistent(e, T)
    ensures r.Failure? ==> LedgerConsistent(W2, T2)
    ensures r.Success? && T2 == T + [r.value] ==> LedgerConsistent(W2, T2)
    ensures r.Success? && T2 != T + [r.value] && amount != 0 ==> !Reconciled(W2, T2)
  {
    var t := Transaction(|T| + 1, user, e[i].id, kind, amount, description, Pending);
    PendingRecordOutcomesKeepConsistent(e, T, i, t);
    if r.Success? && T2 != T + [r.value] && amount != 0 {
      assert T2 == T + [t];
      AdjustKeepsOwners(e, i, Signed(kind, amount));
      assert W2[i].balance != Net(T2, W2[i].id);
    }
  }

  /**
    The two-step transfer's legs, a debit of the sender and then a credit of
    the recipient, when both succeed move the money exactly as the locked
    repository transfer does: the sender's wallet loses `amount`, the
    recipient's, created at zero when missing, gains it, and no other wallet
    changes (`TransferSuccessMovesAmount`).
  */
  lemma {:induction false} TwoLegsAsSafeTransfer(W: seq<Wallet>, T: seq<Transaction>, W1: seq<Wallet>, T1: seq<Transaction>,
                                                 W2: seq<Wallet>, T2: seq<Transaction>, d: Result<Transaction, WalletError>,
                                                 c: Result<Transaction, WalletError>, from: UserId, to: UserId, amount: int,
                                                 dd: string, cd: string)
    requires from != to && amount > 0
    requires d.Success? && ChangeOutcome(W, T, W1, T1, d, from, Expense, amount, dd)
    requires c.Success? && ChangeOutcome(W1, T1, W2, T2, c, to, Income, amount, cd)
    ensures SafeTransferSpec(W, from, to, amount) == (None, W2)
  {
    EnsureWalletFacts(W, from);
    assert FindWallet(W, from).Some?;
    DebitThenCreditIsTransfer(W, from, to, amount);
  }

  /**
    A failed debit touches only the sender's side: every existing wallet keeps
    its row, at most a zero-balance wallet for the sender is added, no other
    user's wallet lookup changes, and the only record it may add is the
    sender's.
  */
  lemma {:induction false} DebitLegFailureSparesOthers(W: seq<Wallet>, T: seq<Transaction>, W2: seq<Wallet>, T2: seq<Transaction>,
                                    e: WalletError, from: UserId, amount: int, dd: string)
    requires ChangeOutcome(W, T, W2, T2, Failure(e), from, Expense, amount, dd)
    ensures |W| <= |W2| <= |W| + 1 && W2[..|W|] == W
    ensures |W2| > |W| ==> W2[|W|] == Wallet(|W| + 1, from, 0)
    ensures forall u :: u != from ==> FindWallet(W2, u) == FindWallet(W, u)
    ensures |T| <= |T2| <= |T| + 1 && T2[..|T|] == T
    ensures |T2| > |T| ==> T2[|T|].userId == from
  {
    EnsureWalletFacts(W, from);
  }

  /**
    A failed credit after a successful debit is not undone: the sender's
    wallet keeps the debit, every other existing wallet its row, and at most a
    zero-balance wallet for the recipient is added.
  */
  lemma {:induction false} CreditLegFailureKeepsDebit(W: seq<Wallet>, T: seq<Transaction>, W1: seq<Wallet>, T1: seq<Transaction>,
                                                      W2: seq<Wallet>, T2: seq<Transaction>, d: Result<Transaction, WalletError>,
                                                      e: WalletError, from: UserId, to: UserId, amount: int, dd: string, cd: string)
    requires amount > 0
    requires d.Success? && ChangeOutcome(W, T, W1, T1, d, from, Expense, amount, dd)
    requires ChangeOutcome(W1, T1, W2, T2, Failure(e), to, Income, amount, cd)
    ensures FindWallet(W, from).Some?
    ensures var fi := FindWallet(W, from).value;
      && |W| <= |W2| <= |W| + 1
      && W2[..|W|] == Adjust(W, fi, -amount)
      && (|W2| > |W| ==> W2[|W|] == Wallet(|W| + 1, to, 0))
  {
    EnsureWalletFacts(W, from);
    assert FindWallet(W, from).Some?;
    var fi := FindWallet(W, from).value;
    assert W1 == Adjust(W, fi, -amount);
    assert W2 == W1 || W2 == EnsureWallet(W1, to);
    EnsureWalletFacts(W1, to);
  }

  /**
    The outcomes of the two-step transfer between two users, from wallet table
    `W` and record table `T`: a success is a successful debit of the sender
    followed by a successful credit of the recipient; `DebitFailed(e)` is a
    debit that ended in `e`; `CreditFailed(e)` is a successful debit followed
    by a credit that ended in `e`, with nothing undone.
  */
  ghost predicate TwoStepTransfer(W: seq<Wallet>, T: seq<Transaction>, W2: seq<Wallet>, T2: seq<Transaction>,
                            err: Option<WalletError>, from: UserId, to: UserId, amount: int, description: string)
  {
    var dd := TransferToDescription(to, description);
    var cd := TransferFromDescription(from, description);
    match err
    case None =>
      exists W1: seq<Wallet>, T1: seq<Transaction>, d: Result<Transaction, WalletError>, c: Result<Transaction, WalletError> ::
        && d.Success? && c.Success?
        && ChangeOutcome(W, T, W1, T1, d, from, Expense, amount, dd)
        && ChangeOutcome(W1, T1, W2, T2, c, to, Income, amount, cd)
    case Some(DebitFailed(e)) => ChangeOutcome(W, T, W2, T2, Failure(e), from, Expense, amount, dd)
    case Some(CreditFailed(e)) =>
      exists W1: seq<Wallet>, T1: seq<Transaction>, d: Result<Transaction, WalletError> ::
        && d.Success?
        && ChangeOutcome(W, T, W1, T1, d, from, Expense, amount, dd)
        && ChangeOutcome(W1, T1, W2, T2, Failure(e), to, Income, amount, cd)
    case Some(_) => false
  }

  /**
    Whose money moves in each outcome of the two-step transfer. A success
    moves it exactly as the locked transfer does and keeps the total. A failed
    debit moves no money, keeps every existing wallet's row and the
    recipient's lookup, and adds only records of the sender. A failed credit
    leaves the sender debited, adds at most a zero-balance wallet for the
    recipient, and the total falls by `amount`. No outcome makes a balance
    negative.
  */
  lemma {:induction false} TwoStepTransferFacts(W: seq<Wallet>, T: seq<Transaction>, W2: seq<Wallet>, T2: seq<Transaction>,
                             err: Option<WalletError>, from: UserId, to: UserId, amount: int, description: string)
    requires from != to && amount > 0
    requires TwoStepTransfer(W, T, W2, T2, err, from, to, amount, description)
    ensures err.None? ==>
      && SafeTransferSpec(W, from, to, amount) == (None, W2)
      && TotalBalance(W2) == TotalBalance(W)
    ensures err.Some? ==> err.value.DebitFailed? || err.value.CreditFailed?
    ensures err.Some? && err.value.DebitFailed? ==>
      && |W| <= |W2| && W2[..|W|] == W
      && FindWallet(W2, to) == FindWallet(W, to)
      && |T| <= |T2| && T2[..|T|] == T
      && (forall k :: |T| <= k < |T2| ==> T2[k].userId == from)
      && TotalBalance(W2) == TotalBalance(W)
    ensures err.Some? && err.value.CreditFailed? ==>
      && FindWallet(W, from).Some?
      && var fi := FindWallet(W, from).value;
      && |W| <= |W2| <= |W| + 1
      && W2[..|W|] == Adjust(W, fi, -amount)
      && (|W2| > |W| ==> W2[|W|] == Wallet(|W| + 1, to, 0))
      && TotalBalance(W2) == TotalBalance(W) - amount
    ensures NonNegative(W) ==> NonNegative(W2)
  {
    match err
    case None => TwoStepSucceeded(W, T, W2, T2, from, to, amount, description);
    case Some(DebitFailed(e)) => TwoStepDebitFailed(W, T, W2, T2, e, from, to, amount, description);
    case Some(CreditFailed(e)) => TwoStepCreditFailed(W, T, W2, T2, e, from, to, amount, description);
  }

  /** `TwoStepTransferFacts` for a success. */
  lemma {:induction false} TwoStepSucceeded(W: seq<Wallet>, T: seq<Transaction>, W2: seq<Wallet>, T2: seq<Transaction>,
                                            from: UserId, to: UserId, amount: int, description: string)
    requires from != to && amount > 0
    requires TwoStepTransfer(W, T, W2, T2, None, from, to, amount, description)
    ensures SafeTransferSpec(W, from, to, amount) == (None, W2)
    ensures TotalBalance(W2) == TotalBalance(W)
    ensures NonNegative(W) ==> NonNegative(W2)
  {
    var dd := TransferToDescription(to, description);
    var cd := TransferFromDescription(from, description);
    var W1: seq<Wallet>, T1: seq<Transaction>, d: Result<Transaction, WalletError>, c: Result<Transaction, WalletError> :|
      d.Success? && c.Success? && ChangeOutcome(W, T, W1, T1, d, from, Expense, amount, dd)
                        && ChangeOutcome(W1, T1, W2, T2, c, to, Income, amount, cd);
    TwoLegsAsSafeTransfer(W, T, W1, T1, W2, T2, d, c, from, to, amount, dd, cd);
    TwoLegsTotals(W, T, W1, T1, W2, T2, d, c, from, to, amount, dd, cd);
  }

  /** `TwoStepTransferFacts` for a failed debit. */
  lemma {:induction false} TwoStepDebitFailed(W: seq<Wallet>, T: seq<Transaction>, W2: seq<Wallet>, T2: seq<Transaction>,
                                              e: WalletError, from: UserId, to: UserId, amount: int, description: string)
    requires from != to && amount > 0
    requires TwoStepTransfer(W, T, W2, T2, Some(DebitFailed(e)), from, to, amount, description)
    ensures |W| <= |W2| && W2[..|W|] == W
    ensures FindWallet(W2, to) == FindWallet(W, to)
    ensures |T| <= |T2| && T2[..|T|] == T
    ensures forall k :: |T| <= k < |T2| ==> T2[k].userId == from
    ensures TotalBalance(W2) == TotalBalance(W)
    ensures NonNegative(W) ==> NonNegative(W2)
  {
    var dd := TransferToDescription(to, description);
    DebitLegFailureSparesOthers(W, T, W2, T2, e, from, amount, dd);
    ChangeOutcomeTotal(W, T, W2, T2, Failure(e), from, Expense, amount, dd);
    if NonNegative(W) {
      ChangeOutcomeNonNegative(W, T, W2, T2, Failure(e), from, Expense, amount, dd);
    }
  }

  /** `TwoStepTransferFacts` for a failed credit after a successful debit. */
  lemma {:induction false} TwoStepCreditFailed(W: seq<Wallet>, T: seq<Transaction>, W2: seq<Wallet>, T2: seq<Transaction>,
                                               e: WalletError, from: UserId, to: UserId, amount: int, description: string)
    requires from != to && amount > 0
    requires TwoStepTransfer(W, T, W2, T2, Some(CreditFailed(e)), from, to, amount, description)
    ensures FindWallet(W, from).Some?
    ensures |W| <= |W2| <= |W| + 1
    ensures W2[..|W|] == Adjust(W, FindWallet(W, from).value, -amount)
    ensures |W2| > |W| ==> W2[|W|] == Wallet(|W| + 1, to, 0)
    ensures TotalBalance(W2) == TotalBalance(W) - amount
    ensures NonNegative(W) ==> NonNegative(W2)
  {
    var dd := TransferToDescription(to, description);
    var cd := TransferFromDescription(from, description);
    var W1: seq<Wallet>, T1: seq<Transaction>, d: Result<Transaction, WalletError> :|
      d.Success? && ChangeOutcome(W, T, W1, T1, d, from, Expense, amount, dd)
                     && ChangeOutcome(W1, T1, W2, T2, Failure(e), to, Income, amount, cd);
    CreditLegFailureKeepsDebit(W, T, W1, T1, W2, T2, d, e, from, to, amount, dd, cd);
    TwoLegsTotals(W, T, W1, T1, W2, T2, d, Failure(e), from, to, amount, dd, cd);
  }

  /** The totals and non-negativity across a debit leg that succeeded and the credit leg after it. */
  lemma {:induction false} TwoLegsTotals(W: seq<Wallet>, T: seq<Transaction>, W1: seq<Wallet>, T1: seq<Transaction>,
                      W2: seq<Wallet>, T2: seq<Transaction>, d: Result<Transaction, WalletError>,
                      c: Result<Transaction, WalletError>, from: UserId, to: UserId, amount: int, dd: string, cd: string)
    requires amount > 0
    requires d.Success? && ChangeOutcome(W, T, W1, T1, d, from, Expense, amount, dd)
    requires ChangeOutcome(W1, T1, W2, T2, c, to, Income, amount, cd)
    ensures c.Success? ==> TotalBalance(W2) == TotalBalance(W)
    ensures c.Failure? ==> TotalBalance(W2) == TotalBalance(W) - amount
    ensures NonNegative(W) ==> NonNegative(W2)
  {
    ChangeOutcomeTotal(W, T, W1, T1, d, from, Expense, amount, dd);
    ChangeOutcomeTotal(W1, T1, W2, T2, c, to, Income, amount, cd);
    if NonNegative(W) {
      ChangeOutcomeNonNegative(W, T, W1, T1, d, from, Expense, amount, dd);
      ChangeOutcomeNonNegative(W1, T1, W2, T2, c, to, Income, amount, cd);
    }
  }

  class WalletLogic {
    const walletRepo: WalletRepository
    const transactionRepo: TransactionRepository
    ghost var events: seq<PaymentEvent>

    ghost predicate Valid()
      reads this, walletRepo, transactionRepo
    {
      walletRepo.Valid() && transactionRepo.Valid()
    }

    constructor (walletRepo: WalletRepository, transactionRepo: TransactionRepository)
      requires walletRepo.Valid() && transactionRepo.Valid()
      ensures Valid() && events == []
      ensures this.walletRepo == walletRepo && this.transactionRepo == transactionRepo
    {
      this.walletRepo := walletRepo;
      this.transactionRepo := transactionRepo;
      events := [];
    }

    /**
      `CreateWallet` (lines 30-49): an existing wallet is returned as it is;
      otherwise a zero-balance wallet is inserted, and a store error leaves the
      table as it was. Either way the user ends with exactly the wallets
      `EnsureWallet` describes, so no user gets a second wallet.
    */
    method CreateWallet(user: UserId) returns (r: Result<Wallet, WalletError>)
      requires Valid()
      modifies walletRepo
      ensures Valid() && walletRepo.locks == old(walletRepo.locks)
      ensures FindWallet(old(walletRepo.wallets), user).Some? ==> r.Success?
      ensures r.Success? ==>
        && walletRepo.wallets == EnsureWallet(old(walletRepo.wallets), user)
        && r.value == walletRepo.wallets[LazyWallet(old(walletRepo.wallets), user).1]
        && r.value.userId == user
      ensures r.Failure? ==> r.error == StorageFailure && walletRepo.wallets == old(walletRepo.wallets)
      ensures old(OneWalletPerUser(walletRepo.wallets)) ==> OneWalletPerUser(walletRepo.wallets)
    {
      EnsureWalletFacts(walletRepo.wallets, user);
      var existing := walletRepo.GetWalletByUserID(user);
      if existing.Success? {
        return existing;
      }
      r := walletRepo.CreateWallet(Wallet(0, user, 0));
    }

    /** `GetWallet` (lines 52-59): the user's wallet, created on first use. */
    method GetWallet(user: UserId) returns (r: Result<Wallet, WalletError>)
      requires Valid()
      modifies walletRepo
      ensures Valid() && walletRepo.locks == old(walletRepo.locks)
      ensures FindWallet(old(walletRepo.wallets), user).Some? ==> r.Success? && unchanged(walletRepo)
      ensures r.Success? ==>
        && walletRepo.wallets == EnsureWallet(old(walletRepo.wallets), user)
        && r.value == walletRepo.wallets[LazyWallet(old(walletRepo.wallets), user).1]
      ensures r.Failure? ==> r.error == StorageFailure && walletRepo.wallets == old(walletRepo.wallets)
    {
      var found := walletRepo.GetWalletByUserID(user);
      if found.Failure? {
        r := CreateWallet(user);
        return;
      }
      r := found;
    }

    /**
      The three store writes shared by `AddBalance` and `DeductBalance`
      (lines 74-103 and 138-167): a pending record, the whole-row save of the
      wallet moved by the record's signed amount, and the record's final
      status. A failed save marks the record failed; a failed status write is
      only logged.
    */
    method RecordAndSettle(wallet: Wallet, kind: TxType, amount: int, description: string) returns (r: Result<Transaction, WalletError>)
      requires Valid() && 1 <= wallet.id <= |walletRepo.wallets|
      modifies walletRepo, transactionRepo
      ensures Valid() && walletRepo.locks == old(walletRepo.locks)
      ensures var T := old(transactionRepo.transactions);
        var t := Transaction(|T| + 1, wallet.userId, wallet.id, kind, amount, description, Pending);
        && (r.Success? ==>
              && r.value == t.(status := Completed)
              && walletRepo.wallets == old(walletRepo.wallets)[wallet.id - 1 := wallet.(balance := wallet.balance + Signed(kind, amount))]
              && (transactionRepo.transactions == T + [r.value] || transactionRepo.transactions == T + [t]))
        && (r.Failure? ==>
              && r.error == StorageFailure
              && walletRepo.wallets == old(walletRepo.wallets)
              && (transactionRepo.transactions == T
                  || transactionRepo.transactions == T + [t]
                  || transactionRepo.transactions == T + [t.(status := Failed)]))
    {
      var created := transactionRepo.CreateTransaction(Transaction(0, wallet.userId, wallet.id, kind, amount, description, Pending));
      if created.Failure? {
        return Failure(StorageFailure);
      }
      var transaction := created.value;
      var saved := walletRepo.UpdateWallet(wallet.(balance := wallet.balance + Signed(kind, amount)));
      if !saved {
        transaction := transaction.(status := Failed);
        var _ := transactionRepo.UpdateTransaction(transaction);
        return Failure(StorageFailure);
      }
      transaction := transaction.(status := Completed);
      var _ := transactionRepo.UpdateTransaction(transaction);
      r := Success(transaction);
    }

    /**
      `AddBalance` (lines 62-118): a non-positive amount changes nothing;
      otherwise the outcome is one `ChangeOutcome` allows for an income, and a
      success publishes one payment event.
    */
    method AddBalance(user: UserId, amount: int, description: string) returns (r: Result<Transaction, WalletError>)
      requires Valid()
      modifies this, walletRepo, transactionRepo
      ensures Valid() && walletRepo.locks == old(walletRepo.locks)
      ensures amount <= 0 ==>
        r == Failure(AmountNotPositive) && unchanged(walletRepo, transactionRepo) && events == old(events)
      ensures amount > 0 ==>
        ChangeOutcome(old(walletRepo.wallets), old(transactionRepo.transactions), walletRepo.wallets,
                      transactionRepo.transactions, r, user, Income, amount, description)
      ensures r.Success? ==> events == old(events) + [PaymentEvent(user, amount, description, r.value.id)]
      ensures r.Failure? ==> events == old(events)
    {
      if amount <= 0 {
        return Failure(AmountNotPositive);
      }
      ghost var W, T := walletRepo.wallets, transactionRepo.transactions;
      var got := GetWallet(user);
      if got.Failure? {
        return Failure(StorageFailure);
      }
      var wallet := got.value;
      assert walletRepo.wallets == LazyWallet(W, user).0 && wallet == LazyWallet(W, user).0[LazyWallet(W, user).1];
      r := RecordAndSettle(wallet, Income, amount, description);
      LazyWalletId(W, user);
      SettledChange(W, T, walletRepo.wallets, transactionRepo.transactions, r, user, Income, amount, description,
                    LazyWallet(W, user).0, LazyWallet(W, user).1);
      if r.Success? {
        events := events + [PaymentEvent(user, amount, description, r.value.id)];
      }
    }

    /**
      `DeductBalance` (lines 121-182): as `AddBalance` for an expense, and a
      wallet that exists with a balance below `amount` is refused.
    */
    method DeductBalance(user: UserId, amount: int, description: string) returns (r: Result<Transaction, WalletError>)
      requires Valid()
      modifies this, walletRepo, transactionRepo
      ensures Valid() && walletRepo.locks == old(walletRepo.locks)
      ensures amount <= 0 ==>
        r == Failure(AmountNotPositive) && unchanged(walletRepo, transactionRepo) && events == old(events)
      ensures amount > 0 ==>
        ChangeOutcome(old(walletRepo.wallets), old(transactionRepo.transactions), walletRepo.wallets,
                      transactionRepo.transactions, r, user, Expense, amount, description)
      ensures (amount > 0 && FindWallet(old(walletRepo.wallets), user).Some?
                && old(walletRepo.wallets)[FindWallet(old(walletRepo.wallets), user).value].balance < amount)
              ==> r == Failure(InsufficientBalance)
      ensures r.Success? ==> events == old(events) + [PaymentEvent(user, -amount, description, r.value.id)]
      ensures r.Failure? ==> events == old(events)
    {
      if amount <= 0 {
        return Failure(AmountNotPositive);
      }
      ghost var W, T := walletRepo.wallets, transactionRepo.transactions;
      var got := GetWallet(user);
      if got.Failure? {
        return Failure(StorageFailure);
      }
      var wallet := got.value;
      assert walletRepo.wallets == LazyWallet(W, user).0 && wallet == LazyWallet(W, user).0[LazyWallet(W, user).1];
      if wallet.balance < amount {
        return Failure(InsufficientBalance);
      }
      r := RecordAndSettle(wallet, Expense, amount, description);
      LazyWalletId(W, user);
      SettledChange(W, T, walletRepo.wallets, transactionRepo.transactions, r, user, Expense, amount, description,
                    LazyWallet(W, user).0, LazyWallet(W, user).1);
      if r.Success? {
        events := events + [PaymentEvent(user, -amount, description, r.value.id)];
      }
    }

    /** `GetTransactions` (lines 185-187): the user's records, newest first. */
    method GetTransactions(user: UserId) returns (r: seq<Transaction>)
      requires Valid()
      ensures forall k :: 0 <= k < |r| ==> r[k].userId == user && r[k] in transactionRepo.transactions
      ensures forall t :: t in transactionRepo.transactions && t.userId == user ==> t in r
      ensures forall a, b :: 0 <= a < b < |r| ==> r[a].id > r[b].id
    {
      r := transactionRepo.GetTransactionsByUserID(user);
    }

    /**
      `Transfer` (lines 197-221): a debit of the sender followed by a credit of
      the recipient, each a separate `DeductBalance`/`AddBalance`. A success is
      two successful legs and moves the money as the locked transfer does. A
      refused or failed debit touches only the sender's side. A failed credit
      after a debit is not undone: the sender keeps the debit, no other wallet
      gains, and `amount` leaves the system.
    */
    method Transfer(from: UserId, to: UserId, amount: int, description: string) returns (err: Option<WalletError>)
      requires Valid()
      modifies this, walletRepo, transactionRepo
      ensures Valid()
      ensures amount <= 0 ==>
        err == Some(AmountNotPositive) && unchanged(walletRepo, transactionRepo) && events == old(events)
      ensures amount > 0 && from == to ==>
        err == Some(CannotTransferToYourself) && unchanged(walletRepo, transactionRepo) && events == old(events)
      ensures amount > 0 && from != to ==>
        TwoStepTransfer(old(walletRepo.wallets), old(transactionRepo.transactions), walletRepo.wallets,
                        transactionRepo.transactions, err, from, to, amount, description)
      ensures err.None? ==>
        && SafeTransferSpec(old(walletRepo.wallets), from, to, amount) == (None, walletRepo.wallets)
        && TotalBalance(walletRepo.wallets) == old(TotalBalance(walletRepo.wallets))
        && |events| == |old(events)| + 2 && old(events) <= events
        && events[|old(events)|].userId == from && events[|old(events)|].amount == -amount
        && events[|old(events)|].description == TransferToDescription(to, description)
        && events[|old(events)| + 1].userId == to && events[|old(events)| + 1].amount == amount
        && events[|old(events)| + 1].description == TransferFromDescription(from, description)
      ensures err.Some? && err.value.DebitFailed? ==>
        && |old(walletRepo.wallets)| <= |walletRepo.wallets|
        && walletRepo.wallets[..|old(walletRepo.wallets)|] == old(walletRepo.wallets)
        && FindWallet(walletRepo.wallets, to) == FindWallet(old(walletRepo.wallets), to)
        && (forall k :: |old(transactionRepo.transactions)| <= k < |transactionRepo.transactions| ==>
              transactionRepo.transactions[k].userId == from)
        && TotalBalance(walletRepo.wallets) == old(TotalBalance(walletRepo.wallets))
        && events == old(events)
      ensures err.Some? && err.value.CreditFailed? ==>
        && FindWallet(old(walletRepo.wallets), from).Some?
        && |old(walletRepo.wallets)| <= |walletRepo.wallets|
        && walletRepo.wallets[..|old(walletRepo.wallets)|]
             == Adjust(old(walletRepo.wallets), FindWallet(old(walletRepo.wallets), from).value, -amount)
        && (|walletRepo.wallets| > |old(walletRepo.wallets)| ==>
              walletRepo.wallets[|old(walletRepo.wallets)|] == Wallet(|old(walletRepo.wallets)| + 1, to, 0))
        && TotalBalance(walletRepo.wallets) == old(TotalBalance(walletRepo.wallets)) - amount
        && |events| == |old(events)| + 1 && old(events) <= events
        && events[|old(events)|].userId == from && events[|old(events)|].amount == -amount
        && events[|old(events)|].description == TransferToDescription(to, description)
      ensures old(NonNegative(walletRepo.wallets)) ==> NonNegative(walletRepo.wallets)
    {
      if amount <= 0 {
        return Some(AmountNotPositive);
      }
      if from == to {
        return Some(CannotTransferToYourself);
      }
      ghost var W := walletRepo.wallets;
      ghost var T := transactionRepo.transactions;
      err := TransferLegs(from, to, amount, description);
      TwoStepTransferFacts(W, T, walletRepo.wallets, transactionRepo.transactions, err, from, to, amount, description);
    }

    /**
      The two legs of `Transfer` (lines 206-220): the sender's debit, then, if
      it succeeded, the recipient's credit. Each leg that succeeds sends its
      payment event.
    */
    method TransferLegs(from: UserId, to: UserId, amount: int, description: string) returns (err: Option<WalletError>)
      requires Valid() && amount > 0 && from != to
      modifies this, walletRepo, transactionRepo
      ensures Valid()
      ensures TwoStepTransfer(old(walletRepo.wallets), old(transactionRepo.transactions), walletRepo.wallets,
                              transactionRepo.transactions, err, from, to, amount, description)
      ensures err.None? ==>
        && |events| == |old(events)| + 2 && old(events) <= events
        && events[|old(events)|].userId == from && events[|old(events)|].amount == -amount
        && events[|old(events)|].description == TransferToDescription(to, description)
        && events[|old(events)| + 1].userId == to && events[|old(events)| + 1].amount == amount
        && events[|old(events)| + 1].description == TransferFromDescription(from, description)
      ensures err.Some? && err.value.DebitFailed? ==> events == old(events)
      ensures err.Some? && err.value.CreditFailed? ==>
        && |events| == |old(events)| + 1 && old(events) <= events
        && events[|old(events)|].userId == from && events[|old(events)|].amount == -amount
        && events[|old(events)|].description == TransferToDescription(to, description)
    {
      ghost var W, T, E := walletRepo.wallets, transactionRepo.transactions, events;
      var debit := DeductBalance(from, amount, TransferToDescription(to, description));
      if debit.Failure? {
        return Some(DebitFailed(debit.error));
      }
      ghost var sent := PaymentEvent(from, -amount, TransferToDescription(to, description), debit.value.id);
      assert events == E + [sent];
      ghost var W1 := walletRepo.wallets;
      ghost var T1 := transactionRepo.transactions;
      var credit := AddBalance(to, amount, TransferFromDescription(from, description));
      assert ChangeOutcome(W, T, W1, T1, debit, from, Expense, amount, TransferToDescription(to, description));
      if credit.Failure? {
        return Some(CreditFailed(credit.error));
      }
      assert events == E + [sent, PaymentEvent(to, amount, TransferFromDescription(from, description), credit.value.id)];
      err := None;
    }
  }
}

=== FILE: wallet_models.dfy ===
/**
  Rows of the wallet service's two tables (shared/models/user.go:49-69) and
  the pure functions over those tables that the repository and the two
  logic layers are specified by. Money is an integer number of cents.
*/
module WalletModels {
  import opened Wrappers
  import opened Decimal

  type UserId = nat

  datatype Wallet = Wallet(id: nat, userId: UserId, balance: int)

  datatype TxType = Income | Expense

  datatype TxStatus = Pending | Completed | Failed

  datatype Transaction = Transaction(
    id: nat,
    userId: UserId,
    walletId: nat,
    kind: TxType,
    amount: int,
    description: string,
    status: TxStatus)

  /** The payload published on the wallet-payment topic. */
  datatype PaymentEvent = PaymentEvent(userId: UserId, amount: int, description: string, transactionId: nat)

  datatype WalletError =
    | AmountNotPositive        // "amount must be greater than 0"
    | CannotTransferToYourself // "cannot transfer to yourself"
    | InsufficientBalance      // "insufficient balance"
    | RecordNotFound           // the store found no wallet row
    | StorageFailure           // any other error of the store
    | DebitFailed(cause: WalletError)   // "failed to deduct balance: ..." of the two-step transfer
    | CreditFailed(cause: WalletError)  // "failed to add balance: ..." of the two-step transfer

  // ---------------------------------------------------------------------------
  // The wallet table
  // ---------------------------------------------------------------------------

  /** Auto-increment ids: the row at position i has id i + 1 (rows are never deleted). */
  predicate IdsArePositions(rows: seq<Wallet>)
  {
    forall i :: 0 <= i < |rows| ==> rows[i].id == i + 1
  }

  /** The position of the first row (lowest id) owned by `user`, as `First` with `user_id = ?` finds it. */
  function FindWallet(rows: seq<Wallet>, user: UserId): (r: Option<nat>)
    ensures r.Some? ==> r.value < |rows| && rows[r.value].userId == user
    ensures r.Some? ==> forall i :: 0 <= i < r.value ==> rows[i].userId != user
    ensures r.None? ==> forall i :: 0 <= i < |rows| ==> rows[i].userId != user
  {
    if rows == [] then None
    else
      var r := FindWallet(rows[..|rows| - 1], user);
      if r.Some? then r
      else if rows[|rows| - 1].userId == user then Some(|rows| - 1)
      else None
  }

  /** No user owns two wallet rows. The store does not enforce this; the callers that create wallets do. */
  predicate OneWalletPerUser(rows: seq<Wallet>)
  {
    forall i, j :: 0 <= i < j < |rows| ==> rows[i].userId != rows[j].userId
  }

  predicate NonNegative(rows: seq<Wallet>)
  {
    forall i :: 0 <= i < |rows| ==> rows[i].balance >= 0
  }

  function TotalBalance(rows: seq<Wallet>): int
  {
    if rows == [] then 0 else TotalBalance(rows[..|rows| - 1]) + rows[|rows| - 1].balance
  }

  /** `UPDATE wallets SET balance = balance + delta` on the row at position i. */
  function Adjust(rows: seq<Wallet>, i: nat, delta: int): (r: seq<Wallet>)
    requires i < |rows|
  {
    rows[i := rows[i].(balance := rows[i].balance + delta)]
  }

  /** The table after a zero-balance wallet is inserted for `user` if it has none. */
  function EnsureWallet(rows: seq<Wallet>, user: UserId): seq<Wallet>
  {
    if FindWallet(rows, user).Some? then rows else rows + [Wallet(|rows| + 1, user, 0)]
  }

  lemma {:induction false} TotalBalanceAdjust(rows: seq<Wallet>, i: nat, delta: int)
    requires i < |rows|
    ensures TotalBalance(Adjust(rows, i, delta)) == TotalBalance(rows) + delta
    decreases |rows|
  {
    var a := Adjust(rows, i, delta);
    assert a[..|a| - 1] == if i < |rows| - 1 then Adjust(rows[..|rows| - 1], i, delta) else rows[..|rows| - 1];
    if i < |rows| - 1 {
      TotalBalanceAdjust(rows[..|rows| - 1], i, delta);
    }
  }

  /** Appending a row does not move the first row of any user already present. */
  lemma FindWalletAppend(rows: seq<Wallet>, w: Wallet, user: UserId)
    ensures FindWallet(rows, user).Some? ==> FindWallet(rows + [w], user) == FindWallet(rows, user)
    ensures FindWallet(rows, user).None? && w.userId == user ==> FindWallet(rows + [w], user) == Some(|rows|)
    ensures FindWallet(rows, user).None? && w.userId != user ==> FindWallet(rows + [w], user).None?
  {
    assert (rows + [w])[..|rows|] == rows;
  }

  /**
    Lazy wallet creation finds or makes exactly one wallet for the user: it adds
    nothing when one exists, otherwise one zero-balance row with the next id; no
    money appears and no other user's first wallet moves.
  */
  lemma EnsureWalletFacts(rows: seq<Wallet>, user: UserId)
    ensures var e := EnsureWallet(rows, user);
      && FindWallet(e, user).Some?
      && |rows| <= |e| <= |rows| + 1
      && e[..|rows|] == rows
      && TotalBalance(e) == TotalBalance(rows)
      && (FindWallet(rows, user).Some? ==> e == rows)
      && (FindWallet(rows, user).None? ==> e[|rows|] == Wallet(|rows| + 1, user, 0))
      && (forall u :: u != user ==> FindWallet(e, u) == FindWallet(rows, u))
      && (IdsArePositions(rows) ==> IdsArePositions(e))
      && (OneWalletPerUser(rows) ==> OneWalletPerUser(e))
      && (NonNegative(rows) ==> NonNegative(e))
  {
    var w := Wallet(|rows| + 1, user, 0);
    if FindWallet(rows, user).None? {
      var e := rows + [w];
      FindWalletAppend(rows, w, user);
      forall u | u != user
        ensures FindWallet(e, u) == FindWallet(rows, u)
      {
        FindWalletAppend(rows, w, u);
      }
      assert e[..|e| - 1] == rows;
    }
  }

  /** The part of `EnsureWalletFacts` a lookup after lazy creation needs: the wallet is there, and no row moved. */
  lemma EnsureWalletFinds(rows: seq<Wallet>, user: UserId)
    ensures FindWallet(EnsureWallet(rows, user), user).Some?
    ensures |rows| <= |EnsureWallet(rows, user)|
  {
    if FindWallet(rows, user).None? {
      FindWalletAppend(rows, Wallet(|rows| + 1, user, 0), user);
    }
  }

  /** Creating a wallet on demand is idempotent: a second call finds the first one's wallet. */
  lemma EnsureWalletIdempotent(rows: seq<Wallet>, user: UserId)
    ensures EnsureWallet(EnsureWallet(rows, user), user) == EnsureWallet(rows, user)
  {
    EnsureWalletFacts(rows, user);
  }

  // ---------------------------------------------------------------------------
  // SafeUpdateWalletBalance (wallet-service/repository/wallet.go:160-212)
  // ---------------------------------------------------------------------------

  /** Only "add" credits; every other operation string debits. */
  function BalanceDelta(operation: string, amount: int): (d: int)
    ensures operation == "add" ==> d == amount
    ensures operation != "add" ==> d == -amount
  {
    if operation == "add" then amount else -amount
  }

  /** The outcome and the new wallet table of one locked balance update. */
  function SafeUpdate(rows: seq<Wallet>, user: UserId, amount: int, operation: string): (Result<Wallet, WalletError>, seq<Wallet>)
  {
    match FindWallet(rows, user)
    case None => (Failure(RecordNotFound), rows)
    case Some(i) =>
      if operation == "deduct" && rows[i].balance < amount then (Failure(InsufficientBalance), rows)
      else
        var after := Adjust(rows, i, BalanceDelta(operation, amount));
        (Success(after[i]), after)
  }

  /**
    The outcomes a locked balance update can have: the computed one, or, once
    the wallet is found and the floor check passes, a store error from the
    UPDATE or the re-read, which the transaction rolls back.
  */
  predicate SafeUpdateAllows(rows: seq<Wallet>, user: UserId, amount: int, operation: string,
                             r: Result<Wallet, WalletError>, after: seq<Wallet>)
  {
    || (r, after) == SafeUpdate(rows, user, amount, operation)
    || (SafeUpdate(rows, user, amount, operation).0.Success? && r == Failure(StorageFailure) && after == rows)
  }

  /**
    Every error the locked update returns, a store error included, leaves the
    table as it was; a store error happens only where the update would have
    succeeded, and a success is the computed one.
  */
  lemma {:induction false} SafeUpdateErrorsRollBack(rows: seq<Wallet>, user: UserId, amount: int, operation: string,
                                 r: Result<Wallet, WalletError>, after: seq<Wallet>)
    requires SafeUpdateAllows(rows, user, amount, operation, r, after)
    ensures r.Failure? ==> after == rows
    ensures r.Success? ==> (r, after) == SafeUpdate(rows, user, amount, operation)
    ensures r == Failure(StorageFailure) ==>
      && FindWallet(rows, user).Some?
      && !(operation == "deduct" && rows[FindWallet(rows, user).value].balance < amount)
  {
  }

  /**
    A missing wallet and an insufficient deduction are errors that change no
    row; a success moves the user's first wallet by the operation's delta,
    returns that row and changes no other row, and the total moves by the delta.
  */
  lemma SafeUpdateOutcome(rows: seq<Wallet>, user: UserId, amount: int, operation: string)
    ensures var (r, after) := SafeUpdate(rows, user, amount, operation);
      && (FindWallet(rows, user).None? ==> r == Failure(RecordNotFound) && after == rows)
      && ((FindWallet(rows, user).Some? && operation == "deduct" && rows[FindWallet(rows, user).value].balance < amount)
            ==> r == Failure(InsufficientBalance) && after == rows)
      && (r.Failure? ==> after == rows)
      && (r.Success? ==>
            var i := FindWallet(rows, user).value;
            && |after| == |rows|
            && r.value == rows[i].(balance := rows[i].balance + BalanceDelta(operation, amount))
            && after[i] == r.value
            && (forall j :: 0 <= j < |rows| && j != i ==> after[j] == rows[j])
            && TotalBalance(after) == TotalBalance(rows) + BalanceDelta(operation, amount))
  {
    var (r, after) := SafeUpdate(rows, user, amount, operation);
    if r.Success? {
      TotalBalanceAdjust(rows, FindWallet(rows, user).value, BalanceDelta(operation, amount));
    }
  }

  /** With "add" or "deduct" and a non-negative amount, no balance becomes negative. */
  lemma SafeUpdateKeepsNonNegative(rows: seq<Wallet>, user: UserId, amount: int, operation: string)
    requires NonNegative(rows) && amount >= 0
    requires operation == "add" || operation == "deduct"
    ensures NonNegative(SafeUpdate(rows, user, amount, operation).1)
  {
  }

  /** Any other operation string debits without the floor check, so a balance can become negative. */
  lemma SafeUpdateUnknownOperationDebits(rows: seq<Wallet>, user: UserId, amount: int, operation: string)
    requires operation != "add" && operation != "deduct"
    requires FindWallet(rows, user).Some?
    ensures var i := FindWallet(rows, user).value;
      && SafeUpdate(rows, user, amount, operation).0 == Success(rows[i].(balance := rows[i].balance - amount))
      && (rows[i].balance < amount ==> SafeUpdate(rows, user, amount, operation).1[i].balance < 0)
  {
  }

  // ---------------------------------------------------------------------------
  // safeTransferInTx (wallet-service/repository/wallet.go:228-311)
  // ---------------------------------------------------------------------------

  /**
    The user ids whose wallet rows the transfer locks, in order. Whichever side
    sends, the smaller id is locked first; the run stops after one lock when
    the sender (the smaller id) has no wallet or too little money.
  */
  function TransferLocks(rows: seq<Wallet>, from: UserId, to: UserId, amount: int): (l: seq<UserId>)
    ensures 1 <= |l| <= 2
    ensures l[0] == if from < to then from else to
    ensures |l| == 2 ==> l[0] <= l[1] && l[1] == if from < to then to else from
  {
    if from < to then
      var f := FindWallet(rows, from);
      if f.None? || rows[f.value].balance < amount then [from] else [from, to]
    else [to, from]
  }

  /** Debit then credit, the debit guarded by `balance >= amount` as the UPDATE's WHERE clause has it. */
  function Move(before: seq<Wallet>, mid: seq<Wallet>, fi: nat, ti: nat, amount: int): (Option<WalletError>, seq<Wallet>)
    requires fi < |mid| && ti < |mid|
  {
    if mid[fi].balance >= amount then (None, Adjust(Adjust(mid, fi, -amount), ti, amount))
    else (Some(InsufficientBalance), before)
  }

  /** The outcome and the new wallet table of one transfer; every error restores `rows` (the rollback). */
  function SafeTransferSpec(rows: seq<Wallet>, from: UserId, to: UserId, amount: int): (Option<WalletError>, seq<Wallet>)
  {
    if from < to then SenderFirst(rows, from, to, amount) else RecipientFirst(rows, from, to, amount)
  }

  /** The sender has the smaller id: its wallet is locked and checked before the recipient's is created. */
  function SenderFirst(rows: seq<Wallet>, from: UserId, to: UserId, amount: int): (Option<WalletError>, seq<Wallet>)
  {
    match FindWallet(rows, from)
    case None => (Some(RecordNotFound), rows)
    case Some(fi) =>
      if rows[fi].balance < amount then (Some(InsufficientBalance), rows)
      else
        var mid := EnsureWallet(rows, to);
        EnsureWalletFinds(rows, to);
        Move(rows, mid, fi, FindWallet(mid, to).value, amount)
  }

  /** The recipient has the smaller id (or is the sender): its wallet is locked, and created, first. */
  function RecipientFirst(rows: seq<Wallet>, from: UserId, to: UserId, amount: int): (Option<WalletError>, seq<Wallet>)
  {
    var mid := EnsureWallet(rows, to);
    EnsureWalletFinds(rows, to);
    match FindWallet(mid, from)
    case None => (Some(RecordNotFound), rows)
    case Some(fi) =>
      if mid[fi].balance < amount then (Some(InsufficientBalance), rows)
      else Move(rows, mid, fi, FindWallet(mid, to).value, amount)
  }

  /**
    Whether the transfer reaches one of its writes: the creation of a missing
    recipient wallet or the debit. In sender-first order both come after the
    sender's check; in recipient-first order the creation comes before it.
  */
  predicate TransferWrites(rows: seq<Wallet>, from: UserId, to: UserId, amount: int)
  {
    var f := FindWallet(rows, from);
    var senderCovers := f.Some? && rows[f.value].balance >= amount;
    if from < to then senderCovers else FindWallet(rows, to).None? || senderCovers
  }

  /**
    The recipient-first transfer read step by step, after the recipient's
    wallet has been locked or created: the sender's lookup in that table
    decides the outcome, and a covered debit is a write the transfer reaches.
  */
  lemma {:induction false} RecipientFirstSteps(rows: seq<Wallet>, from: UserId, to: UserId, amount: int)
    ensures var mid := EnsureWallet(rows, to);
      var f := FindWallet(mid, from);
      && FindWallet(mid, to).Some?
      && (f.None? ==> RecipientFirst(rows, from, to, amount) == (Some(RecordNotFound), rows))
      && (f.Some? && mid[f.value].balance < amount ==>
            RecipientFirst(rows, from, to, amount) == (Some(InsufficientBalance), rows))
      && (f.Some? && mid[f.value].balance >= amount ==>
            && RecipientFirst(rows, from, to, amount) == Move(rows, mid, f.value, FindWallet(mid, to).value, amount)
            && (from >= to ==> TransferWrites(rows, from, to, amount)))
  {
    var mid := EnsureWallet(rows, to);
    EnsureWalletFinds(rows, to);
    if FindWallet(rows, to).Some? {
      assert mid == rows;
    }
  }

  /**
    The outcomes a transfer can have: the computed one, or a store error from
    one of the writes it reaches, after which the transaction rolls every row
    back, the recipient's new wallet included.
  */
  predicate SafeTransferAllows(rows: seq<Wallet>, from: UserId, to: UserId, amount: int,
                               err: Option<WalletError>, after: seq<Wallet>)
  {
    || (err, after) == SafeTransferSpec(rows, from, to, amount)
    || (TransferWrites(rows, from, to, amount) && err == Some(StorageFailure) && after == rows)
  }

  /**
    A transfer reaches a write exactly when it would succeed, or when the
    recipient, locked first, has no wallet yet and one is created.
  */
  lemma {:induction false} TransferWritesExactly(rows: seq<Wallet>, from: UserId, to: UserId, amount: int)
    ensures TransferWrites(rows, from, to, amount) <==>
      SafeTransferSpec(rows, from, to, amount).0.None? || (from >= to && FindWallet(rows, to).None?)
  {
    var fi, ti := TransferShape(rows, from, to, amount);
    var mid := EnsureWallet(rows, to);
    EnsureWalletFinds(rows, to);
    if FindWallet(rows, to).Some? {
      assert mid == rows;
    } else if from != to {
      FindWalletAppend(rows, Wallet(|rows| + 1, to, 0), from);
      if FindWallet(rows, from).Some? {
        assert mid[FindWallet(rows, from).value] == rows[FindWallet(rows, from).value];
      }
    }
  }

  /**
    Every transfer either changes nothing or is one debit and one credit on
    the table after lazy creation: `fi` is the sender's wallet there and `ti`
    the recipient's.
  */
  lemma TransferShape(rows: seq<Wallet>, from: UserId, to: UserId, amount: int) returns (fi: nat, ti: nat)
    ensures var mid := EnsureWallet(rows, to);
      var (e, after) := SafeTransferSpec(rows, from, to, amount);
      && (e.Some? ==> after == rows)
      && (e.None? ==>
            && fi < |mid| && ti < |mid|
            && FindWallet(mid, from) == Some(fi) && FindWallet(mid, to) == Some(ti)
            && (from != to ==> FindWallet(rows, from) == Some(fi))
            && mid[fi].balance >= amount
            && after == Adjust(Adjust(mid, fi, -amount), ti, amount))
  {
    var mid := EnsureWallet(rows, to);
    EnsureWalletFinds(rows, to);
    ti := FindWallet(mid, to).value;
    if FindWallet(rows, to).None? {
      FindWalletAppend(rows, Wallet(|rows| + 1, to, 0), from);
    }
    fi := if FindWallet(mid, from).Some? then FindWallet(mid, from).value else 0;
    if from < to && FindWallet(rows, from).Some? {
      assert mid[fi] == rows[fi];
    }
  }

  /**
    A missing sender wallet or too little money fails the transfer and leaves
    every row as it was; so does every other error an allowed outcome carries,
    a store error included, and an allowed success is the computed one.
  */
  lemma TransferFailureRollsBack(rows: seq<Wallet>, from: UserId, to: UserId, amount: int,
                                 err: Option<WalletError>, after: seq<Wallet>)
    requires SafeTransferAllows(rows, from, to, amount, err, after)
    ensures err.Some? ==> after == rows
    ensures err.None? ==> (err, after) == SafeTransferSpec(rows, from, to, amount)
    ensures (from != to && FindWallet(rows, from).None?) ==> SafeTransferSpec(rows, from, to, amount) == (Some(RecordNotFound), rows)
    ensures SafeTransferSpec(rows, from, to, amount).0.Some? ==> SafeTransferSpec(rows, from, to, amount).1 == rows
    ensures (from != to && FindWallet(rows, from).Some? && rows[FindWallet(rows, from).value].balance < amount)
              ==> SafeTransferSpec(rows, from, to, amount) == (Some(InsufficientBalance), rows)
  {
    var fi, ti := TransferShape(rows, from, to, amount);
    var mid := EnsureWallet(rows, to);
    if from != to && FindWallet(rows, from).Some? && FindWallet(rows, to).None? {
      FindWalletAppend(rows, Wallet(|rows| + 1, to, 0), from);
      assert mid[FindWallet(rows, from).value] == rows[FindWallet(rows, from).value];
    }
    if from != to && FindWallet(rows, from).None? && FindWallet(rows, to).None? {
      FindWalletAppend(rows, Wallet(|rows| + 1, to, 0), from);
    }
  }

  /**
    A successful transfer between two users takes `amount` from the sender's
    wallet, gives it to the recipient's wallet (created with balance 0 when it
    was missing), changes no other wallet and preserves the total of all balances.
  */
  lemma {:induction false} TransferSuccessMovesAmount(rows: seq<Wallet>, from: UserId, to: UserId, amount: int)
    requires from != to
    requires SafeTransferSpec(rows, from, to, amount).0.None?
    ensures var after := SafeTransferSpec(rows, from, to, amount).1;
      var mid := EnsureWallet(rows, to);
      && FindWallet(rows, from).Some?
      && var fi := FindWallet(rows, from).value;
      && var ti := FindWallet(mid, to).value;
      && after == Adjust(Adjust(mid, fi, -amount), ti, amount)
      && rows[fi].balance >= amount
      && after[fi].balance == rows[fi].balance - amount
      && after[ti].balance == mid[ti].balance + amount
      && (FindWallet(rows, to).None? ==> ti == |rows| && after[ti] == Wallet(|rows| + 1, to, amount))
      && (forall j :: 0 <= j < |rows| && j != fi && j != ti ==> after[j] == rows[j])
      && TotalBalance(after) == TotalBalance(rows)
  {
    var fi, ti := TransferShape(rows, from, to, amount);
    var mid := EnsureWallet(rows, to);
    if FindWallet(rows, to).None? {
      assert mid[..|rows|] == rows;
      assert TotalBalance(mid) == TotalBalance(rows);
      assert forall i :: 0 <= i < |rows| ==> mid[i] == rows[i];
      assert ti == |rows|;
    }
    assert mid[fi] == rows[fi];
    TotalBalanceAdjust(mid, fi, -amount);
    TotalBalanceAdjust(Adjust(mid, fi, -amount), ti, amount);
  }

  /** Transferring a non-negative amount never makes a balance negative. */
  lemma TransferKeepsNonNegative(rows: seq<Wallet>, from: UserId, to: UserId, amount: int)
    requires NonNegative(rows) && amount >= 0
    ensures NonNegative(SafeTransferSpec(rows, from, to, amount).1)
  {
    var fi, ti := TransferShape(rows, from, to, amount);
    EnsureWalletFacts(rows, to);
  }

  /** A balance update keeps every id and owner. */
  lemma AdjustKeepsOwners(rows: seq<Wallet>, i: nat, delta: int)
    requires i < |rows|
    ensures var a := Adjust(rows, i, delta);
      && |a| == |rows|
      && (forall j :: 0 <= j < |rows| ==> a[j].id == rows[j].id && a[j].userId == rows[j].userId)
      && (IdsArePositions(rows) ==> IdsArePositions(a))
      && (OneWalletPerUser(rows) ==> OneWalletPerUser(a))
  {
  }

  /** A balance update leaves every user's wallet lookup where it was. */
  lemma {:induction false} FindWalletAdjust(rows: seq<Wallet>, i: nat, delta: int, user: UserId)
    requires i < |rows|
    ensures FindWallet(Adjust(rows, i, delta), user) == FindWallet(rows, user)
  {
    var a := Adjust(rows, i, delta);
    var f, g := FindWallet(rows, user), FindWallet(a, user);
    if f.Some? {
      assert a[f.value].userId == user;
    }
    if g.Some? {
      assert rows[g.value].userId == user;
    }
  }

  /** Lazily creating a user's wallet and updating the balance of an existing row commute. */
  lemma {:induction false} EnsureWalletAdjust(rows: seq<Wallet>, i: nat, delta: int, user: UserId)
    requires i < |rows|
    ensures EnsureWallet(Adjust(rows, i, delta), user) == Adjust(EnsureWallet(rows, user), i, delta)
  {
    FindWalletAdjust(rows, i, delta, user);
    if FindWallet(rows, user).None? {
      var w := Wallet(|rows| + 1, user, 0);
      assert Adjust(rows + [w], i, delta) == Adjust(rows, i, delta) + [w];
    }
  }

  /**
    A debit of the sender's existing wallet, covered by its balance, followed
    by a credit of the recipient's wallet, created on demand, is what a
    successful locked transfer does.
  */
  lemma {:induction false} DebitThenCreditIsTransfer(rows: seq<Wallet>, from: UserId, to: UserId, amount: int)
    requires from != to && FindWallet(rows, from).Some?
    requires rows[FindWallet(rows, from).value].balance >= amount
    ensures var fi := FindWallet(rows, from).value;
      var (e, ti) := LazyWallet(Adjust(rows, fi, -amount), to);
      SafeTransferSpec(rows, from, to, amount) == (None, Adjust(e, ti, amount))
  {
    var fi := FindWallet(rows, from).value;
    var mid := EnsureWallet(rows, to);
    EnsureWalletFinds(rows, to);
    var ti := FindWallet(mid, to).value;
    CoveredTransferSucceeds(rows, from, to, amount);
    CreditAfterDebit(rows, fi, amount, to);
  }

  /** A transfer between two users whose sender's wallet covers the amount succeeds. */
  lemma {:induction false} CoveredTransferSucceeds(rows: seq<Wallet>, from: UserId, to: UserId, amount: int)
    requires from != to && FindWallet(rows, from).Some?
    requires rows[FindWallet(rows, from).value].balance >= amount
    ensures var fi := FindWallet(rows, from).value;
      var mid := EnsureWallet(rows, to);
      FindWallet(mid, to).Some? &&
      SafeTransferSpec(rows, from, to, amount) == (None, Adjust(Adjust(mid, fi, -amount), FindWallet(mid, to).value, amount))
  {
    var fi := FindWallet(rows, from).value;
    var mid := EnsureWallet(rows, to);
    EnsureWalletFinds(rows, to);
    if from < to {
      assert mid[fi] == rows[fi];
    } else {
      EnsureWalletFacts(rows, to);
      assert FindWallet(mid, from) == Some(fi) && mid[fi] == rows[fi];
    }
  }

  /** Debiting row `fi` and then crediting the recipient's wallet, created on demand, is the credit on the table made first. */
  lemma {:induction false} CreditAfterDebit(rows: seq<Wallet>, fi: nat, amount: int, to: UserId)
    requires fi < |rows|
    ensures var mid := EnsureWallet(rows, to);
      var e := EnsureWallet(Adjust(rows, fi, -amount), to);
      e == Adjust(mid, fi, -amount) && FindWallet(e, to) == FindWallet(mid, to)
  {
    var mid := EnsureWallet(rows, to);
    EnsureWalletFinds(rows, to);
    EnsureWalletAdjust(rows, fi, -amount, to);
    FindWalletAdjust(mid, fi, -amount, to);
  }

  /** The transfer keeps ids equal to positions and creates no second wallet for a user. */
  lemma {:induction false} TransferKeepsTableShape(rows: seq<Wallet>, from: UserId, to: UserId, amount: int)
    requires IdsArePositions(rows)
    ensures var after := SafeTransferSpec(rows, from, to, amount).1;
      IdsArePositions(after) && (OneWalletPerUser(rows) ==> OneWalletPerUser(after))
  {
    var fi, ti := TransferShape(rows, from, to, amount);
    if SafeTransferSpec(rows, from, to, amount).0.None? {
      EnsureWalletFacts(rows, to);
      MoveKeepsShape(EnsureWallet(rows, to), fi, ti, amount);
    }
  }

  /** Debiting one row and crediting another keeps ids positional and owners unique. */
  lemma {:induction false} MoveKeepsShape(mid: seq<Wallet>, fi: nat, ti: nat, amount: int)
    requires fi < |mid| && ti < |mid|
    ensures var after := Adjust(Adjust(mid, fi, -amount), ti, amount);
      && (IdsArePositions(mid) ==> IdsArePositions(after))
      && (OneWalletPerUser(mid) ==> OneWalletPerUser(after))
  {
    AdjustKeepsOwners(mid, fi, -amount);
    AdjustKeepsOwners(Adjust(mid, fi, -amount), ti, amount);
  }

  /** The wallet table after lazy creation, with the position of the user's wallet in it. */
  function LazyWallet(rows: seq<Wallet>, user: UserId): (p: (seq<Wallet>, nat))
    ensures p.1 < |p.0| && p.0[p.1].userId == user
    ensures p.0 == EnsureWallet(rows, user) && FindWallet(p.0, user) == Some(p.1)
  {
    EnsureWalletFacts(rows, user);
    var e := EnsureWallet(rows, user);
    (e, FindWallet(e, user).value)
  }

  /** With ids equal to positions, the user's wallet after lazy creation has the id of its position. */
  lemma {:induction false} LazyWalletId(rows: seq<Wallet>, user: UserId)
    requires IdsArePositions(rows)
    ensures LazyWallet(rows, user).0[LazyWallet(rows, user).1].id == LazyWallet(rows, user).1 + 1
  {
    EnsureWalletFacts(rows, user);
  }

  // ---------------------------------------------------------------------------
  // The transaction table
  // ---------------------------------------------------------------------------

  predicate TxIdsArePositions(txs: seq<Transaction>)
  {
    forall i :: 0 <= i < |txs| ==> txs[i].id == i + 1
  }

  /** What a record contributes to wallet `wid`: only completed records count, income up and expense down. */
  function Effect(t: Transaction, wid: nat): int
  {
    if t.walletId != wid || t.status != Completed then 0
    else if t.kind == Income then t.amount else -t.amount
  }

  /** The sum of the effects of all records on wallet `wid`. */
  function Net(txs: seq<Transaction>, wid: nat): int
  {
    if txs == [] then 0 else Net(txs[..|txs| - 1], wid) + Effect(txs[|txs| - 1], wid)
  }

  /** Every wallet's balance equals the net of its completed records (initial balance 0). */
  predicate Reconciled(rows: seq<Wallet>, txs: seq<Transaction>)
  {
    forall i :: 0 <= i < |rows| ==> rows[i].balance == Net(txs, rows[i].id)
  }

  /** Every record belongs to an existing wallet. */
  predicate RecordsReferToWallets(rows: seq<Wallet>, txs: seq<Transaction>)
  {
    forall k :: 0 <= k < |txs| ==> 1 <= txs[k].walletId <= |rows|
  }

  /** The ledger invariant: positional ids, reconciled balances, and no record for a missing wallet. */
  predicate LedgerConsistent(rows: seq<Wallet>, txs: seq<Transaction>)
  {
    IdsArePositions(rows) && Reconciled(rows, txs) && RecordsReferToWallets(rows, txs)
  }

  lemma NetAppend(txs: seq<Transaction>, t: Transaction, wid: nat)
    ensures Net(txs + [t], wid) == Net(txs, wid) + Effect(t, wid)
  {
    assert (txs + [t])[..|txs|] == txs;
  }

  lemma {:induction false} NetUpdate(txs: seq<Transaction>, k: nat, t: Transaction, wid: nat)
    requires k < |txs|
    ensures Net(txs[k := t], wid) == Net(txs, wid) - Effect(txs[k], wid) + Effect(t, wid)
    decreases |txs|
  {
    var u := txs[k := t];
    if k < |txs| - 1 {
      assert u[..|u| - 1] == txs[..|txs| - 1][k := t];
      NetUpdate(txs[..|txs| - 1], k, t, wid);
    } else {
      assert u[..|u| - 1] == txs[..|txs| - 1];
    }
  }

  /** The signed amount a completed record of this kind moves. */
  function Signed(kind: TxType, amount: int): int
  {
    if kind == Income then amount else -amount
  }

  /**
    The safe layer's success path: the balance moves by the record's signed
    amount and one completed record for that wallet is appended. That keeps the
    ledger reconciled.
  */
  lemma CompletedRecordKeepsReconciled(rows: seq<Wallet>, txs: seq<Transaction>, i: nat, t: Transaction)
    requires IdsArePositions(rows) && Reconciled(rows, txs) && i < |rows|
    requires t.walletId == rows[i].id && t.status == Completed
    ensures Reconciled(Adjust(rows, i, Signed(t.kind, t.amount)), txs + [t])
  {
    var after := Adjust(rows, i, Signed(t.kind, t.amount));
    forall j | 0 <= j < |after|
      ensures after[j].balance == Net(txs + [t], after[j].id)
    {
      NetAppend(txs, t, rows[j].id);
    }
  }

  /**
    The older layer's success path: a pending record is appended, the balance
    moves, and the record is then marked completed. The ledger stays reconciled.
  */
  lemma PendingThenCompletedKeepsReconciled(rows: seq<Wallet>, txs: seq<Transaction>, i: nat, t: Transaction)
    requires IdsArePositions(rows) && Reconciled(rows, txs) && i < |rows|
    requires t.walletId == rows[i].id && t.status == Pending
    ensures Reconciled(Adjust(rows, i, Signed(t.kind, t.amount)), (txs + [t])[|txs| := t.(status := Completed)])
  {
    var after := Adjust(rows, i, Signed(t.kind, t.amount));
    var log := (txs + [t])[|txs| := t.(status := Completed)];
    assert log == txs + [t.(status := Completed)];
    CompletedRecordKeepsReconciled(rows, txs, i, t.(status := Completed));
  }

  /** The older layer's failure path: a pending record that ends pending or failed leaves the ledger reconciled. */
  lemma UnfinishedRecordKeepsReconciled(rows: seq<Wallet>, txs: seq<Transaction>, t: Transaction)
    requires Reconciled(rows, txs) && t.status != Completed
    ensures Reconciled(rows, txs + [t])
    ensures Reconciled(rows, (txs + [t])[|txs| := t.(status := Failed)])
  {
    assert (txs + [t])[|txs| := t.(status := Failed)] == txs + [t.(status := Failed)];
    forall j | 0 <= j < |rows|
      ensures rows[j].balance == Net(txs + [t], rows[j].id)
      ensures rows[j].balance == Net(txs + [t.(status := Failed)], rows[j].id)
    {
      NetAppend(txs, t, rows[j].id);
      NetAppend(txs, t.(status := Failed), rows[j].id);
    }
  }

  lemma {:induction false} NetOfUnreferencedWallet(txs: seq<Transaction>, wid: nat)
    requires forall k :: 0 <= k < |txs| ==> txs[k].walletId != wid
    ensures Net(txs, wid) == 0
    decreases |txs|
  {
    if txs != [] {
      NetOfUnreferencedWallet(txs[..|txs| - 1], wid);
    }
  }

  /** A lazily created wallet starts at 0 and has no records, so the ledger stays consistent. */
  lemma {:induction false} EnsureWalletKeepsConsistent(rows: seq<Wallet>, txs: seq<Transaction>, user: UserId)
    requires LedgerConsistent(rows, txs)
    ensures LedgerConsistent(EnsureWallet(rows, user), txs)
  {
    if FindWallet(rows, user).None? {
      FreshWalletKeepsConsistent(rows, txs, user);
    }
  }

  /** Appending a zero-balance row with the next id, which no record refers to yet. */
  lemma {:induction false} FreshWalletKeepsConsistent(rows: seq<Wallet>, txs: seq<Transaction>, user: UserId)
    requires LedgerConsistent(rows, txs)
    ensures LedgerConsistent(rows + [Wallet(|rows| + 1, user, 0)], txs)
  {
    NetOfUnreferencedWallet(txs, |rows| + 1);
  }

  /**
    A completed record appended with the balance change it describes (the safe
    layer's success path) keeps the ledger consistent.
  */
  lemma CompletedRecordKeepsConsistent(rows: seq<Wallet>, txs: seq<Transaction>, i: nat, t: Transaction)
    requires LedgerConsistent(rows, txs) && i < |rows|
    requires t.walletId == rows[i].id && t.status == Completed
    ensures LedgerConsistent(Adjust(rows, i, Signed(t.kind, t.amount)), txs + [t])
  {
    CompletedRecordKeepsReconciled(rows, txs, i, t);
  }

  /**
    The older layer's outcomes keep the ledger consistent: the pending record
    completed together with the balance change, or left pending or failed
    without one.
  */
  lemma PendingRecordOutcomesKeepConsistent(rows: seq<Wallet>, txs: seq<Transaction>, i: nat, t: Transaction)
    requires LedgerConsistent(rows, txs) && i < |rows|
    requires t.walletId == rows[i].id && t.status == Pending
    ensures LedgerConsistent(Adjust(rows, i, Signed(t.kind, t.amount)), txs + [t.(status := Completed)])
    ensures LedgerConsistent(rows, txs + [t])
    ensures LedgerConsistent(rows, txs + [t.(status := Failed)])
  {
    CompletedRecordKeepsReconciled(rows, txs, i, t.(status := Completed));
    UnfinishedRecordKeepsReconciled(rows, txs, t);
    assert (txs + [t])[|txs| := t.(status := Failed)] == txs + [t.(status := Failed)];
  }

  /**
    The repository transfer writes no transaction record, so a successful
    transfer of a non-zero amount out of a reconciled ledger leaves it
    unreconciled: the sender's balance moved and its records did not.
  */
  lemma TransferWithoutRecordsBreaksReconciliation(rows: seq<Wallet>, txs: seq<Transaction>, from: UserId, to: UserId, amount: int)
    requires IdsArePositions(rows) && Reconciled(rows, txs)
    requires from != to && amount != 0
    requires SafeTransferSpec(rows, from, to, amount).0.None?
    ensures !Reconciled(SafeTransferSpec(rows, from, to, amount).1, txs)
  {
    TransferSuccessMovesAmount(rows, from, to, amount);
    var after := SafeTransferSpec(rows, from, to, amount).1;
    var fi := FindWallet(rows, from).value;
    EnsureWalletFacts(rows, to);
    assert after[fi].id == rows[fi].id;
    assert after[fi].balance != Net(txs, after[fi].id);
  }

  /** The description of the sender's side of a transfer ("Transfer to user %d: %s"). */
  function TransferToDescription(to: UserId, description: string): (d: string)
    ensures |d| > |description| && d[|d| - |description|..] == description
    ensures |d| >= 17 && d[..17] == "Transfer to user "
  {
    "Transfer to user " + NatToString(to) + ": " + description
  }

  /** The description of the recipient's side of a transfer ("Transfer from user %d: %s"). */
  function TransferFromDescription(from: UserId, description: string): (d: string)
    ensures |d| > |description| && d[|d| - |description|..] == description
    ensures |d| >= 19 && d[..19] == "Transfer from user "
  {
    "Transfer from user " + NatToString(from) + ": " + description
  }

  // ---------------------------------------------------------------------------
  // GetTransactionsByUserID (wallet-service/repository/wallet.go:125-132)
  // ---------------------------------------------------------------------------

  /** The user's records, newest first (the reverse of insertion order). */
  function TransactionsOf(txs: seq<Transaction>, user: UserId): (r: seq<Transaction>)
    ensures forall k :: 0 <= k < |r| ==> r[k].userId == user && r[k] in txs
    ensures forall t :: t in txs && t.userId == user ==> t in r
    ensures TxIdsArePositions(txs) ==> forall a, b :: 0 <= a < b < |r| ==> r[a].id > r[b].id
    ensures TxIdsArePositions(txs) && |txs| > 0 ==> forall k :: 0 <= k < |r| ==> r[k].id <= |txs|
  {
    if txs == [] then []
    else
      var last := txs[|txs| - 1];
      var rest := TransactionsOf(txs[..|txs| - 1], user);
      if last.userId == user then [last] + rest else rest
  }
}

=== FILE: wallet_repository.dfy ===
/**
  The wallet service's store (wallet-service/repository/wallet.go): a wallet
  table and a transaction table. Each call is one atomic step; a call that
  runs inside a database transaction restores the table on any error (the
  rollback). Row locks are recorded, in the order they are requested, in the
  ghost `locks` log. A store error the callers react to is a nondeterministic
  outcome of the call.
*/
module WalletRepository {
  import opened Wrappers
  import opened WalletModels

  class WalletRepository {
    var wallets: seq<Wallet>
    ghost var locks: seq<UserId>

    ghost predicate Valid()
      reads this
    {
      IdsArePositions(wallets)
    }

    constructor ()
      ensures Valid() && wallets == [] && locks == []
    {
      wallets := [];
      locks := [];
    }

    /** `CreateWallet` (lines 90-92): inserts the row with the next id, or fails with a store error. */
    method CreateWallet(w: Wallet) returns (r: Result<Wallet, WalletError>)
      requires Valid()
      modifies this
      ensures Valid() && locks == old(locks)
      ensures r.Success? ==> r.value == w.(id := |old(wallets)| + 1) && wallets == old(wallets) + [r.value]
      ensures r.Failure? ==> r.error == StorageFailure && wallets == old(wallets)
    {
      var fault: bool := *;
      if fault {
        return Failure(StorageFailure);
      }
      var created := w.(id := |wallets| + 1);
      wallets := wallets + [created];
      r := Success(created);
    }

    /** `GetWalletByUserID` (lines 95-102): the user's first wallet row, or not-found. */
    method GetWalletByUserID(user: UserId) returns (r: Result<Wallet, WalletError>)
      ensures r.Success? ==> r.value.userId == user && r.value in wallets
      ensures r.Success? <==> exists i :: 0 <= i < |wallets| && wallets[i].userId == user
      ensures r.Success? ==> r.value == wallets[FindWallet(wallets, user).value]
      ensures r.Failure? ==> r.error == RecordNotFound
    {
      var i := FindWallet(wallets, user);
      if i.None? {
        return Failure(RecordNotFound);
      }
      r := Success(wallets[i.value]);
    }

    /** `UpdateWallet` (lines 105-107): saves the whole row with `w.id`, or fails with a store error. */
    method UpdateWallet(w: Wallet) returns (ok: bool)
      requires Valid() && 1 <= w.id <= |wallets|
      modifies this
      ensures Valid() && locks == old(locks)
      ensures ok ==> wallets == old(wallets)[w.id - 1 := w]
      ensures !ok ==> wallets == old(wallets)
    {
      var fault: bool := *;
      if fault {
        return false;
      }
      wallets := wallets[w.id - 1 := w];
      ok := true;
    }

    /**
      `SafeUpdateWalletBalance` (lines 160-212): lock the user's wallet, refuse a
      deduction larger than the balance, add `amount` for "add" and subtract it
      for any other operation, and return the re-read row. A store error from
      the UPDATE or the re-read rolls the row back.
    */
    method SafeUpdateWalletBalance(user: UserId, amount: int, operation: string) returns (r: Result<Wallet, WalletError>)
      requires Valid()
      modifies this
      ensures Valid()
      ensures SafeUpdateAllows(old(wallets), user, amount, operation, r, wallets)
      ensures locks == old(locks) + [user]
    {
      locks := locks + [user];
      var found := FindWallet(wallets, user);
      if found.None? {
        return Failure(RecordNotFound);
      }
      var i := found.value;
      var wallet := wallets[i];
      if operation == "deduct" {
        if wallet.balance < amount {
          return Failure(InsufficientBalance);
        }
      }
      var updateAmount: int;
      if operation == "add" {
        updateAmount := amount;
      } else {
        updateAmount := -amount;
      }
      var fault: bool := *;
      if fault {
        return Failure(StorageFailure);
      }
      wallets := wallets[i := wallets[i].(balance := wallets[i].balance + updateAmount)];
      r := Success(wallets[i]);
    }

    /**
      `SafeTransfer` without an outer transaction (lines 215-225), which runs
      `safeTransferInTx` (lines 228-311) in a transaction of its own: lock the
      two wallets smaller user id first, check the sender's balance, create a
      missing recipient wallet, debit under `balance >= amount`, credit, and
      on any error, a store error included, roll every row back. A store error
      stops the run after a prefix of the planned locks.
    */
    method SafeTransfer(from: UserId, to: UserId, amount: int, description: string) returns (err: Option<WalletError>)
      requires Valid()
      modifies this
      ensures Valid()
      ensures SafeTransferAllows(old(wallets), from, to, amount, err, wallets)
      ensures err != Some(StorageFailure) ==> locks == old(locks) + TransferLocks(old(wallets), from, to, amount)
      ensures err == Some(StorageFailure) ==>
        |old(locks)| < |locks| && locks <= old(locks) + TransferLocks(old(wallets), from, to, amount)
    {
      if from < to {
        err := TransferSenderFirst(from, to, amount);
      } else {
        err := TransferRecipientFirst(from, to, amount);
      }
    }

    /** Lines 232-261 and 289-310: lock and check the sender, then lock or create the recipient, then move the money. */
    method TransferSenderFirst(from: UserId, to: UserId, amount: int) returns (err: Option<WalletError>)
      requires Valid() && from < to
      modifies this
      ensures Valid()
      ensures || (err, wallets) == SenderFirst(old(wallets), from, to, amount)
              || (TransferWrites(old(wallets), from, to, amount) && err == Some(StorageFailure) && wallets == old(wallets))
      ensures locks == old(locks) + TransferLocks(old(wallets), from, to, amount)
    {
      var saved := wallets;
      EnsureWalletFinds(saved, to);
      locks := locks + [from];
      var f := FindWallet(wallets, from);
      if f.None? {
        return Some(RecordNotFound);
      }
      if wallets[f.value].balance < amount {
        return Some(InsufficientBalance);
      }
      locks := locks + [to];
      var created := LockRecipient(to);
      if !created {
        return Some(StorageFailure);
      }
      err := DebitThenCredit(saved, f.value, FindWallet(wallets, to).value, amount);
    }

    /** Lines 262-310: lock or create the recipient, then lock and check the sender, then move the money. */
    method TransferRecipientFirst(from: UserId, to: UserId, amount: int) returns (err: Option<WalletError>)
      requires Valid() && from >= to
      modifies this
      ensures Valid()
      ensures || (err, wallets) == RecipientFirst(old(wallets), from, to, amount)
              || (TransferWrites(old(wallets), from, to, amount) && err == Some(StorageFailure) && wallets == old(wallets))
      ensures err != Some(StorageFailure) ==> locks == old(locks) + TransferLocks(old(wallets), from, to, amount)
      ensures err == Some(StorageFailure) ==>
        locks == old(locks) + TransferLocks(old(wallets), from, to, amount) || locks == old(locks) + [to]
    {
      var saved := wallets;
      locks := locks + [to];
      var created := LockRecipient(to);
      if !created {
        return Some(StorageFailure);
      }
      err := CheckSenderThenMove(saved, from, to, amount);
    }

    /** Lines 277-310: with the recipient's wallet locked or created, lock and check the sender, then move the money. */
    method CheckSenderThenMove(saved: seq<Wallet>, from: UserId, to: UserId, amount: int) returns (err: Option<WalletError>)
      requires Valid() && IdsArePositions(saved) && from >= to && wallets == EnsureWallet(saved, to)
      modifies this
      ensures Valid()
      ensures || (err, wallets) == RecipientFirst(saved, from, to, amount)
              || (TransferWrites(saved, from, to, amount) && err == Some(StorageFailure) && wallets == saved)
      ensures locks == old(locks) + [from]
    {
      RecipientFirstSteps(saved, from, to, amount);
      locks := locks + [from];
      var f := FindWallet(wallets, from);
      if f.None? {
        wallets := saved;
        return Some(RecordNotFound);
      }
      if wallets[f.value].balance < amount {
        wallets := saved;
        return Some(InsufficientBalance);
      }
      err := DebitThenCredit(saved, f.value, FindWallet(wallets, to).value, amount);
    }

    /**
      The locked read of the recipient's wallet, inserting a zero-balance row
      when there is none (lines 247-260, 263-275); the insert can fail with a
      store error, which changes nothing.
    */
    method LockRecipient(to: UserId) returns (ok: bool)
      requires Valid()
      modifies this`wallets
      ensures Valid()
      ensures ok ==> wallets == EnsureWallet(old(wallets), to)
      ensures !ok ==> FindWallet(old(wallets), to).None? && wallets == old(wallets)
    {
      var t := FindWallet(wallets, to);
      if t.None? {
        var fault: bool := *;
        if fault {
          return false;
        }
        wallets := wallets + [Wallet(|wallets| + 1, to, 0)];
      }
      ok := true;
    }

    /**
      The conditional debit and the credit (lines 289-310); a refused debit, or
      a store error from either UPDATE, restores `saved`.
    */
    method DebitThenCredit(saved: seq<Wallet>, fi: nat, ti: nat, amount: int) returns (err: Option<WalletError>)
      requires Valid() && fi < |wallets| && ti < |wallets|
      requires IdsArePositions(saved)
      modifies this`wallets
      ensures Valid()
      ensures || (err, wallets) == Move(saved, old(wallets), fi, ti, amount)
              || (err == Some(StorageFailure) && wallets == saved)
    {
      var fault: bool := *;
      if fault {
        wallets := saved;
        return Some(StorageFailure);
      }
      if wallets[fi].balance >= amount {
        wallets := wallets[fi := wallets[fi].(balance := wallets[fi].balance - amount)];
      } else {
        wallets := saved;
        return Some(InsufficientBalance);
      }
      fault := *;
      if fault {
        wallets := saved;
        return Some(StorageFailure);
      }
      wallets := wallets[ti := wallets[ti].(balance := wallets[ti].balance + amount)];
      err := None;
    }
  }

  class TransactionRepository {
    var transactions: seq<Transaction>

    ghost predicate Valid()
      reads this
    {
      TxIdsArePositions(transactions)
    }

    constructor ()
      ensures Valid() && transactions == []
    {
      transactions := [];
    }

    /** `CreateTransaction` (lines 110-112): appends the record with the next id, or fails with a store error. */
    method CreateTransaction(t: Transaction) returns (r: Result<Transaction, WalletError>)
      requires Valid()
      modifies this
      ensures Valid()
      ensures r.Success? ==> r.value == t.(id := |old(transactions)| + 1) && transactions == old(transactions) + [r.value]
      ensures r.Failure? ==> r.error == StorageFailure && transactions == old(transactions)
    {
      var fault: bool := *;
      if fault {
        return Failure(StorageFailure);
      }
      var created := t.(id := |transactions| + 1);
      transactions := transactions + [created];
      r := Success(created);
    }

    /** `GetTransactionByID` (lines 115-122). */
    method GetTransactionByID(id: nat) returns (r: Result<Transaction, WalletError>)
      requires Valid()
      ensures r.Success? <==> 1 <= id <= |transactions|
      ensures r.Success? ==> r.value in transactions && r.value.id == id
      ensures r.Failure? ==> r.error == RecordNotFound
    {
      if 1 <= id <= |transactions| {
        r := Success(transactions[id - 1]);
      } else {
        r := Failure(RecordNotFound);
      }
    }

    /** `GetTransactionsByUserID` (lines 125-132): the user's records, newest first. */
    method GetTransactionsByUserID(user: UserId) returns (r: seq<Transaction>)
      requires Valid()
      ensures r == TransactionsOf(transactions, user)
    {
      r := TransactionsOf(transactions, user);
    }

    /** `UpdateTransaction` (lines 155-157): saves the whole record with `t.id`, or fails with a store error. */
    method UpdateTransaction(t: Transaction) returns (ok: bool)
      requires Valid() && 1 <= t.id <= |transactions|
      modifies this
      ensures Valid()
      ensures ok ==> transactions == old(transactions)[t.id - 1 := t]
      ensures !ok ==> transactions == old(transactions)
    {
      var fault: bool := *;
      if fault {
        return false;
      }
      transactions := transactions[t.id - 1 := t];
      ok := true;
    }
  }
}

=== FILE: wallet_safe_logic.dfy ===
/**
  The concurrency-safe wallet logic (wallet-service/logic/wallet_safe.go):
  validate, call one locked repository primitive, then append a completed
  record. Published payment events are kept in the ghost `events` log; the
  asynchronous publishing itself is not modelled.
*/
module WalletSafeLogic {
  import opened Wrappers
  import opened WalletModels
  import opened WalletRepository

  class SafeWalletLogic {
    const walletRepo: WalletRepository
    const transactionRepo: TransactionRepository
    /** Whether a message producer is configured (`swl.producer != nil`). */
    const hasProducer: bool
    ghost var events: seq<PaymentEvent>

    ghost predicate Valid()
      reads this, walletRepo, transactionRepo
    {
      walletRepo.Valid() && transactionRepo.Valid()
    }

    constructor (walletRepo: WalletRepository, transactionRepo: TransactionRepository, hasProducer: bool)
      requires walletRepo.Valid() && transactionRepo.Valid()
      ensures Valid() && events == []
      ensures this.walletRepo == walletRepo && this.transactionRepo == transactionRepo && this.hasProducer == hasProducer
    {
      this.walletRepo := walletRepo;
      this.transactionRepo := transactionRepo;
      this.hasProducer := hasProducer;
      events := [];
    }

    /** The event published after a successful balance change, if a producer is configured. */
    function Published(e: PaymentEvent): seq<PaymentEvent>
      reads this
    {
      if hasProducer then [e] else []
    }

    /**
      `SafeAddBalance` (lines 29-74). A non-positive amount changes nothing; a
      missing wallet is an error that appends no record, and so is a store
      error from the locked update, which changes no balance; otherwise the
      balance rises by `amount` and a completed income record for that wallet
      is returned. The record is stored unless the store fails, and that
      failure does not fail the call.
    */
    method SafeAddBalance(user: UserId, amount: int, description: string) returns (r: Result<Transaction, WalletError>)
      requires Valid()
      modifies this, walletRepo, transactionRepo
      ensures Valid()
      ensures amount <= 0 ==>
        r == Failure(AmountNotPositive) && unchanged(walletRepo, transactionRepo) && events == old(events)
      ensures amount > 0 ==>
        || walletRepo.wallets == SafeUpdate(old(walletRepo.wallets), user, amount, "add").1
        || (r == Failure(StorageFailure) && walletRepo.wallets == old(walletRepo.wallets))
      ensures r.Failure? ==>
        && walletRepo.wallets == old(walletRepo.wallets)
        && transactionRepo.transactions == old(transactionRepo.transactions)
        && events == old(events)
      ensures amount > 0 && FindWallet(old(walletRepo.wallets), user).None? ==> r == Failure(RecordNotFound)
      ensures r.Success? ==> amount > 0 && FindWallet(old(walletRepo.wallets), user).Some?
      ensures amount > 0 && FindWallet(old(walletRepo.wallets), user).Some? ==> r.Success? || r == Failure(StorageFailure)
      ensures r.Success? ==> walletRepo.wallets == SafeUpdate(old(walletRepo.wallets), user, amount, "add").1
      ensures r.Success? ==>
        var w := SafeUpdate(old(walletRepo.wallets), user, amount, "add").0.value;
        && r.value.(id := 0) == Transaction(0, user, w.id, Income, amount, description, Completed)
        && w.balance == old(walletRepo.wallets)[FindWallet(old(walletRepo.wallets), user).value].balance + amount
        && ((r.value.id == |old(transactionRepo.transactions)| + 1
              && transactionRepo.transactions == old(transactionRepo.transactions) + [r.value])
            || (r.value.id == 0 && transactionRepo.transactions == old(transactionRepo.transactions)))
        && events == old(events) + Published(PaymentEvent(user, amount, description, r.value.id))
    {
      if amount <= 0 {
        return Failure(AmountNotPositive);
      }
      SafeUpdateOutcome(walletRepo.wallets, user, amount, "add");
      ghost var W := walletRepo.wallets;
      var wallet := walletRepo.SafeUpdateWalletBalance(user, amount, "add");
      SafeUpdateErrorsRollBack(W, user, amount, "add", wallet, walletRepo.wallets);
      if wallet.Failure? {
        return Failure(wallet.error);
      }
      var transaction := Transaction(0, user, wallet.value.id, Income, amount, description, Completed);
      var created := transactionRepo.CreateTransaction(transaction);
      if created.Success? {
        transaction := created.value;
      }
      if hasProducer {
        events := events + [PaymentEvent(user, amount, description, transaction.id)];
      }
      r := Success(transaction);
    }

    /**
      `SafeDeductBalance` (lines 77-121). A non-positive amount, a missing
      wallet, a balance below `amount` or a store error from the locked update
      is an error that changes no balance and appends no record; otherwise the balance falls by `amount` and a
      completed expense record is returned (stored unless the store fails).
    */
    method SafeDeductBalance(user: UserId, amount: int, description: string) returns (r: Result<Transaction, WalletError>)
      requires Valid()
      modifies this, walletRepo, transactionRepo
      ensures Valid()
      ensures amount <= 0 ==>
        r == Failure(AmountNotPositive) && unchanged(walletRepo, transactionRepo) && events == old(events)
      ensures amount > 0 ==>
        || walletRepo.wallets == SafeUpdate(old(walletRepo.wallets), user, amount, "deduct").1
        || (r == Failure(StorageFailure) && walletRepo.wallets == old(walletRepo.wallets))
      ensures r.Success? ==> walletRepo.wallets == SafeUpdate(old(walletRepo.wallets), user, amount, "deduct").1
      ensures r == Failure(StorageFailure) ==>
        FindWallet(old(walletRepo.wallets), user).Some?
        && old(walletRepo.wallets)[FindWallet(old(walletRepo.wallets), user).value].balance >= amount
      ensures r.Failure? ==>
        && walletRepo.wallets == old(walletRepo.wallets)
        && transactionRepo.transactions == old(transactionRepo.transactions)
        && events == old(events)
      ensures (amount > 0 && FindWallet(old(walletRepo.wallets), user).Some?
                && old(walletRepo.wallets)[FindWallet(old(walletRepo.wallets), user).value].balance < amount)
                ==> r == Failure(InsufficientBalance)
      ensures r.Success? ==> FindWallet(old(walletRepo.wallets), user).Some?
      ensures r.Success? ==>
        var i := FindWallet(old(walletRepo.wallets), user).value;
        var w := SafeUpdate(old(walletRepo.wallets), user, amount, "deduct").0.value;
        && amount > 0
        && old(walletRepo.wallets)[i].balance >= amount
        && w.balance == old(walletRepo.wallets)[i].balance - amount
        && r.value.(id := 0) == Transaction(0, user, w.id, Expense, amount, description, Completed)
        && ((r.value.id == |old(transactionRepo.transactions)| + 1
              && transactionRepo.transactions == old(transactionRepo.transactions) + [r.value])
            || (r.value.id == 0 && transactionRepo.transactions == old(transactionRepo.transactions)))
        && events == old(events) + Published(PaymentEvent(user, -amount, description, r.value.id))
    {
      if amount <= 0 {
        return Failure(AmountNotPositive);
      }
      SafeUpdateOutcome(walletRepo.wallets, user, amount, "deduct");
      ghost var W := walletRepo.wallets;
      var wallet := walletRepo.SafeUpdateWalletBalance(user, amount, "deduct");
      SafeUpdateErrorsRollBack(W, user, amount, "deduct", wallet, walletRepo.wallets);
      if wallet.Failure? {
        return Failure(wallet.error);
      }
      var transaction := Transaction(0, user, wallet.value.id, Expense, amount, description, Completed);
      var created := transactionRepo.CreateTransaction(transaction);
      if created.Success? {
        transaction := created.value;
      }
      if hasProducer {
        events := events + [PaymentEvent(user, -amount, description, transaction.id)];
      }
      r := Success(transaction);
    }

    /**
      `SafeTransfer` (lines 124-153). A non-positive amount or a transfer to
      oneself is refused before anything changes; otherwise the repository's
      atomic transfer decides the outcome, and each of its errors, a store
      error included, leaves every wallet as it was. No transaction record is
      written.
    */
    method SafeTransfer(from: UserId, to: UserId, amount: int, description: string) returns (err: Option<WalletError>)
      requires Valid()
      modifies this, walletRepo, transactionRepo
      ensures Valid()
      ensures transactionRepo.transactions == old(transactionRepo.transactions)
      ensures amount <= 0 ==> err == Some(AmountNotPositive) && unchanged(walletRepo) && events == old(events)
      ensures amount > 0 && from == to ==>
        err == Some(CannotTransferToYourself) && unchanged(walletRepo) && events == old(events)
      ensures amount > 0 && from != to ==>
        SafeTransferAllows(old(walletRepo.wallets), from, to, amount, err, walletRepo.wallets)
      ensures err.None? ==> (err, walletRepo.wallets) == SafeTransferSpec(old(walletRepo.wallets), from, to, amount)
      ensures err.Some? ==> walletRepo.wallets == old(walletRepo.wallets) && events == old(events)
      ensures err.None? ==>
        events == old(events) + Published(PaymentEvent(from, -amount, TransferToDescription(to, description), 0))
    {
      if amount <= 0 {
        return Some(AmountNotPositive);
      }
      if from == to {
        return Some(CannotTransferToYourself);
      }
      ghost var W := walletRepo.wallets;
      err := walletRepo.SafeTransfer(from, to, amount, description);
      TransferFailureRollsBack(W, from, to, amount, err, walletRepo.wallets);
      if err.Some? {
        return;
      }
      if hasProducer {
        events := events + [PaymentEvent(from, -amount, TransferToDescription(to, description), 0)];
      }
    }
  }
}

=== FILE: wrappers.dfy ===
/** Failure-carrying result types shared by every service of the model. */
module Wrappers {

  datatype Option<+T> = None | Some(value: T)

  /** The value of a Go `(T, error)` pair: either a value or an error. */
  datatype Result<+T, +E> = Success(value: T) | Failure(error: E) {
    predicate IsFailure() { Failure? }

    function PropagateFailure<U>(): Result<U, E>
      requires Failure?
    {
      Failure(error)
    }

    function Extract(): T
      requires Success?
    {
      value
    }
  }
}
